=== FILE: README.md ===
# Vitaent Hub, modelled in Dafny

Vitaent Hub is a patient portal. A React front end holds these parts:

- sign-in, registration and an older login form;
- a dashboard, an emotion diary and a chat with doctors;
- a medicines overview and a form that creates a medication course.

A small ASP.NET back end signs users in against salted PBKDF2 password digests. This
project models the logic of those parts and proves what they promise.

One Dafny module per source file:

- Pure code (helpers, validation, payload building) becomes functions and lemmas.
- Page state that the handlers update becomes a class. Its fields are the page's state
  variables. Its methods are the handlers, with `modifies` clauses and postconditions
  that give the whole new state.

Shared modules:

- `Wrappers`: `Option` and `Result`.
- `Text`: the runtime string operations the code relies on. These are JavaScript
  `trim`, `toLowerCase`, `startsWith`, `includes` and `length` (in UTF-16 units), C#
  `Split`/`Join`, integer rendering and `int.TryParse`.
- `Navigation`: a full page load versus a client-side route.
- `Sequences`: order-preserving selections.

External effects become parameters or inputs:

- PBKDF2 and base64 are function parameters. Only the lemmas assume their laws: exact
  output length, and decode undoes encode.
- Token minting and the clock are parameters.
- The random salt, `Date.now()` and the formatted local time are inputs.
- The outcome of each network call is an input of the handler that receives it.

`PasswordHasher.Verify` returns a `Result`. A digest of the wrong shape or with an
iteration field that is not an integer verifies as false. A salt or key field that is
not base64 makes `Convert.FromBase64String` throw, and a non-positive iteration count
makes `Pbkdf2` throw; these are its `Failure` cases, which `AuthController.SignIn` turns
into a server error.

## Model

| member | source | states |
|---|---|---|
| PasswordHasher.Digest | backend/Services/Pbkdf2PasswordHasher.cs:16 | splitting a digest at `$` gives back exactly its four fields: tag, iteration count, encoded salt, encoded key |
| PasswordHasher.HashPassword | backend/Services/Pbkdf2PasswordHasher.cs:7-16 | a digest is `pbkdf2$100000$<base64 salt>$<base64 key>`, the key being PBKDF2 of the password and that salt with 100 000 iterations and 32 bytes |
| PasswordHasher.Verify | backend/Services/Pbkdf2PasswordHasher.cs:19-37 | true exactly when the digest has four fields led by `pbkdf2`, a positive count, a base64 salt and key, and the re-derived key equals the stored one; it raises only once the shape and the count have been read, and raises the range error only for a non-positive count |
| PasswordHasher.MalformedShapeIsFalse | backend/Services/Pbkdf2PasswordHasher.cs:21-25 | a digest that is not four fields led by `pbkdf2` verifies false |
| PasswordHasher.NonIntegerIterationsIsFalse | backend/Services/Pbkdf2PasswordHasher.cs:27-30 | an iteration field that `int.TryParse` rejects verifies false |
| PasswordHasher.UndecodableSaltRaises | backend/Services/Pbkdf2PasswordHasher.cs:32 | a salt field that is not base64 raises a format error instead of returning false |
| PasswordHasher.VerifyDigest | backend/Services/Pbkdf2PasswordHasher.cs:21-36 | for any positive 32-bit iteration count and any key, verification re-derives the key with the digest's own salt, count and key length and succeeds exactly when it matches |
| PasswordHasher.HashThenVerify | backend/Services/Pbkdf2PasswordHasher.cs:12-37 | round trip: a password verifies against its own digest |
| PasswordHasher.DistinctSaltsDistinctDigests | backend/Services/Pbkdf2PasswordHasher.cs:14-16 | digests made with different salts differ |
| PasswordHasher.OtherPassword | backend/Services/Pbkdf2PasswordHasher.cs:34-36 | another password verifies exactly when PBKDF2 maps it to the same key under that salt |
| PasswordHasher.EmptyKeyAcceptsAnyPassword | backend/Services/Pbkdf2PasswordHasher.cs:33-36 | a digest with an empty key field accepts every password |
| AuthController.FindUser | backend/Controllers/AuthController.cs:19 | the result is the first user with exactly that name, or none when no user has it |
| AuthController.LookupFindsUnique | backend/Data/ApplicationDbContext.cs:19 | with unique user names the lookup finds the one user of that name |
| AuthController.ExpiresInSeconds | backend/Controllers/AuthController.cs:26 | the remaining lifetime in whole seconds, truncated toward zero on both sides of zero |
| AuthController.SignIn | backend/Controllers/AuthController.cs:17-29 | success exactly when the first user with the requested name exists and the password verifies, and then the response holds the token minted for that user and its lifetime in whole seconds from now; a server error exactly when verification throws, carrying its error; `Unauthorized` otherwise |
| AuthController.UnknownUserIsUnauthorized | backend/Controllers/AuthController.cs:19-23 | an unknown user name gives 401 |
| AuthController.WrongPasswordIsUnauthorized | backend/Controllers/AuthController.cs:20-23 | a password that verifies false gives 401 |
| AuthController.StoredPasswordSignsIn | backend/Controllers/AuthController.cs:17-29 | a user whose digest was made from a password signs in with it and receives that user's token and lifetime |
| ApiClient.TokenHolder.constructor | src/api/client.ts:5 | the token starts as the stored value under `vitaent.accessToken` |
| ApiClient.TokenHolder.GetAccessToken | src/api/client.ts:17 | while storage mirrors memory, a truthy token is returned exactly when storage holds it under the key |
| ApiClient.TokenHolder.SetAccessToken | src/api/client.ts:7-15 | memory takes the token; storage keeps a truthy token and otherwise loses the key; other keys stay; storage mirrors memory afterwards |
| ApiClient.TokenHolder.Intercept | src/api/client.ts:28-35 | a truthy token adds `Authorization: Bearer <token>` to the headers, creating the map if missing; otherwise the config is unchanged |
| ApiClient.RequestConfig.constructor | src/api/client.ts:28 | a request config holds the headers it is given |
| ApiClient.StripTrailingSlashes | src/api/client.ts:20 | the result is a prefix without a final `/`, and only slashes were removed |
| ApiClient.ApiBaseUrl | src/api/client.ts:19-24 | a configured URL, trimmed and without trailing slashes, wins; otherwise `undefined` in development and `http://localhost:5163` in production; a result never ends with `/` |
| Text.Trim | src/pages/Medicines/MedicationUpsertPage.tsx:149 | the result neither starts nor ends with JavaScript white space |
| Text.TrimIsMiddle | src/pages/Medicines/MedicationUpsertPage.tsx:149 | the trimmed text is a contiguous middle of the input with only white space before and after it |
| Text.TrimEmptyIffBlank | src/pages/app/MessagesPage.tsx:114-117 | a string trims to empty exactly when it is all white space |
| Text.Split | backend/Services/Pbkdf2PasswordHasher.cs:21 | at least one field, none containing the separator, and joining the fields with the separator gives back the input |
| Text.SplitFirst | src/pages/app/HomePage.tsx:530 | the first field runs from the start up to the first separator, or to the end when there is none |
| Text.SplitHasSeparator | src/pages/app/HomePage.tsx:533 | there is more than one field exactly when the separator occurs |
| Text.SplitRest | src/pages/app/HomePage.tsx:533 | the fields after the first are the fields of the text after the first separator |
| Text.SplitSecond | src/pages/app/HomePage.tsx:533 | the second field runs from just after the first separator up to the next one, or to the end |
| Text.SplitJoin | backend/Services/Pbkdf2PasswordHasher.cs:16-21 | splitting undoes joining when no field holds the separator |
| Text.DecimalRoundTrip | backend/Services/Pbkdf2PasswordHasher.cs:16 | reading back the decimal digits of a natural number gives that number |
| Text.TryParseInt32 | backend/Services/Pbkdf2PasswordHasher.cs:27 | a parsed value lies in the 32-bit range |
| Text.ParseLayout | backend/Services/Pbkdf2PasswordHasher.cs:27 | any text made of white space, an optional `-` or `+`, one or more digits (leading zeros allowed), white space and then only NULs parses to its signed value when that fits in 32 bits, and fails otherwise |
| Text.ParseOnlyLayout | backend/Services/Pbkdf2PasswordHasher.cs:27 | every text that parses has that layout, and its value is the layout's signed value |
| Text.ParseRendered | backend/Services/Pbkdf2PasswordHasher.cs:16-27 | `int.TryParse` reads back every rendered 32-bit integer |
| Text.ToLowerIdempotent | src/pages/Medicines/MedicinesHomePage.tsx:56-58 | lower-casing twice is lower-casing once |
| SignIn.ValidateForm | src/pages/login/SignIn/sigin.tsx:43-46 | accepted iff the trimmed name is non-empty and the password is at least 6 UTF-16 units; the parsed form has a non-empty, trimmed name and such a password; on failure exactly the failing fields carry their messages |
| SignIn.PasswordLengthRule | src/pages/login/SignIn/sigin.tsx:45 | a password of Basic Multilingual Plane characters is accepted iff it has 6 or more characters |
| SignIn.ThreeAstralCharactersSuffice | src/pages/login/SignIn/sigin.tsx:45 | three characters outside the Basic Multilingual Plane already meet the minimum |
| Text.Utf16Length | src/pages/login/SignIn/sigin.tsx:45 | a string's JavaScript length lies between its character count and twice that |
| Text.Utf16LengthChar | src/pages/login/SignIn/sigin.tsx:45 | one character counts one unit below U+10000 and two (a surrogate pair) from U+10000 on |
| Text.Utf16LengthAppend | src/pages/login/SignIn/sigin.tsx:45 | the length of a concatenation is the sum of the lengths |
| SignIn.FailureMessage | src/pages/login/SignIn/sigin.tsx:114-120 | an `Error` shows its own message, anything else the generic text |
| SignIn.RedirectSignedIn | src/pages/login/SignIn/sigin.tsx:92-104 | no redirect without a clinic address; an `http` address is loaded as a page and any other leads to `/dashboard` |
| SignIn.SignInPage.constructor | src/pages/login/SignIn/sigin.tsx:52-58 | no error, nothing submitting, nothing in flight |
| SignIn.SignInPage.OnSubmit | src/pages/login/SignIn/sigin.tsx:106-128 | for a form the schema accepted: while busy nothing is sent and nothing changes; otherwise the error is cleared and the request with `UserName`/`Password` is sent |
| SignIn.SignInPage.OnError | src/pages/login/SignIn/sigin.tsx:114-120 | the failure's message is shown and the request is no longer in flight |
| SignIn.SignInPage.OnSuccess | src/pages/login/SignIn/sigin.tsx:106-113 | the request is no longer in flight |
| SignIn.SubmitTwice | src/pages/login/SignIn/sigin.tsx:124-125 | a second submission right after a first sends nothing |
| SignUp.HospitalId | src/pages/login/SignUp/signup.tsx:99 | a clinic id is sent iff the checkbox is on and a non-zero clinic is chosen |
| SignUp.CheckRegistration | src/pages/login/SignUp/signup.tsx:76-101 | a request iff the login is not blank, the password is non-empty and equals the confirmation; the login is sent trimmed and the password as typed; the empty-field message iff a field is empty |
| SignUp.SentLoginIsTrimmed | src/pages/login/SignUp/signup.tsx:80 | the sent login is its own trim and neither starts nor ends with white space |
| SignUp.PasswordSentAsTyped | src/pages/login/SignUp/signup.tsx:81-82 | a password surrounded by spaces is sent with its spaces |
| SignUp.AfterRegister | src/pages/login/SignUp/signup.tsx:57-66 | an `http` address is loaded as a page; otherwise the browser routes to the address, or to `/app` when there is none |
| SignUp.SignUpPage.constructor | src/pages/login/SignUp/signup.tsx:39-42 | no clinic chosen, no message, snackbar closed |
| SignUp.SignUpPage.HandleSubmit | src/pages/login/SignUp/signup.tsx:76-101 | a failing check shows its message in the snackbar and sends nothing; a passing form sends the checked request and leaves the page unchanged |
| SignUp.SignUpPage.OnError | src/pages/login/SignUp/signup.tsx:67-73 | the server's message (even an empty one) or the generic one, with the snackbar open |
| LegacyLogin.CheckFirstWelcome | src/pages/login_old/login.tsx:33-48 | `true` iff the answer is `Yes`, `false` for any other answer, `null` when the query fails |
| LegacyLogin.WelcomeQueryUserId | src/pages/login_old/login.tsx:29 | the stored user id when it is present and non-empty, and exactly `0` otherwise |
| LegacyLogin.RouteFor | src/pages/login_old/login.tsx:83-109 | the form for the role `undefined`; a home page or the welcome page for a patient or doctor; no navigation for any other role |
| LegacyLogin.FailedCheckLeadsToWelcome | src/pages/login_old/login.tsx:81-109 | a failed welcome check sends a patient or doctor to the welcome page |
| LegacyLogin.FailureMessage | src/pages/login_old/login.tsx:111-119 | an error with a message shows it, anything else the connection message |
| LegacyLogin.LoginForm.constructor | src/pages/login_old/login.tsx:19-26 | empty fields and error, no user |
| LegacyLogin.LoginForm.HandleInputChange | src/pages/login_old/login.tsx:52-58 | the named field takes the value; every other field keeps its value |
| LegacyLogin.LoginForm.Login | src/pages/login_old/login.tsx:60-120 | on success: the user, the four storage keys, the welcome query's user id and the route; on failure: only the error message changes |
| LegacyLogin.LoginForm.FirstWelcome | src/pages/login_old/login.tsx:28-50 | the query asks for the stored user id, and the answer is mapped |
| HomePage.ResolveState | src/pages/app/HomePage.tsx:69-82 | loading wins, then error, then empty; ready iff no flag is set |
| HomePage.RenderStateBody | src/pages/app/HomePage.tsx:84-116 | each state shows its own body: skeleton, error alert, empty note or content |
| HomePage.ContentIffNoFlag | src/pages/app/HomePage.tsx:138-166 | a card shows its content iff it is not loading, failed or empty |
| HomePage.SummaryScore | src/pages/app/HomePage.tsx:393 | the score is one of the rows' values, the row at the index when it exists, 0 with no rows |
| HomePage.ScoreCycles | src/pages/app/HomePage.tsx:393 | scores repeat with period equal to the number of rows |
| HomePage.Scores | src/pages/app/HomePage.tsx:392-393 | one score per symptom label |
| HomePage.DashboardScores | src/pages/app/HomePage.tsx:392-393 | the seven labels show 62, 44, 57, 39, 62, 44, 57 |
| HomePage.StripAppointmentPrefix | src/pages/app/HomePage.tsx:530 | a leading `На` and all white space after it are removed; any other text is kept |
| HomePage.AppointmentFields | src/pages/app/HomePage.tsx:530-533 | no appointment gives no fields; otherwise at least one field, none with a space, and joining them with spaces gives back the text after the `На` prefix |
| HomePage.AppointmentTime | src/pages/app/HomePage.tsx:530 | defined exactly when there is an appointment, and then the field that starts the text after the prefix |
| HomePage.AppointmentDate | src/pages/app/HomePage.tsx:533 | defined exactly when the text after the prefix holds a space, and then the field that starts just after the time and its space |
| HomePage.AppointmentShowsTimeAndDate | src/pages/app/HomePage.tsx:530-533 | `На <time> <date>` shows the time on the large line and the date on the small one |
| HomePage.DashboardAppointment | src/pages/app/HomePage.tsx:530-533 | the dashboard shows `11:30` and `27.01.2023` |
| Theme.ArgSpacing | src/theme/vitaentTheme.ts:11-21 | a string as is, zero as `0px`, any other number as a scaled `calc` of 8 pixels per step |
| Theme.Pieces | src/theme/vitaentTheme.ts:10-21 | one piece per argument, in order |
| Theme.UiSpacing | src/theme/vitaentTheme.ts:5-23 | `0px` without arguments; one argument gives its own piece |
| Theme.UiSpacingAppend | src/theme/vitaentTheme.ts:10-22 | the spacing of joined argument lists is the two spacings separated by a space |
| Theme.WholeSteps | src/theme/vitaentTheme.ts:20 | `n` whole steps, with 8n of magnitude at most 2^53, give `calc(<8n>px * var(--ui-scale, 1))` |
| Theme.MixedArguments | src/theme/vitaentTheme.ts:5-23 | `(2, 0, "auto")` gives `calc(16px * var(--ui-scale, 1)) 0px auto` |
| Theme.WithUiScale | src/theme/vitaentTheme.ts:3 | starts with `calc(`, the rendered size and `rem`, ends with ` * var(--ui-scale, 1))`, and is 30 characters longer than the rendering |
| Theme.RemSize | src/theme/vitaentTheme.ts:3 | a size rendered as `text` gives exactly `calc(<text>rem * var(--ui-scale, 1))` |
| Theme.WholeRem | src/theme/vitaentTheme.ts:3 | a whole number of `rem` of magnitude at most 2^53 renders as its digits |
| Theme.Body2FontSize | src/theme/vitaentTheme.ts:87 | the fractional size 0.95 gives `calc(0.95rem * var(--ui-scale, 1))` |
| MedicinesHome.FilterByName | src/pages/Medicines/MedicinesHomePage.tsx:58 | an order-preserving selection holding exactly the matching medications, each as many times as the list holds it |
| MedicinesHome.Filtered | src/pages/Medicines/MedicinesHomePage.tsx:55-59 | a blank search shows the whole list; otherwise the case-insensitive name matches of the trimmed text, in order and with their multiplicities |
| MedicinesHome.FilterIdempotent | src/pages/Medicines/MedicinesHomePage.tsx:58 | filtering again with the same text changes nothing |
| MedicinesHome.Selected | src/pages/Medicines/MedicinesHomePage.tsx:61 | the first medication with the id, or the first medication when none has it |
| MedicinesHome.MedicinesHomePage.constructor | src/pages/Medicines/MedicinesHomePage.tsx:51-53 | empty search, first medication selected, quantity 1 |
| MedicinesHome.MedicinesHomePage.Shown | src/pages/Medicines/MedicinesHomePage.tsx:55-59 | a blank search shows every medication |
| MedicinesHome.MedicinesHomePage.SelectedMedication | src/pages/Medicines/MedicinesHomePage.tsx:61 | the detail panel shows one of the medications |
| MedicinesHome.MedicinesHomePage.SetQuery | src/pages/Medicines/MedicinesHomePage.tsx:135 | the search text is the typed text |
| MedicinesHome.MedicinesHomePage.Select | src/pages/Medicines/MedicinesHomePage.tsx:148 | the clicked medication becomes the selected one |
| MedicinesHome.MedicinesHomePage.Decrement | src/pages/Medicines/MedicinesHomePage.tsx:218 | one less, never below 1 |
| MedicinesHome.MedicinesHomePage.Increment | src/pages/Medicines/MedicinesHomePage.tsx:222 | exactly one more, keeping the quantity at least 1 |
| Messages.DoctorOrFirst | src/pages/app/MessagesPage.tsx:104 | the first doctor with the id, or the first doctor of the list when none has it |
| Messages.Conversation | src/pages/app/MessagesPage.tsx:109 | an order-preserving selection holding exactly the chosen doctor's messages, each as many times as the list holds it |
| Messages.ConversationAppend | src/pages/app/MessagesPage.tsx:108-133 | appending a message extends its doctor's conversation by it and no other |
| Messages.MessagesPage.constructor | src/pages/app/MessagesPage.tsx:99-101 | the first doctor, an empty draft, the initial messages |
| Messages.MessagesPage.ActiveDoctor | src/pages/app/MessagesPage.tsx:103-106 | the header always names one of the doctors |
| Messages.MessagesPage.ActiveMessages | src/pages/app/MessagesPage.tsx:108-111 | every shown message belongs to the chosen doctor |
| Messages.MessagesPage.SelectDoctor | src/pages/app/MessagesPage.tsx:99 | the chosen doctor id is the clicked one |
| Messages.MessagesPage.SetDraft | src/pages/app/MessagesPage.tsx:100 | the draft is the typed text |
| Messages.MessagesPage.SendMessage | src/pages/app/MessagesPage.tsx:113-135 | a blank draft changes nothing; otherwise the trimmed draft is appended as the patient's message, the draft is cleared, and the conversation grows by exactly that non-empty message |
| Messages.UnknownDoctorShowsFirstWithNoMessages | src/pages/app/MessagesPage.tsx:103-111 | for an unknown doctor id the header names the first doctor and the conversation is empty |
| Emotions.Tagged | src/pages/app/EmotionsPage.tsx:130 | a group's emotions in order, each tagged with the group's id and fillability |
| Emotions.FlatSequence | src/pages/app/EmotionsPage.tsx:129-130 | an entry is present iff it is some group's emotion tagged with that group's id and fillability |
| Emotions.FlatSequenceAppend | src/pages/app/EmotionsPage.tsx:129-130 | the flat sequence of joined group lists is the two flat sequences joined |
| Emotions.FlatSequenceEntry | src/pages/app/EmotionsPage.tsx:129-130 | every entry is some group's emotion tagged with that group |
| Emotions.Find | src/pages/app/EmotionsPage.tsx:143-146 | the first entry with the id, or none when no entry has it |
| Emotions.FillableIds | src/pages/app/EmotionsPage.tsx:141 | an id is listed iff some fillable entry has it; never more ids than entries |
| Emotions.FillableIdsAppend | src/pages/app/EmotionsPage.tsx:141 | the ids of joined runs of entries are the two id lists joined, so each fillable entry contributes its own id in sequence order |
| Emotions.AllRequiredFilled | src/pages/app/EmotionsPage.tsx:148-151 | true iff every fillable entry has a value |
| Emotions.SetEmotionValue | src/pages/app/EmotionsPage.tsx:171-178 | every emotion with the id, in every group, takes the value; each group keeps its id, title, fillability and length |
| Emotions.WithValue | src/pages/app/EmotionsPage.tsx:187-189 | every entry with the id takes the value; all else stays |
| Emotions.FlatSequenceOfRated | src/pages/app/EmotionsPage.tsx:185-189 | rating the groups and flattening them gives the page's `nextSequence` |
| Emotions.IndexOf | src/pages/app/EmotionsPage.tsx:191 | the first position of the id, or -1 when it is absent |
| Emotions.FirstUnrated | src/pages/app/EmotionsPage.tsx:192-203 | the first candidate that is present, not the one just rated, and without a value |
| Emotions.NextEmotionId | src/pages/app/EmotionsPage.tsx:191-203 | the next id is the first fillable id after the selected one's position that is unrated after the rating; it differs from the selected one |
| Emotions.NoNextMeansRestRated | src/pages/app/EmotionsPage.tsx:192-208 | when the page does not move on, no fillable emotion after the selected one is unrated |
| Emotions.LastFillableHasNoNext | src/pages/app/EmotionsPage.tsx:191-208 | rating the last fillable emotion never moves on, even while earlier ones are unrated |
| Emotions.RatingKeepsRange | src/pages/app/EmotionsPage.tsx:171-178 | rating with a value in 0..10 keeps every rating in 0..10 |
| Emotions.EmotionsPage.constructor | src/pages/app/EmotionsPage.tsx:134-138 | the initial groups, the first emotion selected, slider at 0, notices closed |
| Emotions.EmotionsPage.SelectEmotion | src/pages/app/EmotionsPage.tsx:161-169 | only a fillable emotion is selected, and the slider shows its value or 0 |
| Emotions.EmotionsPage.SequenceValuesInRange | src/pages/app/EmotionsPage.tsx:129-130 | every value in the flat sequence lies in 0..10 |
| Emotions.EmotionsPage.SetSlider | src/pages/app/EmotionsPage.tsx:367-371 | the slider takes a whole value from 0 to 10 |
| Emotions.EmotionsPage.ApplyValue | src/pages/app/EmotionsPage.tsx:180-213 | nothing changes without a selected fillable emotion; otherwise the rating is stored and the page either moves to the next unrated emotion with the slider at 0, or opens the "all filled" notice |
| Emotions.EmotionsPage.Finish | src/pages/app/EmotionsPage.tsx:536-537 | once every fillable emotion is rated the finish notice opens |
| MedicationUpsert.UpdateTime | src/pages/Medicines/MedicationUpsertPage.tsx:120-122 | the entry at the index becomes the value; the length and every other entry stay |
| MedicationUpsert.AddTime | src/pages/Medicines/MedicationUpsertPage.tsx:124-126 | one empty entry more, at the end |
| MedicationUpsert.DropIndex | src/pages/Medicines/MedicationUpsertPage.tsx:129 | the entry at a valid index is removed; any other index changes nothing |
| MedicationUpsert.RemoveTime | src/pages/Medicines/MedicationUpsertPage.tsx:128-130 | a single entry is reset to `""`; otherwise the entry at the index is removed |
| MedicationUpsert.EditorsKeepTimesNonEmpty | src/pages/Medicines/MedicationUpsertPage.tsx:120-130 | none of the three editors empties the list of times |
| MedicationUpsert.RemoveAll | src/pages/Medicines/MedicationUpsertPage.tsx:134 | every occurrence of the day is removed; the other days stay, in order, each as often as before |
| MedicationUpsert.SortAscending | src/pages/Medicines/MedicationUpsertPage.tsx:134 | a sorted permutation of the input |
| MedicationUpsert.ToggleWeekday | src/pages/Medicines/MedicationUpsertPage.tsx:132-136 | a selected day is removed; an unselected one is added and the list sorted |
| MedicationUpsert.SortSorted | src/pages/Medicines/MedicationUpsertPage.tsx:134 | sorting a sorted list changes nothing |
| MedicationUpsert.ToggleKeepsStrictlyAscending | src/pages/Medicines/MedicationUpsertPage.tsx:132-136 | toggling keeps the list sorted and free of duplicates, flips the toggled day and keeps every other day |
| MedicationUpsert.ToggleTwice | src/pages/Medicines/MedicationUpsertPage.tsx:132-136 | toggling the same day twice restores the list |
| MedicationUpsert.KeyInjective | src/pages/Medicines/MedicationUpsertPage.tsx:151-207 | distinct fields store their errors under distinct keys |
| MedicationUpsert.NonBlankTimes | src/pages/Medicines/MedicationUpsertPage.tsx:171 | exactly the times that are not blank, in order, each as often as the list holds it |
| MedicationUpsert.FormValidIffNothingFires | src/pages/Medicines/MedicationUpsertPage.tsx:146-213 | the form is valid iff no field's rule fires |
| MedicationUpsert.NameErrors | src/pages/Medicines/MedicationUpsertPage.tsx:149-152 | a name error iff the trimmed name is shorter than 2 or longer than 80 UTF-16 units |
| MedicationUpsert.DoseErrors | src/pages/Medicines/MedicationUpsertPage.tsx:153-161 | a dose error iff the dose text is empty, not a number or at most zero; a unit error iff a dose is given without a unit; each with its message |
| MedicationUpsert.MedicineErrors | src/pages/Medicines/MedicationUpsertPage.tsx:149-161 | name, dose and unit errors iff their rules fire, with their messages |
| MedicationUpsert.DateErrors | src/pages/Medicines/MedicationUpsertPage.tsx:163-169 | start and end date errors iff their rules fire, with their messages |
| MedicationUpsert.ScheduleErrors | src/pages/Medicines/MedicationUpsertPage.tsx:171-186 | times, weekday and interval errors iff their rules fire, with their messages |
| MedicationUpsert.StockErrors | src/pages/Medicines/MedicationUpsertPage.tsx:188-209 | stock and threshold errors iff their rules fire; the threshold shows the later rule's message |
| MedicationUpsert.CollectErrors | src/pages/Medicines/MedicationUpsertPage.tsx:146-212 | a field has an error iff its rule fires, with that rule's message; no errors iff the form is valid |
| MedicationUpsert.KeyedErrors | src/pages/Medicines/MedicationUpsertPage.tsx:151-207 | the same errors keyed by the lower-case field names |
| MedicationUpsert.GetFieldError | src/pages/Medicines/MedicationUpsertPage.tsx:138-144 | the message of the first key whose lower-cased form has a non-empty one, `""` iff no key has |
| MedicationUpsert.NonEmpty | src/pages/Medicines/MedicationUpsertPage.tsx:221-226 | `undefined` iff the text is empty |
| MedicationUpsert.BuildPayload | src/pages/Medicines/MedicationUpsertPage.tsx:214-253 | trimmed name; form, trimmed notes and end date only when non-empty; dose amount, unit and start date copied; the schedule carries the non-blank times, the weekdays, the interval or the trimmed reason as its type requires; the lead time only when reminders are enabled; each stock number only when stock is enabled and its field is filled in |
| MedicationUpsert.ValidFormGivesSoundRequest | src/pages/Medicines/MedicationUpsertPage.tsx:146-254 | a valid form's request has a name of 2 to 80 UTF-16 units, a positive dose and a unit; the schedule is non-empty and fits its type; stock numbers are finite, non-negative and ordered |
| MedicationUpsert.ApiFieldErrors | src/pages/Medicines/MedicationUpsertPage.tsx:93-98 | every key present holds the first message of some entry with messages whose key lower-cases to it |
| MedicationUpsert.ApiFieldErrorsIsLastMessage | src/pages/Medicines/MedicationUpsertPage.tsx:93-98 | the map built entry by entry holds at each key exactly what a backward scan for the last entry with messages finds |
| MedicationUpsert.LastMessageFound | src/pages/Medicines/MedicationUpsertPage.tsx:93-98 | the backward scan finds a message iff some entry with messages lower-cases to the key, and then it is the last such entry's first message |
| MedicationUpsert.ApiFieldErrorsContents | src/pages/Medicines/MedicationUpsertPage.tsx:93-98 | a key is present iff an entry with messages lower-cases to it, holding the last such entry's first message |
| MedicationUpsert.CollectApiErrors | src/pages/Medicines/MedicationUpsertPage.tsx:93-98 | the loop builds the field-error map of the server's entries |
| MedicationUpsert.ProblemMessage | src/pages/Medicines/MedicationUpsertPage.tsx:104-112 | the detail, else the title, else the fallback |
| MedicationUpsert.UpsertPage.constructor | src/pages/Medicines/MedicationUpsertPage.tsx:53-76 | the initial form: one empty time, interval `1`, lead time 10, no errors |
| MedicationUpsert.UpsertPage.Validate | src/pages/Medicines/MedicationUpsertPage.tsx:146-213 | records exactly the firing rules' messages under their keys and reports whether the form is valid |
| MedicationUpsert.UpsertPage.OnSubmit | src/pages/Medicines/MedicationUpsertPage.tsx:256-260 | clears the page error and sends the built request iff the form is valid |
| MedicationUpsert.UpsertPage.OnSuccess | src/pages/Medicines/MedicationUpsertPage.tsx:80-84 | success shown, errors cleared |
| MedicationUpsert.UpsertPage.OnError | src/pages/Medicines/MedicationUpsertPage.tsx:85-117 | 400 replaces the field errors with the server's and shows the title; 404 and 409 show detail, title or a fixed text; anything else shows the generic failure; only 400 touches field errors |
| Sequences.SubsequenceOfTail | src/pages/app/MessagesPage.tsx:109 | a subsequence of the tail is a subsequence of the whole |

## Left out

- The network: every server call (sign-in, registration, clinic lists, medication creation, the welcome query) is an input of the handler that receives its outcome. React Query's retry and caching are not modelled.
- The token verifier middleware, token refresh, `src/api/auth.ts` and the authentication context are not part of this model.
- Cryptography: PBKDF2-HMAC-SHA256, base64 and JWT minting are function parameters with stated laws. The constant-time comparison is plain equality.
- AuthController.ExpiresInSeconds: computes on exact ticks. The double rounding of `TotalSeconds` is not modelled, so the result can differ by one for lifetimes beyond 2^53 ticks.
- Text.TryParseInt32: takes the signs to be the ASCII `-` and `+`. `int.TryParse` uses the current culture's signs, so a culture whose negative sign is another character (such as U+2212) is not modelled.
- JavaScript numbers: `Number(text)` and `new Date(text)` are inputs, the text paired with its value. Parsing, floating point and NaN propagation into the request are not modelled.
- Theme: how a template literal renders a number is a parameter. The lemmas assume only that whole numbers of magnitude at most 2^53 render as their digits, and `Theme.Body2FontSize` that 0.95 renders as `0.95`. Larger whole numbers (which JavaScript prints as the shortest round-tripping digits padded with zeros), other fractions, the exponent form and NaN are not covered.
- Text.LowerChar: lower-cases only A–Z and the Cyrillic capitals U+0400–U+042F. Other capitals, including the Cyrillic ones from U+0460 to U+052F such as Ґ (U+0490), are kept as they are, whereas JavaScript's `toLowerCase` lowers them.
- Dates and clocks: `toLocaleTimeString` and `Date.now()` are inputs of `Messages.MessagesPage.SendMessage`.
- `isErrorWithMessage`, `instanceof Error` and the axios error shape are decided by the caller of the failure handlers.
- Redux: the dispatched user is a field of the legacy login form. Local storage is a map field.
- Rendering, styles, the theme palette, dialogs, and navigation other than the routes chosen.
- The emotions slider-sync effect: after the page's own handlers it sets the slider to the value those handlers already chose, so it changes nothing.
- Display-only data: group descriptions, symptom lists and calendar data.
- The emotions page's back button (a route change) and the closing of its two notices are not modelled.
- MedicinesHome.MedicinesHomePage.Select: accepts any id. The page only offers ids from the list.

=== FILE: api_client.dfy ===
/** The front end's HTTP client set-up (`src/api/client.ts`): the module-level access
    token mirrored into the browser's local storage, the request interceptor that adds
    the bearer header, and the normalisation of the configured API base URL. */
module ApiClient {
  import opened Wrappers
  import Text

  const TokenStorageKey: string := "vitaent.accessToken"
  const AuthorizationHeader: string := "Authorization"
  const DefaultBaseUrl: string := "http://localhost:5163"

  /** JavaScript truthiness of a `string | null`: present and not empty. */
  predicate Truthy(token: Option<string>) {
    token.Some? && token.value != ""
  }

  /** An outgoing request as the interceptor sees it: only its headers matter here. */
  class RequestConfig {
    var headers: Option<map<string, string>>

    constructor (headers: Option<map<string, string>>)
      ensures this.headers == headers
    {
      this.headers := headers;
    }
  }

  /** The token holder: the module variable `accessToken` and the local storage. */
  class TokenHolder {
    var accessToken: Option<string>
    var storage: map<string, string>

    /** Storage mirrors memory: the key holds the token exactly when the token is truthy. */
    predicate Mirrored()
      reads this
    {
      if Truthy(accessToken) then TokenStorageKey in storage && storage[TokenStorageKey] == accessToken.value
      else TokenStorageKey !in storage
    }

    /** Module load: the token starts as whatever storage holds under the key. */
    constructor (storage: map<string, string>)
      ensures this.storage == storage
      ensures accessToken == (if TokenStorageKey in storage then Some(storage[TokenStorageKey]) else None)
      ensures Mirrored() <==> !(TokenStorageKey in storage && storage[TokenStorageKey] == "")
    {
      this.storage := storage;
      this.accessToken := if TokenStorageKey in storage then Some(storage[TokenStorageKey]) else None;
    }

    /** `getAccessToken()`: the token in memory; while storage mirrors memory, a token is
        returned exactly when storage holds it under the key. */
    function GetAccessToken(): (r: Option<string>)
      reads this
      ensures Mirrored() ==> (Truthy(r) <==> TokenStorageKey in storage)
      ensures Mirrored() && Truthy(r) ==> storage[TokenStorageKey] == r.value
    {
      accessToken
    }

    /** `setAccessToken(token)`: memory takes the value as given; storage keeps it only
        when it is a non-empty string and otherwise loses the key. Other keys stay. */
    method SetAccessToken(token: Option<string>)
      modifies this
      ensures GetAccessToken() == token
      ensures Truthy(token) ==> storage == old(storage)[TokenStorageKey := token.value]
      ensures !Truthy(token) ==> storage == old(storage) - {TokenStorageKey}
      ensures Mirrored()
    {
      accessToken := token;
      if Truthy(token) {
        storage := storage[TokenStorageKey := token.value];
      } else {
        storage := storage - {TokenStorageKey};
      }
    }

    /** The request interceptor: with a truthy token the config gets (creating the header
        map when missing) `Authorization: Bearer <token>`; otherwise it passes unchanged. */
    method Intercept(config: RequestConfig) returns (result: RequestConfig)
      modifies config
      ensures result == config
      ensures Truthy(accessToken) ==>
        config.headers == Some(old(config.headers).GetOr(map[])[AuthorizationHeader := "Bearer " + accessToken.value])
      ensures !Truthy(accessToken) ==> config.headers == old(config.headers)
    {
      if Truthy(accessToken) {
        var headers := config.headers.GetOr(map[]);
        config.headers := Some(headers[AuthorizationHeader := "Bearer " + accessToken.value]);
      }
      result := config;
    }
  }

  /** `replace(/\/+$/, "")`: the string without its trailing run of slashes. */
  function StripTrailingSlashes(s: string): (r: string)
    ensures |r| <= |s| && r == s[..|r|]
    ensures forall k :: |r| <= k < |s| ==> s[k] == '/'
    ensures r == [] || r[|r| - 1] != '/'
  {
    if |s| > 0 && s[|s| - 1] == '/' then StripTrailingSlashes(s[..|s| - 1]) else s
  }

  /** The `baseURL` handed to axios (`apiBaseUrl || undefined`): the configured URL,
      trimmed and without its trailing slashes; when that leaves nothing, `undefined` in
      development and the local back end otherwise. */
  function ApiBaseUrl(envApiUrl: Option<string>, dev: bool): (r: Option<string>)
    ensures r.Some? ==> r.value != "" && r.value[|r.value| - 1] != '/'
    ensures envApiUrl.Some? && StripTrailingSlashes(Text.Trim(envApiUrl.value)) != "" ==>
      var trimmed := Text.Trim(envApiUrl.value);
      r.Some? && Text.StartsWith(trimmed, r.value)
      && forall k :: |r.value| <= k < |trimmed| ==> trimmed[k] == '/'
    ensures (envApiUrl.None? || StripTrailingSlashes(Text.Trim(envApiUrl.value)) == "") ==>
      r == (if dev then None else Some(DefaultBaseUrl))
  {
    var normalized := match envApiUrl
      case None => ""
      case Some(url) => var trimmed := Text.Trim(url); if trimmed != "" then StripTrailingSlashes(trimmed) else "";
    if normalized != "" then Some(normalized) else if dev then None else Some(DefaultBaseUrl)
  }
}

=== FILE: auth_controller.dfy ===
/** The sign-in endpoint of the back end (`POST api/auth/sign-in`): find the user by
    user name, verify the password against the stored digest, mint a token and report
    its remaining lifetime in whole seconds.

    The user table is a sequence; the unique index on `Username` becomes the
    `UniqueUsernames` predicate. Token minting (`IJwtTokenService.CreateToken`) is a
    parameter, and so is the clock: times are `DateTime` ticks (units of 100 ns). */
module AuthController {
  import opened Wrappers
  import PasswordHasher

  datatype User = User(id: int, username: string, passwordHash: string)

  datatype SignInRequest = SignInRequest(username: string, password: string)

  datatype SignInResponse = SignInResponse(accessToken: string, expiresIn: int)

  /** The three ways the action ends: 200 with a body, 401, or an exception escaping
      the password check (the framework answers 500). */
  datatype SignInResult =
    | Ok(response: SignInResponse)
    | Unauthorized
    | ServerError(error: PasswordHasher.VerifyError)

  /** `CreateToken(user)`: the token text and its expiry instant, in ticks. */
  type TokenMinter = User -> (string, int)

  const TicksPerSecond: int := 10_000_000

  /** The unique index on `Username`. */
  ghost predicate UniqueUsernames(users: seq<User>) {
    forall i, j :: 0 <= i < j < |users| ==> users[i].username != users[j].username
  }

  /** `FirstOrDefaultAsync(u => u.Username == username)`: the first user with exactly
      this user name (the database compares case-sensitively). */
  function FindUser(users: seq<User>, username: string): (r: Option<nat>)
    ensures r.Some? ==> r.value < |users| && users[r.value].username == username
    ensures r.Some? ==> forall k :: 0 <= k < r.value ==> users[k].username != username
    ensures r.None? ==> forall k :: 0 <= k < |users| ==> users[k].username != username
  {
    if users == [] then None
    else if users[0].username == username then Some(0)
    else match FindUser(users[1..], username)
      case None => None
      case Some(k) => Some(k + 1)
  }

  /** With unique user names the lookup finds the one user of that name, wherever it is. */
  lemma LookupFindsUnique(users: seq<User>, k: nat)
    requires UniqueUsernames(users)
    requires k < |users|
    ensures FindUser(users, users[k].username) == Some(k)
  {
  }

  /** `(long)(expiresAt - DateTime.UtcNow).TotalSeconds`: the difference in whole
      seconds, truncated toward zero (not floored) when the expiry is already past. */
  function ExpiresInSeconds(expiresAt: int, now: int): (s: int)
    ensures var d := expiresAt - now;
      if d >= 0 then s * TicksPerSecond <= d < (s + 1) * TicksPerSecond
      else (s - 1) * TicksPerSecond < d <= s * TicksPerSecond
  {
    var d := expiresAt - now;
    if d >= 0 then d / TicksPerSecond else -((-d) / TicksPerSecond)
  }

  /** The `SignIn` action. */
  function SignIn(users: seq<User>, kdf: PasswordHasher.Kdf, b64: PasswordHasher.Base64,
                  createToken: TokenMinter, now: int, request: SignInRequest): (r: SignInResult)
    ensures r.Ok? ==> (exists k :: 0 <= k < |users| && users[k].username == request.username
                                   && r.response.accessToken == createToken(users[k]).0)
    ensures var found := FindUser(users, request.username);
      r.Ok? <==> (found.Some?
        && PasswordHasher.Verify(kdf, b64, request.password, users[found.value].passwordHash) == Success(true))
    ensures var found := FindUser(users, request.username);
      r.ServerError? <==> (found.Some?
        && PasswordHasher.Verify(kdf, b64, request.password, users[found.value].passwordHash).Failure?)
    ensures var found := FindUser(users, request.username);
      r.ServerError? ==> (found.Some?
        && r.error == PasswordHasher.Verify(kdf, b64, request.password, users[found.value].passwordHash).error)
    ensures r.Ok? ==> var user := users[FindUser(users, request.username).value];
      r.response == SignInResponse(createToken(user).0, ExpiresInSeconds(createToken(user).1, now))
  {
    match FindUser(users, request.username)
    case None => Unauthorized
    case Some(k) =>
      match PasswordHasher.Verify(kdf, b64, request.password, users[k].passwordHash)
      case Failure(e) => ServerError(e)
      case Success(false) => Unauthorized
      case Success(true) =>
        var (token, expiresAt) := createToken(users[k]);
        Ok(SignInResponse(token, ExpiresInSeconds(expiresAt, now)))
  }

  /** An unknown user name is refused, and no token is minted. */
  lemma UnknownUserIsUnauthorized(users: seq<User>, kdf: PasswordHasher.Kdf, b64: PasswordHasher.Base64,
                                  createToken: TokenMinter, now: int, request: SignInRequest)
    requires forall k :: 0 <= k < |users| ==> users[k].username != request.username
    ensures SignIn(users, kdf, b64, createToken, now, request) == Unauthorized
  {
  }

  /** A password that does not verify against the user's digest is refused. */
  lemma WrongPasswordIsUnauthorized(users: seq<User>, kdf: PasswordHasher.Kdf, b64: PasswordHasher.Base64,
                                    createToken: TokenMinter, now: int, request: SignInRequest, k: nat)
    requires UniqueUsernames(users)
    requires k < |users| && users[k].username == request.username
    requires PasswordHasher.Verify(kdf, b64, request.password, users[k].passwordHash) == Success(false)
    ensures SignIn(users, kdf, b64, createToken, now, request) == Unauthorized
  {
    LookupFindsUnique(users, k);
  }

  /** End to end: a user whose digest was made from a password signs in with that
      password and receives exactly the token minted for that user. */
  lemma {:induction false} StoredPasswordSignsIn(users: seq<User>, kdf: PasswordHasher.Kdf,
                                                 b64: PasswordHasher.Base64, createToken: TokenMinter,
                                                 now: int, k: nat, password: string, salt: seq<PasswordHasher.byte>)
    requires PasswordHasher.IsBase64Codec(b64) && PasswordHasher.ExactLength(kdf)
    requires UniqueUsernames(users)
    requires |salt| == PasswordHasher.SaltSize
    requires k < |users| && users[k].passwordHash == PasswordHasher.HashPassword(kdf, b64, password, salt)
    ensures var r := SignIn(users, kdf, b64, createToken, now, SignInRequest(users[k].username, password));
      r.Ok? && r.response.accessToken == createToken(users[k]).0
      && r.response.expiresIn == ExpiresInSeconds(createToken(users[k]).1, now)
  {
    LookupFindsUnique(users, k);
    PasswordHasher.HashThenVerify(kdf, b64, password, salt);
  }
}

=== FILE: emotions.dfy ===
/** The emotion diary (`EmotionsPage`): groups of emotions, each rated on a 0–10 slider;
    the fillable groups are rated one emotion after another, the page moving on to the
    next unrated emotion after each rating. */
module Emotions {
  import opened Wrappers

  const MinIntensity: int := 0
  const MaxIntensity: int := 10

  datatype Emotion = Emotion(id: string, title: string, value: Option<int>)

  datatype EmotionGroup = EmotionGroup(id: string, title: string, fillable: bool, emotions: seq<Emotion>)

  /** An item of the flat sequence: an emotion tagged with its group's id and fillability. */
  datatype Entry = Entry(emotion: Emotion, groupId: string, fillable: bool)

  /** The groups the page starts with; descriptions and symptoms are display text and
      are left out. */
  const InitialGroups: seq<EmotionGroup> := [
    EmotionGroup("morning-negative", "Утреннее состояние", true, [
      Emotion("depression", "Подавленность", None),
      Emotion("anxiety", "Тревога", None),
      Emotion("stress", "Стресс", None),
      Emotion("irritability", "Раздражительность", None),
      Emotion("aggression", "Агрессия", None)]),
    EmotionGroup("morning-positive", "Утреннее состояние", true, [
      Emotion("joy", "Радость", None),
      Emotion("optimism", "Оптимизм", None),
      Emotion("confidence", "Уверенность", None),
      Emotion("satisfaction", "Удовлетворение", None)]),
    EmotionGroup("evening", "Вечернее состояние", false, [
      Emotion("evening-calm", "Спокойствие", None),
      Emotion("evening-fatigue", "Усталость", None)])
  ]

  // ---------------------------------------------------------------------------
  // The flat sequence

  /** One group's emotions, tagged. */
  function Tagged(group: EmotionGroup): (r: seq<Entry>)
    ensures |r| == |group.emotions|
    ensures forall k :: 0 <= k < |r| ==> r[k] == Entry(group.emotions[k], group.id, group.fillable)
  {
    seq(|group.emotions|, k requires 0 <= k < |group.emotions| => Entry(group.emotions[k], group.id, group.fillable))
  }

  /** `getFlatSequence(groups)`: every group's emotions, in order, tagged. */
  function FlatSequence(groups: seq<EmotionGroup>): (r: seq<Entry>)
    ensures forall e :: e in r <==> exists i, j :: 0 <= i < |groups| && 0 <= j < |groups[i].emotions|
                                                && e == Entry(groups[i].emotions[j], groups[i].id, groups[i].fillable)
  {
    if groups == [] then []
    else
      var rest := FlatSequence(groups[1..]);
      assert forall i :: 1 <= i < |groups| ==> groups[i] == groups[1..][i - 1];
      assert forall e :: e in rest ==> exists i, j :: 0 <= i < |groups| && 0 <= j < |groups[i].emotions|
                                                && e == Entry(groups[i].emotions[j], groups[i].id, groups[i].fillable) by {
        forall e | e in rest
          ensures exists i, j :: 0 <= i < |groups| && 0 <= j < |groups[i].emotions|
                                 && e == Entry(groups[i].emotions[j], groups[i].id, groups[i].fillable)
        {
          var i, j :| 0 <= i < |groups[1..]| && 0 <= j < |groups[1..][i].emotions|
                      && e == Entry(groups[1..][i].emotions[j], groups[1..][i].id, groups[1..][i].fillable);
          assert groups[1..][i] == groups[i + 1];
        }
      }
      Tagged(groups[0]) + rest
  }

  /** The flat sequence of two runs of groups is the first run's entries followed by the
      second's: groups keep their order (and a single group contributes `Tagged(group)`,
      its own emotions in order, by definition). */
  lemma {:induction false} FlatSequenceAppend(first: seq<EmotionGroup>, second: seq<EmotionGroup>)
    ensures FlatSequence(first + second) == FlatSequence(first) + FlatSequence(second)
  {
    if first != [] {
      assert (first + second)[1..] == first[1..] + second;
      FlatSequenceAppend(first[1..], second);
    } else {
      assert first + second == second;
    }
  }

  /** `sequence.find((emotion) => emotion.id === id)`: the position of the first entry
      with this id. */
  function Find(sequence: seq<Entry>, id: string): (r: Option<nat>)
    ensures r.Some? ==> r.value < |sequence| && sequence[r.value].emotion.id == id
    ensures r.Some? ==> forall k :: 0 <= k < r.value ==> sequence[k].emotion.id != id
    ensures r.None? ==> forall k :: 0 <= k < |sequence| ==> sequence[k].emotion.id != id
  {
    if sequence == [] then None
    else if sequence[0].emotion.id == id then Some(0)
    else match Find(sequence[1..], id)
      case None => None
      case Some(k) => Some(k + 1)
  }

  /** `fillableEmotionIds`: the ids of the fillable entries, in order. */
  function FillableIds(sequence: seq<Entry>): (r: seq<string>)
    ensures |r| <= |sequence|
    ensures forall id :: id in r <==> exists k :: 0 <= k < |sequence| && sequence[k].fillable && sequence[k].emotion.id == id
  {
    if sequence == [] then []
    else
      var rest := FillableIds(sequence[1..]);
      assert forall k :: 1 <= k < |sequence| ==> sequence[k] == sequence[1..][k - 1];
      if sequence[0].fillable then [sequence[0].emotion.id] + rest else rest
  }

  /** The ids of two runs of entries are the first run's ids followed by the second's,
      so each fillable entry contributes its own id, in sequence order (a single entry
      contributes its id exactly when it is fillable, by definition). */
  lemma {:induction false} FillableIdsAppend(first: seq<Entry>, second: seq<Entry>)
    ensures FillableIds(first + second) == FillableIds(first) + FillableIds(second)
  {
    if first != [] {
      assert (first + second)[0] == first[0];
      assert (first + second)[1..] == first[1..] + second;
      FillableIdsAppend(first[1..], second);
    } else {
      assert first + second == second;
    }
  }

  /** `allRequiredFilled`: the fillable entries, every one of them with a value. */
  predicate AllRequiredFilled(sequence: seq<Entry>): (b: bool)
    ensures b <==> forall k :: 0 <= k < |sequence| && sequence[k].fillable ==> sequence[k].emotion.value.Some?
  {
    if sequence == [] then true
    else
      assert forall k :: 1 <= k < |sequence| ==> sequence[k] == sequence[1..][k - 1];
      (!sequence[0].fillable || sequence[0].emotion.value.Some?) && AllRequiredFilled(sequence[1..])
  }

  /** The emotion with its value replaced when it has this id. */
  function Rate(emotion: Emotion, id: string, value: int): Emotion {
    if emotion.id == id then emotion.(value := Some(value)) else emotion
  }

  /** `setEmotionValue(id, value)`: every emotion with this id, in every group, takes the value. */
  function SetEmotionValue(groups: seq<EmotionGroup>, id: string, value: int): (r: seq<EmotionGroup>)
    ensures |r| == |groups|
    ensures forall i :: 0 <= i < |r| ==>
      r[i] == groups[i].(emotions := r[i].emotions) && |r[i].emotions| == |groups[i].emotions|
    ensures forall i, j :: 0 <= i < |r| && 0 <= j < |r[i].emotions| ==>
      r[i].emotions[j] == Rate(groups[i].emotions[j], id, value)
  {
    seq(|groups|, i requires 0 <= i < |groups| =>
      groups[i].(emotions := seq(|groups[i].emotions|, j requires 0 <= j < |groups[i].emotions| =>
        Rate(groups[i].emotions[j], id, value))))
  }

  /** `nextSequence`: the flat sequence with every entry of this id given the value. */
  function WithValue(sequence: seq<Entry>, id: string, value: int): (r: seq<Entry>)
    ensures |r| == |sequence|
    ensures forall k :: 0 <= k < |r| ==> r[k] == sequence[k].(emotion := Rate(sequence[k].emotion, id, value))
  {
    seq(|sequence|, k requires 0 <= k < |sequence| => sequence[k].(emotion := Rate(sequence[k].emotion, id, value)))
  }

  /** Rating the groups and then flattening them gives the sequence the page computes by
      rating the flattened sequence: `nextSequence` is the sequence of the new groups. */
  lemma {:induction false} FlatSequenceOfRated(groups: seq<EmotionGroup>, id: string, value: int)
    ensures FlatSequence(SetEmotionValue(groups, id, value)) == WithValue(FlatSequence(groups), id, value)
  {
    if groups != [] {
      var rated := SetEmotionValue(groups, id, value);
      assert rated[1..] == SetEmotionValue(groups[1..], id, value);
      FlatSequenceOfRated(groups[1..], id, value);
      assert Tagged(rated[0]) == WithValue(Tagged(groups[0]), id, value);
    }
  }

  // ---------------------------------------------------------------------------
  // Choosing the next emotion

  /** `fillableEmotionIds.findIndex((id) => id === selected)`, `-1` when absent. */
  function IndexOf(ids: seq<string>, id: string): (r: int)
    ensures -1 <= r < |ids|
    ensures r >= 0 ==> ids[r] == id && forall k :: 0 <= k < r ==> ids[k] != id
    ensures r == -1 ==> id !in ids
  {
    if ids == [] then -1
    else if ids[0] == id then 0
    else
      var k := IndexOf(ids[1..], id);
      if k == -1 then -1 else k + 1
  }

  /** The test of the `find` callback: the id's first entry in `nextSequence` exists, is
      not the emotion just rated, and has no value. */
  predicate IsUnrated(nextSequence: seq<Entry>, selectedId: string, id: string) {
    match Find(nextSequence, id)
    case None => false
    case Some(k) => id != selectedId && nextSequence[k].emotion.value.None?
  }

  /** `candidates.find(...)`: the first candidate id that is still unrated. */
  function FirstUnrated(candidates: seq<string>, nextSequence: seq<Entry>, selectedId: string): (r: Option<nat>)
    ensures r.Some? ==> r.value < |candidates| && IsUnrated(nextSequence, selectedId, candidates[r.value])
    ensures r.Some? ==> forall k :: 0 <= k < r.value ==> !IsUnrated(nextSequence, selectedId, candidates[k])
    ensures r.None? ==> forall k :: 0 <= k < |candidates| ==> !IsUnrated(nextSequence, selectedId, candidates[k])
  {
    if candidates == [] then None
    else if IsUnrated(nextSequence, selectedId, candidates[0]) then Some(0)
    else match FirstUnrated(candidates[1..], nextSequence, selectedId)
      case None => None
      case Some(k) => Some(k + 1)
  }

  /** The id `handleApplyValue` moves to, when it moves: the first unrated fillable id
      after the selected one's position among the fillable ids (all of them when the
      selected id is not among them), or none. */
  function NextEmotionId(sequence: seq<Entry>, selectedId: string, value: int): (r: Option<string>)
    ensures r.Some? ==> r.value in FillableIds(sequence)
    ensures r.Some? ==> r.value != selectedId
    ensures r.Some? ==> IsUnrated(WithValue(sequence, selectedId, value), selectedId, r.value)
    ensures r.Some? ==> var ids := FillableIds(sequence);
      exists k :: FirstUnratedFrom(ids, IndexOf(ids, selectedId) + 1, WithValue(sequence, selectedId, value), selectedId, k)
                  && ids[k] == r.value
  {
    var ids := FillableIds(sequence);
    var start := IndexOf(ids, selectedId) + 1;
    var candidates := ids[start..];
    var next := WithValue(sequence, selectedId, value);
    match FirstUnrated(candidates, next, selectedId)
    case None => None
    case Some(k) =>
      FirstUnratedShift(ids, start, next, selectedId, k);
      Some(candidates[k])
  }

  /** The first unrated candidate after `start`, found in the slice, is the first unrated
      id from `start` on in the whole list. */
  lemma FirstUnratedShift(ids: seq<string>, start: int, nextSequence: seq<Entry>, selectedId: string, k: nat)
    requires 0 <= start <= |ids|
    requires FirstUnrated(ids[start..], nextSequence, selectedId) == Some(k)
    ensures FirstUnratedFrom(ids, start, nextSequence, selectedId, start + k) && ids[start + k] == ids[start..][k]
  {
    var candidates := ids[start..];
    forall j | start <= j < start + k
      ensures !IsUnrated(nextSequence, selectedId, ids[j])
    {
      assert ids[j] == candidates[j - start];
    }
  }

  /** `ids[k]` is the first id from position `start` on that is still unrated. */
  predicate FirstUnratedFrom(ids: seq<string>, start: int, nextSequence: seq<Entry>, selectedId: string, k: int) {
    0 <= start <= k < |ids| && IsUnrated(nextSequence, selectedId, ids[k])
    && forall j :: start <= j < k ==> !IsUnrated(nextSequence, selectedId, ids[j])
  }

  /** When the page does not move on, no fillable id after the selected one's position
      is unrated. */
  lemma {:induction false} NoNextMeansRestRated(sequence: seq<Entry>, selectedId: string, value: int)
    requires NextEmotionId(sequence, selectedId, value).None?
    ensures var ids := FillableIds(sequence);
      forall k :: IndexOf(ids, selectedId) < k < |ids| ==>
        !IsUnrated(WithValue(sequence, selectedId, value), selectedId, ids[k])
  {
    var ids := FillableIds(sequence);
    var start := IndexOf(ids, selectedId) + 1;
    var candidates := ids[start..];
    var next := WithValue(sequence, selectedId, value);
    assert FirstUnrated(candidates, next, selectedId).None?;
    forall k | start <= k < |ids|
      ensures !IsUnrated(next, selectedId, ids[k])
    {
      assert ids[k] == candidates[k - start];
    }
  }

  /** Rating the last fillable emotion never moves on, whatever the others hold: the
      "all filled" notice then opens even while earlier emotions are still unrated. */
  lemma {:induction false} LastFillableHasNoNext(sequence: seq<Entry>, selectedId: string, value: int)
    requires var ids := FillableIds(sequence); IndexOf(ids, selectedId) == |ids| - 1
    ensures NextEmotionId(sequence, selectedId, value) == None
  {
  }

  // ---------------------------------------------------------------------------
  // The page

  /** Every rating the groups hold is within 0..10. */
  predicate RatingsInRange(groups: seq<EmotionGroup>) {
    forall i, j :: 0 <= i < |groups| && 0 <= j < |groups[i].emotions| && groups[i].emotions[j].value.Some? ==>
      MinIntensity <= groups[i].emotions[j].value.value <= MaxIntensity
  }

  /** Rating with a value within 0..10 keeps every rating within 0..10. */
  lemma RatingKeepsRange(groups: seq<EmotionGroup>, id: string, value: int)
    requires RatingsInRange(groups) && MinIntensity <= value <= MaxIntensity
    ensures RatingsInRange(SetEmotionValue(groups, id, value))
  {
    var r := SetEmotionValue(groups, id, value);
    forall i, j | 0 <= i < |r| && 0 <= j < |r[i].emotions| && r[i].emotions[j].value.Some?
      ensures MinIntensity <= r[i].emotions[j].value.value <= MaxIntensity
    {
      assert r[i].emotions[j] == Rate(groups[i].emotions[j], id, value);
    }
  }

  class EmotionsPage {
    var groups: seq<EmotionGroup>
    var selectedId: string
    var slider: int
    var finishOpen: bool
    var allFilledOpen: bool

    /** `sequence`, recomputed from the groups. */
    function Sequence(): seq<Entry>
      reads this
    {
      FlatSequence(groups)
    }

    /** `selectedEmotion`: the first entry with the selected id, if any. */
    function Selected(): Option<Entry>
      reads this
    {
      match Find(Sequence(), selectedId)
      case None => None
      case Some(k) => Some(Sequence()[k])
    }

    /** The slider and every rating stay within 0..10. */
    predicate Valid()
      reads this
    {
      MinIntensity <= slider <= MaxIntensity && RatingsInRange(groups)
    }

    /** The page opens on the first emotion, unrated, with the slider at 0. */
    constructor ()
      ensures groups == InitialGroups && selectedId == "depression" && slider == 0
      ensures !finishOpen && !allFilledOpen
      ensures Valid()
    {
      groups := InitialGroups;
      selectedId := "depression";
      slider := 0;
      finishOpen := false;
      allFilledOpen := false;
    }

    /** `selectEmotion(id)`: only a fillable emotion can be selected; the slider shows its
        value, 0 when it has none. */
    method SelectEmotion(id: string)
      requires Valid()
      modifies this`selectedId, this`slider
      ensures Valid()
      ensures match Find(Sequence(), id)
        case None => selectedId == old(selectedId) && slider == old(slider)
        case Some(k) =>
          if Sequence()[k].fillable then selectedId == id && slider == Sequence()[k].emotion.value.GetOr(0)
          else selectedId == old(selectedId) && slider == old(slider)
    {
      var sequence := FlatSequence(groups);
      match Find(sequence, id) {
        case None =>
        case Some(k) =>
          if sequence[k].fillable {
            SequenceValuesInRange(k);
            selectedId := id;
            slider := sequence[k].emotion.value.GetOr(0);
          }
      }
    }

    /** Every value the flat sequence shows is one of the groups' values. */
    lemma SequenceValuesInRange(k: nat)
      requires Valid() && k < |Sequence()|
      ensures Sequence()[k].emotion.value.Some? ==> MinIntensity <= Sequence()[k].emotion.value.value <= MaxIntensity
    {
      FlatSequenceEntry(groups, k);
    }

    /** The slider's `onChange`: the slider only produces whole numbers from 0 to 10. */
    method SetSlider(value: int)
      requires MinIntensity <= value <= MaxIntensity
      requires Valid()
      modifies this`slider
      ensures slider == value && Valid()
    {
      slider := value;
    }

    /** `handleApplyValue()`: the selected fillable emotion takes the slider value; the
        page then moves to the next unrated fillable emotion, the slider reset to 0, or,
        when there is none, opens the "all filled" notice and stays. */
    method ApplyValue()
      requires Valid()
      modifies this`groups, this`selectedId, this`slider, this`allFilledOpen
      ensures Valid()
      ensures old(Selected()).None? || !old(Selected()).value.fillable ==>
        groups == old(groups) && selectedId == old(selectedId) && slider == old(slider)
        && allFilledOpen == old(allFilledOpen)
      ensures old(Selected()).Some? && old(Selected()).value.fillable ==>
        groups == SetEmotionValue(old(groups), old(selectedId), old(slider))
        && Sequence() == WithValue(old(Sequence()), old(selectedId), old(slider))
        && match NextEmotionId(old(Sequence()), old(selectedId), old(slider))
           case Some(next) =>
             if next != "" then selectedId == next && slider == 0 && allFilledOpen == old(allFilledOpen)
             else selectedId == old(selectedId) && slider == old(slider) && allFilledOpen
           case None => selectedId == old(selectedId) && slider == old(slider) && allFilledOpen
    {
      var sequence := FlatSequence(groups);
      var selected := Selected();
      if selected.None? || !selected.value.fillable {
        return;
      }
      var id := selected.value.emotion.id;
      var value := slider;
      RatingKeepsRange(groups, id, value);
      groups := SetEmotionValue(groups, id, value);
      FlatSequenceOfRated(old(groups), id, value);
      var nextSequence := WithValue(sequence, id, value);
      var next := NextEmotionId(sequence, id, value);
      if next.None? || next.value == "" {
        allFilledOpen := true;
        return;
      }
      selectedId := next.value;
      var k := Find(nextSequence, next.value);
      if k.Some? {
        SequenceValuesInRange(k.value);
      }
      slider := if k.Some? then nextSequence[k.value].emotion.value.GetOr(0) else 0;
    }

    /** The finish button, enabled only once every fillable emotion is rated. */
    method Finish()
      requires AllRequiredFilled(Sequence())
      modifies this`finishOpen
      ensures finishOpen
    {
      finishOpen := true;
    }
  }

  /** The `k`-th entry of the flat sequence is some group's emotion, tagged with that group. */
  lemma {:induction false} FlatSequenceEntry(groups: seq<EmotionGroup>, k: nat)
    requires k < |FlatSequence(groups)|
    ensures exists i, j :: (0 <= i < |groups| && 0 <= j < |groups[i].emotions|
                            && FlatSequence(groups)[k] == Entry(groups[i].emotions[j], groups[i].id, groups[i].fillable))
  {
    if k < |groups[0].emotions| {
      assert FlatSequence(groups)[k] == Tagged(groups[0])[k];
    } else {
      FlatSequenceEntry(groups[1..], k - |groups[0].emotions|);
      var i, j :| 0 <= i < |groups[1..]| && 0 <= j < |groups[1..][i].emotions|
        && FlatSequence(groups[1..])[k - |groups[0].emotions|] == Entry(groups[1..][i].emotions[j], groups[1..][i].id, groups[1..][i].fillable);
      assert groups[1..][i] == groups[i + 1];
    }
  }
}

=== FILE: home_page.dfy ===
/** The dashboard (`HomePage`): every card decides from three flags whether it shows a
    skeleton, an error, an empty note or its content; the summary card scores each
    symptom from the summary rows in turn; the appointment card splits the appointment
    text into a time and a date. */
module HomePage {
  import opened Wrappers
  import Text

  datatype CardState = Loading | Error | Empty | Ready

  /** `resolveState`: loading first, then an error, then emptiness. */
  function ResolveState(isBlockLoading: bool, hasError: bool, isEmpty: bool): (s: CardState)
    ensures isBlockLoading ==> s == Loading
    ensures s == Error <==> !isBlockLoading && hasError
    ensures s == Empty <==> !isBlockLoading && !hasError && isEmpty
    ensures s == Ready <==> !isBlockLoading && !hasError && !isEmpty
  {
    if isBlockLoading then Loading
    else if hasError then Error
    else if isEmpty then Empty
    else Ready
  }

  /** What a card's body shows: the card's skeleton, an error alert or an empty note with
      their texts, or the card's content. */
  datatype Body<T> = SkeletonBody(skeleton: T) | ErrorAlert(errorText: string)
                   | EmptyNote(emptyText: string) | Content(ready: T)

  /** `renderStateBody`: the body for each state. */
  function RenderStateBody<T>(state: CardState, emptyText: string, errorText: string,
                              skeleton: T, ready: T): (b: Body<T>)
    ensures b == SkeletonBody(skeleton) <==> state == Loading
    ensures b == ErrorAlert(errorText) <==> state == Error
    ensures b == EmptyNote(emptyText) <==> state == Empty
    ensures b == Content(ready) <==> state == Ready
  {
    match state
    case Loading => SkeletonBody(skeleton)
    case Error => ErrorAlert(errorText)
    case Empty => EmptyNote(emptyText)
    case Ready => Content(ready)
  }

  /** A card shows its content exactly when it is neither loading, failed nor empty. */
  lemma ContentIffNoFlag<T>(isBlockLoading: bool, hasError: bool, isEmpty: bool,
                            emptyText: string, errorText: string, skeleton: T, ready: T)
    ensures RenderStateBody(ResolveState(isBlockLoading, hasError, isEmpty), emptyText, errorText, skeleton, ready).Content?
        <==> !isBlockLoading && !hasError && !isEmpty
  {
  }

  datatype SummaryRow = SummaryRow(title: string, value: int)

  const SymptomLabels: seq<string> := ["Ажитация", "Депрессия", "Тревога", "Раздражительность",
                                       "Усталость", "Импульсивные решения, поступки", "Короткий сон"]

  const SummaryRows: seq<SummaryRow> := [SummaryRow("Симптомы", 62), SummaryRow("Пульс", 44),
                                         SummaryRow("Давление", 57), SummaryRow("Сон", 39)]

  const Appointment: Option<string> := Some("На 11:30 27.01.2023")

  /** `summaryRows[index % summaryRows.length]?.value ?? 0`: the rows are reused in turn;
      with no rows the index is `NaN`, the row is missing and the score is 0. */
  function SummaryScore(rows: seq<SummaryRow>, index: nat): (score: int)
    ensures rows == [] ==> score == 0
    ensures index < |rows| ==> score == rows[index].value
    ensures rows != [] ==> exists k :: 0 <= k < |rows| && score == rows[k].value
  {
    if |rows| == 0 then 0 else rows[index % |rows|].value
  }

  /** The scores cycle with the number of rows. */
  lemma ScoreCycles(rows: seq<SummaryRow>, index: nat)
    ensures SummaryScore(rows, index + |rows|) == SummaryScore(rows, index)
  {
    if rows != [] {
      ModShift(index, |rows|);
    }
  }

  lemma ModShift(index: nat, n: nat)
    requires n > 0
    ensures (index + n) % n == index % n
  {
    var x := index + n;
    var d := x / n - index / n - 1;
    assert n * d == index % n - x % n by {
      assert x == n * (x / n) + x % n;
      assert index == n * (index / n) + index % n;
    }
  }

  /** The score shown beside each symptom label. */
  function Scores(labels: seq<string>, rows: seq<SummaryRow>): (scores: seq<int>)
    ensures |scores| == |labels|
    ensures forall i :: 0 <= i < |scores| ==> scores[i] == SummaryScore(rows, i)
  {
    seq(|labels|, i requires 0 <= i < |labels| => SummaryScore(rows, i))
  }

  /** With seven labels and four rows the last three labels reuse the first three rows. */
  lemma DashboardScores()
    ensures Scores(SymptomLabels, SummaryRows) == [62, 44, 57, 39, 62, 44, 57]
  {
    var s := Scores(SymptomLabels, SummaryRows);
    assert s[4] == SummaryScore(SummaryRows, 4) == SummaryRows[0].value;
    assert s[5] == SummaryScore(SummaryRows, 5) == SummaryRows[1].value;
    assert s[6] == SummaryScore(SummaryRows, 6) == SummaryRows[2].value;
  }

  /** `replace(/^На\s+/, "")`: a leading `На` followed by white space is removed together
      with all of that white space; any other text is kept as it is. */
  function StripAppointmentPrefix(s: string): (r: string)
    ensures Text.StartsWith(s, "На") && |s| > 2 && Text.IsJsSpace(s[2]) ==>
      |r| < |s| - 2 && r == s[|s| - |r|..] && (r != [] ==> !Text.IsJsSpace(r[0]))
      && forall k :: 2 <= k < |s| - |r| ==> Text.IsJsSpace(s[k])
    ensures !(Text.StartsWith(s, "На") && |s| > 2 && Text.IsJsSpace(s[2])) ==> r == s
  {
    if Text.StartsWith(s, "На") && |s| > 2 && Text.IsJsSpace(s[2]) then Text.TrimStart(s[2..]) else s
  }

  /** `appointment?.replace(...).split(" ")`: the space-separated fields, or `undefined`
      when there is no appointment. */
  function AppointmentFields(appointment: Option<string>): (r: Option<seq<string>>)
    ensures appointment.None? <==> r.None?
    ensures r.Some? ==> |r.value| >= 1 && forall k :: 0 <= k < |r.value| ==> ' ' !in r.value[k]
    ensures r.Some? ==> Text.Join(r.value, ' ') == StripAppointmentPrefix(appointment.value)
  {
    match appointment
    case None => None
    case Some(s) => Some(Text.Split(StripAppointmentPrefix(s), ' '))
  }

  /** The large line of the appointment card: the first field, that is the text after the
      prefix up to its first space (or to its end). */
  function AppointmentTime(appointment: Option<string>): (r: Option<string>)
    ensures r.Some? <==> appointment.Some?
    ensures r.Some? ==> Text.IsFieldAt(StripAppointmentPrefix(appointment.value), 0, r.value, ' ')
  {
    match AppointmentFields(appointment)
    case None => None
    case Some(fields) =>
      Text.SplitFirst(StripAppointmentPrefix(appointment.value), ' ');
      Some(fields[0])
  }

  /** The small line of the appointment card: the second field, that is the text after the
      first space up to the next space (or to the end); `undefined` if there is no space. */
  function AppointmentDate(appointment: Option<string>): (r: Option<string>)
    ensures r.Some? <==> appointment.Some? && ' ' in StripAppointmentPrefix(appointment.value)
    ensures r.Some? ==> Text.IsFieldAt(StripAppointmentPrefix(appointment.value),
      |AppointmentTime(appointment).value| + 1, r.value, ' ')
  {
    match AppointmentFields(appointment)
    case None => None
    case Some(fields) =>
      var t := StripAppointmentPrefix(appointment.value);
      Text.SplitHasSeparator(t, ' ');
      if |fields| > 1 then
        Text.SplitSecond(t, ' ');
        Some(fields[1])
      else None
  }

  /** An appointment written as `На <time> <date>` shows the time and the date, for any
      time and date without spaces (the time not starting with white space). */
  lemma {:induction false} AppointmentShowsTimeAndDate(time: string, date: string)
    requires time != [] && !Text.IsJsSpace(time[0])
    requires ' ' !in time && ' ' !in date
    ensures AppointmentTime(Some("На " + time + " " + date)) == Some(time)
    ensures AppointmentDate(Some("На " + time + " " + date)) == Some(date)
  {
    var s := "На " + time + " " + date;
    var rest := time + " " + date;
    assert s[2..] == [' '] + rest;
    assert Text.TrimStart(s[2..]) == rest by {
      assert s[2..][1..] == rest;
    }
    assert StripAppointmentPrefix(s) == rest;
    Text.SplitAfterField(time, ' ', date);
    Text.SplitNoSeparator(date, ' ');
    assert time + [' '] + date == rest;
  }

  /** The dashboard's appointment text is `На`, the time and the date. */
  lemma AppointmentText()
    ensures Appointment == Some("На " + "11:30" + " " + "27.01.2023")
  {
    var text := Appointment.value;
    assert text[..3] == "На " && text[3..8] == "11:30" && text[8..9] == " " && text[9..] == "27.01.2023";
    assert text == text[..3] + text[3..8] + text[8..9] + text[9..];
  }

  /** The dashboard's appointment shows `11:30` and `27.01.2023`. */
  lemma DashboardAppointment()
    ensures AppointmentTime(Appointment) == Some("11:30")
    ensures AppointmentDate(Appointment) == Some("27.01.2023")
  {
    assert !Text.IsJsSpace('1');
    AppointmentShowsTimeAndDate("11:30", "27.01.2023");
    AppointmentText();
  }
}

=== FILE: legacy_login.dfy ===
/** The older login form (`LoginForm` under `login_old`): it keeps the typed fields in a
    record, signs in, stores the user in local storage, asks the server whether the user
    has already seen the welcome page, and routes by role.

    The two server calls are inputs: the sign-in outcome and the welcome-page answer.
    Which thrown values count as "errors with a message" is decided by
    `isErrorWithMessage`, which is not part of this model; the outcome says it. */
module LegacyLogin {
  import opened Wrappers
  import Text

  const ConnectionMessage: string := "Нет соединение до Сервера!"
  const FormRoute: string := "/form"
  const PatientHome: string := "/main/P/lk"
  const DoctorHome: string := "/main/D/lk"
  const WelcomeRoute: string := "/WelcomePage"

  /** What the welcome-page query returns: the `welcomepage` answer, or a failure. */
  datatype WelcomeAnswer = Answered(welcomepage: string) | QueryFailed

  /** `fCheckfirstWelcome`'s result: `Some(b)` is `true`/`false`, `None` is `null`. */
  function CheckFirstWelcome(answer: WelcomeAnswer): (r: Option<bool>)
    ensures r == Some(true) <==> answer.Answered? && answer.welcomepage == "Yes"
    ensures r == Some(false) <==> answer.Answered? && answer.welcomepage != "Yes"
    ensures r.None? <==> answer.QueryFailed?
  {
    match answer
    case Answered(welcomepage) => Some(welcomepage == "Yes")
    case QueryFailed => None
  }

  /** `localStorage.getItem('userId') || '0'`: the user id the welcome query is asked for. */
  function WelcomeQueryUserId(storage: map<string, string>): (id: string)
    ensures id != ""
    ensures "userId" in storage && storage["userId"] != "" ==> id == storage["userId"]
    ensures !("userId" in storage && storage["userId"] != "") ==> id == "0"
  {
    if "userId" in storage && storage["userId"] != "" then storage["userId"] else "0"
  }

  /** The route chosen after signing in, from the role and the welcome check: the
      profile form for the role `'undefined'`, the home page of a patient or doctor who
      has seen the welcome page, the welcome page for one who has not (or when the check
      failed), and no navigation for any other role. */
  function RouteFor(role: string, check: Option<bool>): (r: Option<string>)
    ensures role == "undefined" ==> r == Some(FormRoute)
    ensures role == "Patient" ==> r == Some(if check == Some(true) then PatientHome else WelcomeRoute)
    ensures role == "Doctor" ==> r == Some(if check == Some(true) then DoctorHome else WelcomeRoute)
    ensures r.None? <==> role !in {"undefined", "Patient", "Doctor"}
  {
    var seen := check == Some(true);
    if role == "undefined" then Some(FormRoute)
    else if role == "Patient" then Some(if seen then PatientHome else WelcomeRoute)
    else if role == "Doctor" then Some(if seen then DoctorHome else WelcomeRoute)
    else None
  }

  /** A failed welcome check is treated like "not seen yet": it leads a patient or a
      doctor to the welcome page. */
  lemma FailedCheckLeadsToWelcome(role: string)
    requires role == "Patient" || role == "Doctor"
    ensures RouteFor(role, CheckFirstWelcome(QueryFailed)) == Some(WelcomeRoute)
  {
  }

  /** The sign-in response: the user's numeric id, login and role. */
  datatype LoginResponse = LoginResponse(id: int, login: string, role: string)

  /** `VitaUser` as stored in the Redux store: the id rendered as text. */
  datatype VitaUser = VitaUser(id: string, login: string, role: string)

  /** Why signing in failed: an error that `isErrorWithMessage` recognises, carrying
      `data.message`, or anything else. */
  datatype LoginFailure = ErrorWithMessage(message: string) | OtherError

  /** `setError`'s argument in the `catch` block. */
  function FailureMessage(e: LoginFailure): (m: string)
    ensures e.ErrorWithMessage? ==> m == e.message
    ensures e.OtherError? ==> m == ConnectionMessage
  {
    match e
    case ErrorWithMessage(message) => message
    case OtherError => ConnectionMessage
  }

  const InitialFormData: map<string, string> := map["login" := "", "password" := "", "role" := ""]

  class LoginForm {
    /** `formData`: the typed fields by input name. */
    var formData: map<string, string>
    var error: string
    var storage: map<string, string>
    /** `utFUserId.userId`, the id the welcome query sends. */
    var welcomeUserId: string
    /** The user dispatched to the Redux store. */
    var user: Option<VitaUser>

    constructor (storage: map<string, string>)
      ensures formData == InitialFormData && error == "" && this.storage == storage
      ensures welcomeUserId == "" && user.None?
    {
      formData := InitialFormData;
      error := "";
      this.storage := storage;
      welcomeUserId := "";
      user := None;
    }

    /** `handleInputChange`: the input named `name` takes `value`; the other fields stay. */
    method HandleInputChange(name: string, value: string)
      modifies this`formData
      ensures name in formData && formData[name] == value
      ensures forall other :: other in old(formData) && other != name ==> other in formData && formData[other] == old(formData)[other]
      ensures formData.Keys == old(formData).Keys + {name}
    {
      formData := formData[name := value];
    }

    /** `login`: on success the user is stored (in the Redux store and in four local
        storage keys), the welcome query is asked for the stored user id, and the route
        is chosen from the role and the answer; on failure the error message is set and
        nothing else changes. */
    method Login(outcome: Result<LoginResponse, LoginFailure>, answer: WelcomeAnswer)
      returns (navigation: Option<string>)
      modifies this`error, this`storage, this`welcomeUserId, this`user
      ensures outcome.Failure? ==>
        navigation.None? && error == FailureMessage(outcome.error)
        && storage == old(storage) && welcomeUserId == old(welcomeUserId) && user == old(user)
      ensures outcome.Success? ==>
        var response := outcome.value;
        var id := Text.IntToString(response.id);
        error == old(error)
        && user == Some(VitaUser(id, response.login, response.role))
        && storage == old(storage)["isAuthenticated" := "true"]["role" := response.role]
                                  ["userId" := id]["login" := response.login]
        && welcomeUserId == id
        && navigation == RouteFor(response.role, CheckFirstWelcome(answer))
    {
      match outcome {
        case Failure(e) =>
          error := FailureMessage(e);
          navigation := None;
        case Success(response) =>
          var signedIn := VitaUser(Text.IntToString(response.id), response.login, response.role);
          user := Some(signedIn);
          storage := storage["isAuthenticated" := "true"];
          storage := storage["role" := signedIn.role];
          storage := storage["userId" := signedIn.id];
          storage := storage["login" := signedIn.login];
          var check := FirstWelcome(answer);
          navigation := RouteFor(signedIn.role, check);
      }
    }

    /** `fCheckfirstWelcome`: records the stored user id (or `'0'`) as the query's
        argument and maps the answer. */
    method FirstWelcome(answer: WelcomeAnswer) returns (check: Option<bool>)
      modifies this`welcomeUserId
      ensures welcomeUserId == WelcomeQueryUserId(storage)
      ensures check == CheckFirstWelcome(answer)
    {
      welcomeUserId := WelcomeQueryUserId(storage);
      check := CheckFirstWelcome(answer);
    }
  }
}

=== FILE: medication_upsert.dfy ===
/** The medication form (`MedicationUpsertPage`): the editors of the intake-time and
    weekday lists, the field and schedule validation, the request built from the form,
    and how a failed request turns into field and page errors.

    Numbers and dates arrive already interpreted: every numeric field carries its text
    and the value `Number(text)` gives (`JsNumber`), every date field its text and the
    instant `new Date(text)` denotes, `None` for an invalid date. */
module MedicationUpsert {
  import opened Wrappers
  import Text
  import Sequences

  // ---------------------------------------------------------------------------
  // Form state

  /** A JavaScript number as `Number(text)` produces it. */
  datatype JsNumber = NaN | PosInfinity | NegInfinity | Finite(value: real)

  /** `Number.isInteger(n)`. */
  predicate IsInteger(n: JsNumber) {
    n.Finite? && n.value.Floor as real == n.value
  }

  /** `n <= 0`, which is false for NaN. */
  predicate AtMostZero(n: JsNumber) {
    n.NegInfinity? || (n.Finite? && n.value <= 0.0)
  }

  /** `n < bound`, which is false for NaN. */
  predicate Below(n: JsNumber, bound: real) {
    n.NegInfinity? || (n.Finite? && n.value < bound)
  }

  /** A numeric input: the text typed and `Number(text)`. */
  datatype NumberField = NumberField(text: string, number: JsNumber)

  /** A date input: the text typed and the instant `new Date(text)` denotes. */
  datatype DateField = DateField(text: string, instant: Option<int>)

  datatype ScheduleType = Daily | Weekly | Interval | Prn

  datatype FormState = FormState(
    name: string,
    form: string,
    doseAmount: NumberField,
    doseUnit: string,
    notes: string,
    startDate: DateField,
    endDate: DateField,
    scheduleType: ScheduleType,
    times: seq<string>,
    weekdays: seq<int>,
    intervalDays: NumberField,
    prnReason: string,
    reminderEnabled: bool,
    reminderLeadTime: int,
    stockEnabled: bool,
    currentStock: NumberField,
    lowStockThreshold: NumberField)

  /** The form as the page first shows it. */
  const InitialForm: FormState := FormState(
    "", "", NumberField("", Finite(0.0)), "", "", DateField("", None), DateField("", None),
    Daily, [""], [], NumberField("1", Finite(1.0)), "", false, 10, false,
    NumberField("", Finite(0.0)), NumberField("", Finite(0.0)))

  // ---------------------------------------------------------------------------
  // The intake-time list

  /** `updateTime(index, value)`: the entry at `index` becomes `value`. */
  function UpdateTime(times: seq<string>, index: int, value: string): (r: seq<string>)
    ensures |r| == |times|
    ensures forall k :: 0 <= k < |r| && k != index ==> r[k] == times[k]
    ensures 0 <= index < |r| ==> r[index] == value
  {
    seq(|times|, k requires 0 <= k < |times| => if k == index then value else times[k])
  }

  /** `addTime()`: one empty entry more, at the end. */
  function AddTime(times: seq<string>): (r: seq<string>)
    ensures |r| == |times| + 1 && r[..|times|] == times && r[|times|] == ""
  {
    times + [""]
  }

  /** `prev.filter((_, idx) => idx !== index)`. */
  function DropIndex(s: seq<string>, index: int): (r: seq<string>)
    ensures 0 <= index < |s| ==> r == s[..index] + s[index + 1..]
    ensures !(0 <= index < |s|) ==> r == s
  {
    if s == [] then []
    else if index == 0 then s[1..]
    else [s[0]] + DropIndex(s[1..], index - 1)
  }

  /** `removeTime(index)`: a single entry is reset to `""`; otherwise the entry at
      `index` is dropped. */
  function RemoveTime(times: seq<string>, index: int): (r: seq<string>)
    ensures |times| == 1 ==> r == [""]
    ensures |times| != 1 && 0 <= index < |times| ==> r == times[..index] + times[index + 1..]
    ensures |times| != 1 && !(0 <= index < |times|) ==> r == times
  {
    if |times| == 1 then [""] else DropIndex(times, index)
  }

  /** None of the three editors empties a list that is not empty. */
  lemma EditorsKeepTimesNonEmpty(times: seq<string>, index: int, value: string)
    requires |times| >= 1
    ensures |UpdateTime(times, index, value)| >= 1
    ensures |AddTime(times)| >= 1
    ensures |RemoveTime(times, index)| >= 1
  {
  }

  // ---------------------------------------------------------------------------
  // The weekday list

  predicate IsSorted(s: seq<int>) {
    forall i, j :: 0 <= i < j < |s| ==> s[i] <= s[j]
  }

  /** Sorted without duplicates. */
  predicate IsStrictlyAscending(s: seq<int>) {
    forall i, j :: 0 <= i < j < |s| ==> s[i] < s[j]
  }

  /** `s.filter((value) => value !== x)`: every occurrence of `x` gone, the rest kept. */
  function RemoveAll(s: seq<int>, x: int): (r: seq<int>)
    ensures multiset(r) == multiset(s)[x := 0]
    ensures Sequences.IsSubsequence(r, s)
  {
    if s == [] then []
    else
      assert s == [s[0]] + s[1..];
      var rest := RemoveAll(s[1..], x);
      if s[0] == x then
        Sequences.SubsequenceOfTail(rest, s);
        rest
      else
        assert ([s[0]] + rest)[1..] == rest;
        [s[0]] + rest
  }

  /** `x` placed before the first element larger than it. */
  function Insert(x: int, s: seq<int>): (r: seq<int>)
    ensures multiset(r) == multiset(s) + multiset{x}
  {
    if s == [] || x < s[0] then [x] + s
    else
      assert s == [s[0]] + s[1..];
      [s[0]] + Insert(x, s[1..])
  }

  /** `s.sort((a, b) => a - b)`: the ascending permutation of `s`. */
  function SortAscending(s: seq<int>): (r: seq<int>)
    ensures IsSorted(r)
    ensures multiset(r) == multiset(s)
  {
    if s == [] then []
    else
      assert s == s[..|s| - 1] + [s[|s| - 1]];
      var sorted := SortAscending(s[..|s| - 1]);
      InsertSorted(s[|s| - 1], sorted);
      Insert(s[|s| - 1], sorted)
  }

  /** `toggleWeekday(day)`: a selected day is deselected; otherwise it is added and the
      list sorted ascending. */
  function ToggleWeekday(days: seq<int>, day: int): (r: seq<int>)
    ensures day in days ==> multiset(r) == multiset(days)[day := 0]
    ensures day !in days ==> IsSorted(r) && multiset(r) == multiset(days) + multiset{day}
  {
    if day in days then RemoveAll(days, day) else SortAscending(days + [day])
  }

  /** Inserting into a sorted list keeps it sorted. */
  lemma {:induction false} InsertSorted(x: int, s: seq<int>)
    requires IsSorted(s)
    ensures IsSorted(Insert(x, s))
  {
    if s != [] && x >= s[0] {
      var rest := Insert(x, s[1..]);
      InsertSorted(x, s[1..]);
      forall k | 0 <= k < |rest|
        ensures s[0] <= rest[k]
      {
        assert rest[k] in multiset(rest);
        if rest[k] != x {
          assert rest[k] in s[1..];
        }
      }
    }
  }

  /** Inserting a value no smaller than every element appends it. */
  lemma {:induction false} InsertLargest(x: int, s: seq<int>)
    requires forall k :: 0 <= k < |s| ==> s[k] <= x
    ensures Insert(x, s) == s + [x]
  {
    if s != [] {
      InsertLargest(x, s[1..]);
      assert s == [s[0]] + s[1..];
    }
  }

  /** Sorting a sorted list changes nothing. */
  lemma {:induction false} SortSorted(s: seq<int>)
    requires IsSorted(s)
    ensures SortAscending(s) == s
  {
    if s != [] {
      var init, last := s[..|s| - 1], s[|s| - 1];
      assert init + [last] == s;
      SortedPrefix(init, last);
      SortSorted(init);
      InsertLargest(last, init);
      assert SortAscending(s) == Insert(last, SortAscending(init));
      assert init + [last] == s;
    }
  }

  /** A sorted non-empty list is a sorted list followed by a value no smaller than it. */
  lemma SortedPrefix(init: seq<int>, last: int)
    requires IsSorted(init + [last])
    ensures IsSorted(init)
    ensures forall k :: 0 <= k < |init| ==> init[k] <= last
  {
    var s := init + [last];
    forall i, j | 0 <= i < j < |init| ensures init[i] <= init[j] {
      assert init[i] == s[i] && init[j] == s[j];
    }
    forall k | 0 <= k < |init| ensures init[k] <= last {
      assert init[k] == s[k] && last == s[|init|];
    }
  }

  /** Sorting a sorted list with one value appended is inserting that value. */
  lemma SortAppend(days: seq<int>, day: int)
    requires IsSorted(days)
    ensures SortAscending(days + [day]) == Insert(day, days)
  {
    var s := days + [day];
    assert s[..|s| - 1] == days;
    SortSorted(days);
  }

  /** Inserting a new value into a strictly ascending list keeps it strictly ascending. */
  lemma {:induction false} InsertStrict(x: int, s: seq<int>)
    requires IsStrictlyAscending(s) && x !in s
    ensures IsStrictlyAscending(Insert(x, s))
  {
    if s != [] && x >= s[0] {
      var head, tail := s[0], s[1..];
      assert s == [head] + tail;
      StrictTail(head, tail);
      InsertStrict(x, tail);
      InsertAbove(head, x, tail);
      assert Insert(x, s) == [head] + Insert(x, tail);
      StrictCons(head, Insert(x, tail));
    } else if s != [] {
      assert x < s[0];
    }
  }

  /** A bound below `x` and below every element stays below every element after `x` is
      inserted. */
  lemma InsertAbove(bound: int, x: int, s: seq<int>)
    requires bound < x
    requires forall k :: 0 <= k < |s| ==> bound < s[k]
    ensures forall k :: 0 <= k < |Insert(x, s)| ==> bound < Insert(x, s)[k]
  {
    var r := Insert(x, s);
    forall k | 0 <= k < |r|
      ensures bound < r[k]
    {
      assert r[k] in multiset(r);
      if r[k] != x {
        assert r[k] in s;
      }
    }
  }

  /** Removing a value from a strictly ascending list keeps it strictly ascending. */
  lemma {:induction false} RemoveStrict(s: seq<int>, x: int)
    requires IsStrictlyAscending(s)
    ensures IsStrictlyAscending(RemoveAll(s, x))
  {
    if s != [] {
      var tail := s[1..];
      assert IsStrictlyAscending(tail) by {
        forall i, j | 0 <= i < j < |tail| ensures tail[i] < tail[j] {
          assert tail[i] == s[i + 1] && tail[j] == s[j + 1];
        }
      }
      var rest := RemoveAll(tail, x);
      RemoveStrict(tail, x);
      if s[0] != x {
        forall k | 0 <= k < |rest|
          ensures s[0] < rest[k]
        {
          assert rest[k] in multiset(rest);
          assert rest[k] in tail;
          var j :| 0 <= j < |tail| && tail[j] == rest[k];
          assert s[j + 1] == rest[k];
        }
        assert RemoveAll(s, x) == [s[0]] + rest;
      }
    }
  }

  /** Removing a value that is not there changes nothing. */
  lemma {:induction false} RemoveAbsent(x: int, s: seq<int>)
    requires x !in s
    ensures RemoveAll(s, x) == s
  {
    if s != [] {
      RemoveAbsent(x, s[1..]);
      assert s == [s[0]] + s[1..];
    }
  }

  /** Re-inserting a removed value restores a strictly ascending list. */
  lemma {:induction false} InsertAfterRemove(x: int, s: seq<int>)
    requires IsStrictlyAscending(s) && x in s
    ensures Insert(x, RemoveAll(s, x)) == s
  {
    var head, tail := s[0], s[1..];
    assert s == [head] + tail;
    StrictTail(head, tail);
    if head == x {
      RemoveAbsent(x, tail);
      assert RemoveAll(s, x) == tail;
    } else {
      assert x in tail;
      var rest := RemoveAll(tail, x);
      assert RemoveAll(s, x) == [head] + rest;
      assert head < x by { var j :| 0 <= j < |tail| && tail[j] == x; }
      assert Insert(x, [head] + rest) == [head] + Insert(x, rest) by {
        assert ([head] + rest)[1..] == rest;
      }
      InsertAfterRemove(x, tail);
    }
  }

  /** A head below every element of a strictly ascending tail keeps the list strictly
      ascending. */
  lemma StrictCons(head: int, tail: seq<int>)
    requires IsStrictlyAscending(tail)
    requires forall k :: 0 <= k < |tail| ==> head < tail[k]
    ensures IsStrictlyAscending([head] + tail)
  {
    var s := [head] + tail;
    forall i, j | 0 <= i < j < |s| ensures s[i] < s[j] {
      assert s[j] == tail[j - 1];
      if i > 0 {
        assert s[i] == tail[i - 1];
      }
    }
  }

  /** The tail of a strictly ascending list is strictly ascending and above its head. */
  lemma StrictTail(head: int, tail: seq<int>)
    requires IsStrictlyAscending([head] + tail)
    ensures IsStrictlyAscending(tail)
    ensures forall k :: 0 <= k < |tail| ==> head < tail[k]
  {
    var s := [head] + tail;
    forall i, j | 0 <= i < j < |tail| ensures tail[i] < tail[j] {
      assert tail[i] == s[i + 1] && tail[j] == s[j + 1];
    }
    forall k | 0 <= k < |tail| ensures head < tail[k] {
      assert tail[k] == s[k + 1] && head == s[0];
    }
  }

  /** Removing a value that was just inserted gives back the list it was inserted into. */
  lemma {:induction false} RemoveAfterInsert(x: int, s: seq<int>)
    requires x !in s
    ensures RemoveAll(Insert(x, s), x) == s
  {
    if s == [] || x < s[0] {
      RemoveAbsent(x, s);
      assert RemoveAll([x] + s, x) == RemoveAll(s, x) by { assert ([x] + s)[1..] == s; }
    } else {
      var head, tail := s[0], s[1..];
      assert s == [head] + tail;
      assert head != x;
      var inserted := Insert(x, tail);
      assert Insert(x, s) == [head] + inserted;
      RemoveAfterInsert(x, tail);
      assert RemoveAll([head] + inserted, x) == [head] + RemoveAll(inserted, x) by {
        assert ([head] + inserted)[1..] == inserted;
      }
    }
  }

  /** Toggling keeps a weekday list sorted and free of duplicates, flips the toggled day
      and leaves every other day as it was. */
  lemma ToggleKeepsStrictlyAscending(days: seq<int>, day: int)
    requires IsStrictlyAscending(days)
    ensures IsStrictlyAscending(ToggleWeekday(days, day))
    ensures day in ToggleWeekday(days, day) <==> day !in days
    ensures forall d :: d != day ==> (d in ToggleWeekday(days, day) <==> d in days)
  {
    var r := ToggleWeekday(days, day);
    if day in days {
      RemoveStrict(days, day);
    } else {
      SortAppend(days, day);
      InsertStrict(day, days);
    }
    assert day in r <==> day in multiset(r);
    forall d | d != day
      ensures d in r <==> d in days
    {
      assert d in r <==> d in multiset(r);
      assert d in days <==> d in multiset(days);
    }
  }

  /** Toggling the same day twice restores a sorted, duplicate-free weekday list. */
  lemma ToggleTwice(days: seq<int>, day: int)
    requires IsStrictlyAscending(days)
    ensures ToggleWeekday(ToggleWeekday(days, day), day) == days
  {
    if day in days {
      var removed := RemoveAll(days, day);
      RemoveStrict(days, day);
      assert day !in multiset(removed);
      SortAppend(removed, day);
      InsertAfterRemove(day, days);
    } else {
      SortAppend(days, day);
      assert day in multiset(Insert(day, days));
      RemoveAfterInsert(day, days);
    }
  }

  // ---------------------------------------------------------------------------
  // Validation

  /** The fields `validate` checks. */
  datatype Field =
    | Name | DoseAmount | DoseUnit | StartDate | EndDate
    | Times | Weekdays | IntervalDays | CurrentStock | LowStockThreshold
  {
    /** The lower-case key the page stores the field's error under. */
    function Key(): string {
      match this
      case Name => "name"
      case DoseAmount => "doseamount"
      case DoseUnit => "doseunit"
      case StartDate => "startdate"
      case EndDate => "enddate"
      case Times => "times"
      case Weekdays => "weekdays"
      case IntervalDays => "intervaldays"
      case CurrentStock => "currentstock"
      case LowStockThreshold => "lowstockthreshold"
    }
  }

  /** Distinct fields have distinct keys. */
  lemma KeyInjective()
    ensures forall a: Field, b: Field :: a.Key() == b.Key() ==> a == b
  {
    assert DoseUnit.Key()[0] != Weekdays.Key()[0];
    assert IntervalDays.Key()[0] != CurrentStock.Key()[0];
  }

  const NameMessage: string := "Название обязательно: от 2 до 80 символов."
  const DoseAmountMessage: string := "Доза за прием должна быть больше 0."
  const DoseUnitMessage: string := "Укажите единицу дозировки."
  const StartDateMessage: string := "Укажите дату начала."
  const EndDateMessage: string := "Дата окончания не может быть раньше даты начала."
  const TimesMessage: string := "Добавьте хотя бы одно время приема."
  const WeekdaysMessage: string := "Выберите хотя бы один день недели."
  const IntervalDaysMessage: string := "Интервал должен быть целым числом не меньше 1."
  const CurrentStockMessage: string := "Остаток должен быть не меньше 0."
  const ThresholdNegativeMessage: string := "Порог должен быть не меньше 0."
  const ThresholdAboveStockMessage: string := "Порог не может быть больше текущего остатка."

  /** `times.filter((value) => value.trim().length > 0)`, in the original order. */
  function NonBlankTimes(times: seq<string>): (r: seq<string>)
    ensures |r| <= |times|
    ensures forall t :: t in r <==> t in times && !Text.IsBlank(t)
    ensures Sequences.IsSubsequence(r, times)
    ensures forall t :: multiset(r)[t] == if Text.IsBlank(t) then 0 else multiset(times)[t]
  {
    if times == [] then []
    else
      var rest := NonBlankTimes(times[1..]);
      assert times == [times[0]] + times[1..];
      if Text.IsBlank(times[0]) then
        Sequences.SubsequenceOfTail(rest, times);
        rest
      else
        assert ([times[0]] + rest)[1..] == rest;
        [times[0]] + rest
  }

  /** `currentStock ? Number(currentStock) : null`. */
  function Parsed(field: NumberField): Option<JsNumber> {
    if field.text != "" then Some(field.number) else None
  }

  predicate NameInvalid(f: FormState) {
    var n := Text.Utf16Length(Text.Trim(f.name)); n < 2 || n > 80
  }

  predicate DoseInvalid(f: FormState) {
    f.doseAmount.text == "" || f.doseAmount.number.NaN? || AtMostZero(f.doseAmount.number)
  }

  predicate DoseUnitMissing(f: FormState) {
    f.doseAmount.text != "" && f.doseUnit == ""
  }

  predicate StartDateMissing(f: FormState) {
    f.startDate.text == ""
  }

  /** `new Date(endDate) < new Date(startDate)`: false when either date is invalid. */
  predicate EndBeforeStart(f: FormState) {
    f.startDate.text != "" && f.endDate.text != ""
    && f.startDate.instant.Some? && f.endDate.instant.Some?
    && f.endDate.instant.value < f.startDate.instant.value
  }

  /** No intake time has anything but white space (`validTimes.length === 0`). */
  predicate TimesMissing(f: FormState) {
    f.scheduleType != Prn && forall k :: 0 <= k < |f.times| ==> Text.IsBlank(f.times[k])
  }

  predicate WeekdaysMissing(f: FormState) {
    f.scheduleType == Weekly && |f.weekdays| == 0
  }

  predicate IntervalInvalid(f: FormState) {
    f.scheduleType == Interval
    && (!IsInteger(f.intervalDays.number) || Below(f.intervalDays.number, 1.0))
  }

  /** A stock number that is not finite or is negative. */
  predicate NegativeOrNotFinite(p: Option<JsNumber>) {
    p.Some? && (!p.value.Finite? || Below(p.value, 0.0))
  }

  predicate StockNegative(f: FormState) {
    f.stockEnabled && NegativeOrNotFinite(Parsed(f.currentStock))
  }

  predicate ThresholdNegative(f: FormState) {
    f.stockEnabled && NegativeOrNotFinite(Parsed(f.lowStockThreshold))
  }

  predicate ThresholdAboveStock(f: FormState) {
    var stock := Parsed(f.currentStock);
    var threshold := Parsed(f.lowStockThreshold);
    f.stockEnabled && stock.Some? && threshold.Some?
    && stock.value.Finite? && threshold.value.Finite?
    && threshold.value.value > stock.value.value
  }

  /** No validation rule fires. */
  predicate FormValid(f: FormState) {
    !NameInvalid(f) && !DoseInvalid(f) && !DoseUnitMissing(f) && !StartDateMissing(f)
    && !EndBeforeStart(f) && !TimesMissing(f) && !WeekdaysMissing(f) && !IntervalInvalid(f)
    && !StockNegative(f) && !ThresholdNegative(f) && !ThresholdAboveStock(f)
  }

  /** The rule that puts an error on `field`. */
  predicate Fires(f: FormState, field: Field) {
    match field
    case Name => NameInvalid(f)
    case DoseAmount => DoseInvalid(f)
    case DoseUnit => DoseUnitMissing(f)
    case StartDate => StartDateMissing(f)
    case EndDate => EndBeforeStart(f)
    case Times => TimesMissing(f)
    case Weekdays => WeekdaysMissing(f)
    case IntervalDays => IntervalInvalid(f)
    case CurrentStock => StockNegative(f)
    case LowStockThreshold => ThresholdNegative(f) || ThresholdAboveStock(f)
  }

  /** The message shown on `field`; the threshold shows the later of its two rules. */
  function Message(f: FormState, field: Field): string {
    match field
    case Name => NameMessage
    case DoseAmount => DoseAmountMessage
    case DoseUnit => DoseUnitMessage
    case StartDate => StartDateMessage
    case EndDate => EndDateMessage
    case Times => TimesMessage
    case Weekdays => WeekdaysMessage
    case IntervalDays => IntervalDaysMessage
    case CurrentStock => CurrentStockMessage
    case LowStockThreshold =>
      if ThresholdAboveStock(f) then ThresholdAboveStockMessage else ThresholdNegativeMessage
  }

  /** The form is valid exactly when no field's rule fires. */
  lemma FormValidIffNothingFires(f: FormState)
    ensures FormValid(f) <==> forall field :: !Fires(f, field)
  {
    if !FormValid(f) {
      if NameInvalid(f) { assert Fires(f, Name); }
      else if DoseInvalid(f) { assert Fires(f, DoseAmount); }
      else if DoseUnitMissing(f) { assert Fires(f, DoseUnit); }
      else if StartDateMissing(f) { assert Fires(f, StartDate); }
      else if EndBeforeStart(f) { assert Fires(f, EndDate); }
      else if TimesMissing(f) { assert Fires(f, Times); }
      else if WeekdaysMissing(f) { assert Fires(f, Weekdays); }
      else if IntervalInvalid(f) { assert Fires(f, IntervalDays); }
      else if StockNegative(f) { assert Fires(f, CurrentStock); }
      else { assert Fires(f, LowStockThreshold); }
    }
  }

  /** The four stretches of `validate`: the medicine, its course dates, its schedule and
      its stock. */
  function Section(field: Field): nat {
    match field
    case Name | DoseAmount | DoseUnit => 0
    case StartDate | EndDate => 1
    case Times | Weekdays | IntervalDays => 2
    case CurrentStock | LowStockThreshold => 3
  }

  /** The name and dose rules. */
  method MedicineErrors(f: FormState) returns (errors: map<Field, string>)
    ensures forall field :: field in errors <==> Section(field) == 0 && Fires(f, field)
    ensures forall field :: field in errors ==> errors[field] == Message(f, field)
  {
    var nameErrors := NameErrors(f);
    var doseErrors := DoseErrors(f);
    errors := nameErrors + doseErrors;
    SectionZero(f);
  }

  /** The first section holds the name rule and the two dose rules. */
  lemma SectionZero(f: FormState)
    ensures forall field :: Section(field) == 0 && Fires(f, field) <==>
      (field == Name && NameInvalid(f)) || (field == DoseAmount && DoseInvalid(f))
      || (field == DoseUnit && DoseUnitMissing(f))
    ensures Message(f, Name) == NameMessage && Message(f, DoseAmount) == DoseAmountMessage
      && Message(f, DoseUnit) == DoseUnitMessage
  {
  }

  /** The two dose rules. */
  method DoseErrors(f: FormState) returns (errors: map<Field, string>)
    ensures forall field :: field in errors <==>
      (field == DoseAmount && DoseInvalid(f)) || (field == DoseUnit && DoseUnitMissing(f))
    ensures DoseAmount in errors ==> errors[DoseAmount] == DoseAmountMessage
    ensures DoseUnit in errors ==> errors[DoseUnit] == DoseUnitMessage
  {
    errors := map[];
    if DoseInvalid(f) {
      errors := errors[DoseAmount := DoseAmountMessage];
    }
    if DoseUnitMissing(f) {
      errors := errors[DoseUnit := DoseUnitMessage];
    }
  }

  /** The name rule on its own. */
  method NameErrors(f: FormState) returns (errors: map<Field, string>)
    ensures forall field :: field in errors <==> field == Name && NameInvalid(f)
    ensures Name in errors ==> errors[Name] == NameMessage
  {
    errors := map[];
    if NameInvalid(f) {
      errors := errors[Name := NameMessage];
    }
  }

  /** The start and end date rules. */
  method DateErrors(f: FormState) returns (errors: map<Field, string>)
    ensures forall field :: field in errors <==> Section(field) == 1 && Fires(f, field)
    ensures forall field :: field in errors ==> errors[field] == Message(f, field)
  {
    errors := map[];
    if StartDateMissing(f) {
      errors := errors[StartDate := StartDateMessage];
    }
    if EndBeforeStart(f) {
      errors := errors[EndDate := EndDateMessage];
    }
  }

  /** The schedule rules. */
  method ScheduleErrors(f: FormState) returns (errors: map<Field, string>)
    ensures forall field :: field in errors <==> Section(field) == 2 && Fires(f, field)
    ensures forall field :: field in errors ==> errors[field] == Message(f, field)
  {
    errors := map[];
    if TimesMissing(f) {
      errors := errors[Times := TimesMessage];
    }
    if WeekdaysMissing(f) {
      errors := errors[Weekdays := WeekdaysMessage];
    }
    if IntervalInvalid(f) {
      errors := errors[IntervalDays := IntervalDaysMessage];
    }
  }

  /** The stock rules, in source order, so that the threshold ends with the message of
      the later rule that fires. */
  method StockErrors(f: FormState) returns (errors: map<Field, string>)
    ensures forall field :: field in errors <==> Section(field) == 3 && Fires(f, field)
    ensures forall field :: field in errors ==> errors[field] == Message(f, field)
  {
    errors := map[];
    if StockNegative(f) {
      errors := errors[CurrentStock := CurrentStockMessage];
    }
    if ThresholdNegative(f) {
      errors := errors[LowStockThreshold := ThresholdNegativeMessage];
    }
    if ThresholdAboveStock(f) {
      errors := errors[LowStockThreshold := ThresholdAboveStockMessage];
    }
  }

  /** The error map `validate` fills, rule after rule (`nextErrors`): a field has an
      error exactly when its rule fires, and the error is that rule's message. */
  method CollectErrors(f: FormState) returns (errors: map<Field, string>)
    ensures forall field :: field in errors <==> Fires(f, field)
    ensures forall field :: field in errors ==> errors[field] == Message(f, field)
    ensures errors == map[] <==> FormValid(f)
  {
    var medicine := MedicineErrors(f);
    var dates := DateErrors(f);
    var schedule := ScheduleErrors(f);
    var stock := StockErrors(f);
    errors := medicine + dates + schedule + stock;
    FormValidIffNothingFires(f);
    if errors == map[] {
      forall field: Field
        ensures !Fires(f, field)
      {
        assert field !in errors;
      }
    } else {
      var field :| field in errors;
      assert Fires(f, field);
    }
  }

  /** The field errors keyed the way the page stores them. */
  function KeyedErrors(errors: map<Field, string>): (r: map<string, string>)
    ensures forall field: Field :: field.Key() in r <==> field in errors
    ensures forall field :: field in errors ==> r[field.Key()] == errors[field]
    ensures forall key :: key in r ==> exists field :: field in errors && field.Key() == key
  {
    KeyInjective();
    map field | field in errors :: field.Key() := errors[field]
  }

  /** `getFieldError(...keys)`: the message of the first key (lower-cased) that has a
      non-empty one, or `""`. */
  function GetFieldError(errors: map<string, string>, keys: seq<string>): (r: string)
    ensures r != "" ==> exists k :: FirstMessageAt(errors, keys, k) && errors[Text.ToLower(keys[k])] == r
    ensures r == "" <==> forall k :: 0 <= k < |keys| ==> NoMessage(errors, keys[k])
  {
    if keys == [] then ""
    else
      var key := Text.ToLower(keys[0]);
      if key in errors && errors[key] != "" then
        assert FirstMessageAt(errors, keys, 0);
        errors[key]
      else
        var r := GetFieldError(errors, keys[1..]);
        assert forall k :: 1 <= k < |keys| ==> keys[k] == keys[1..][k - 1];
        if r != "" then
          var k :| FirstMessageAt(errors, keys[1..], k) && errors[Text.ToLower(keys[1..][k])] == r;
          FirstMessageShift(errors, keys, k);
          r
        else r
  }

  /** `keys[k]` is the first key, lower-cased, with a non-empty message. */
  predicate FirstMessageAt(errors: map<string, string>, keys: seq<string>, k: int) {
    0 <= k < |keys| && Text.ToLower(keys[k]) in errors && errors[Text.ToLower(keys[k])] != ""
    && forall j :: 0 <= j < k ==> NoMessage(errors, keys[j])
  }

  /** A first message in the tail, behind a head without one, is the first overall. */
  lemma FirstMessageShift(errors: map<string, string>, keys: seq<string>, k: int)
    requires keys != [] && NoMessage(errors, keys[0])
    requires FirstMessageAt(errors, keys[1..], k)
    ensures FirstMessageAt(errors, keys, k + 1) && keys[k + 1] == keys[1..][k]
  {
    assert forall j :: 1 <= j <= k ==> keys[j] == keys[1..][j - 1];
  }

  /** The key, lower-cased, has no message or an empty one. */
  predicate NoMessage(errors: map<string, string>, key: string) {
    Text.ToLower(key) !in errors || errors[Text.ToLower(key)] == ""
  }

  // ---------------------------------------------------------------------------
  // The request

  datatype Schedule = Schedule(
    scheduleType: ScheduleType,
    times: Option<seq<string>>,
    weekdays: Option<seq<int>>,
    intervalDays: Option<JsNumber>,
    prnReason: Option<string>)

  datatype Reminders = Reminders(enabled: bool, leadTimeMinutes: Option<int>)

  datatype Stock = Stock(enabled: bool, currentStock: Option<JsNumber>, lowStockThreshold: Option<JsNumber>)

  /** `MedicationCreateRequest`; `None` is a property left `undefined`. */
  datatype CreateRequest = CreateRequest(
    name: string,
    form: Option<string>,
    doseAmount: JsNumber,
    doseUnit: string,
    notes: Option<string>,
    startDate: string,
    endDate: Option<string>,
    isPrn: bool,
    schedule: Schedule,
    reminders: Reminders,
    stock: Stock)

  /** `text || undefined`. */
  function NonEmpty(text: string): (r: Option<string>)
    ensures r.Some? <==> text != ""
    ensures r.Some? ==> r.value == text
  {
    if text != "" then Some(text) else None
  }

  /** `buildPayload()`. */
  function BuildPayload(f: FormState): (r: CreateRequest)
    ensures r.name == Text.Trim(f.name)
    ensures r.isPrn <==> f.scheduleType == Prn
    ensures r.schedule.scheduleType == f.scheduleType
    ensures r.schedule.times.Some? <==> f.scheduleType != Prn
    ensures r.schedule.times.Some? ==>
      forall t :: t in r.schedule.times.value <==> t in f.times && !Text.IsBlank(t)
    ensures r.schedule.weekdays.Some? <==> f.scheduleType == Weekly
    ensures r.schedule.weekdays.Some? ==> r.schedule.weekdays.value == f.weekdays
    ensures r.schedule.intervalDays.Some? <==> f.scheduleType == Interval
    ensures r.schedule.prnReason.Some? ==> f.scheduleType == Prn && !Text.IsBlank(f.prnReason)
    ensures r.reminders.enabled == f.reminderEnabled
    ensures r.reminders.leadTimeMinutes.Some? <==> f.reminderEnabled
    ensures r.stock.enabled == f.stockEnabled
    ensures !f.stockEnabled ==> r.stock.currentStock.None? && r.stock.lowStockThreshold.None?
    ensures r.form == NonEmpty(f.form) && r.notes == NonEmpty(Text.Trim(f.notes))
    ensures r.doseAmount == f.doseAmount.number && r.doseUnit == f.doseUnit
    ensures r.startDate == f.startDate.text && r.endDate == NonEmpty(f.endDate.text)
    ensures r.schedule.times.Some? ==> r.schedule.times.value == NonBlankTimes(f.times)
    ensures r.schedule.intervalDays.Some? ==> r.schedule.intervalDays.value == f.intervalDays.number
    ensures f.scheduleType == Prn ==> r.schedule.prnReason == NonEmpty(Text.Trim(f.prnReason))
    ensures f.reminderEnabled ==> r.reminders.leadTimeMinutes == Some(f.reminderLeadTime)
    ensures f.stockEnabled ==>
      (r.stock.currentStock.Some? <==> f.currentStock.text != "")
      && (r.stock.currentStock.Some? ==> r.stock.currentStock.value == f.currentStock.number)
      && (r.stock.lowStockThreshold.Some? <==> f.lowStockThreshold.text != "")
      && (r.stock.lowStockThreshold.Some? ==> r.stock.lowStockThreshold.value == f.lowStockThreshold.number)
  {
    CreateRequest(
      Text.Trim(f.name),
      NonEmpty(f.form),
      f.doseAmount.number,
      f.doseUnit,
      NonEmpty(Text.Trim(f.notes)),
      f.startDate.text,
      NonEmpty(f.endDate.text),
      f.scheduleType == Prn,
      ScheduleOf(f),
      RemindersOf(f),
      StockOf(f))
  }

  /** The `schedule` part of the payload. */
  function ScheduleOf(f: FormState): (r: Schedule)
    ensures r.scheduleType == f.scheduleType
    ensures r.times == if f.scheduleType == Prn then None else Some(NonBlankTimes(f.times))
    ensures r.weekdays == if f.scheduleType == Weekly then Some(f.weekdays) else None
    ensures r.intervalDays == if f.scheduleType == Interval then Some(f.intervalDays.number) else None
    ensures r.prnReason == if f.scheduleType == Prn then NonEmpty(Text.Trim(f.prnReason)) else None
    ensures r.prnReason.Some? ==> !Text.IsBlank(f.prnReason)
  {
    var cleanedTimes := NonBlankTimes(f.times);
    Text.TrimEmptyIffBlank(f.prnReason);
    match f.scheduleType
    case Weekly => Schedule(Weekly, Some(cleanedTimes), Some(f.weekdays), None, None)
    case Interval => Schedule(Interval, Some(cleanedTimes), None, Some(f.intervalDays.number), None)
    case Prn => Schedule(Prn, None, None, None, NonEmpty(Text.Trim(f.prnReason)))
    case Daily => Schedule(Daily, Some(cleanedTimes), None, None, None)
  }

  /** The `reminders` part of the payload. */
  function RemindersOf(f: FormState): (r: Reminders)
    ensures r.enabled == f.reminderEnabled
    ensures r.leadTimeMinutes == if f.reminderEnabled then Some(f.reminderLeadTime) else None
  {
    if f.reminderEnabled then Reminders(true, Some(f.reminderLeadTime)) else Reminders(false, None)
  }

  /** The `stock` part of the payload: each number only when its field is filled in. */
  function StockOf(f: FormState): (r: Stock)
    ensures r.enabled == f.stockEnabled
    ensures r.currentStock == if f.stockEnabled && f.currentStock.text != "" then Some(f.currentStock.number) else None
    ensures r.lowStockThreshold ==
      if f.stockEnabled && f.lowStockThreshold.text != "" then Some(f.lowStockThreshold.number) else None
  {
    if f.stockEnabled then Stock(true, Parsed(f.currentStock), Parsed(f.lowStockThreshold))
    else Stock(false, None, None)
  }

  /** What a form that passes validation guarantees about the request sent for it. */
  lemma ValidFormGivesSoundRequest(f: FormState)
    requires FormValid(f)
    ensures var r := BuildPayload(f);
      && 2 <= Text.Utf16Length(r.name) <= 80
      && (r.doseAmount.PosInfinity? || (r.doseAmount.Finite? && r.doseAmount.value > 0.0))
      && r.doseUnit != "" && r.startDate != ""
      && (r.schedule.times.Some? ==> |r.schedule.times.value| >= 1)
      && (r.schedule.weekdays.Some? ==> |r.schedule.weekdays.value| >= 1)
      && (r.schedule.intervalDays.Some? ==>
            IsInteger(r.schedule.intervalDays.value) && r.schedule.intervalDays.value.value >= 1.0)
      && (r.stock.currentStock.Some? ==>
            r.stock.currentStock.value.Finite? && r.stock.currentStock.value.value >= 0.0)
      && (r.stock.lowStockThreshold.Some? ==>
            r.stock.lowStockThreshold.value.Finite? && r.stock.lowStockThreshold.value.value >= 0.0)
      && (r.stock.currentStock.Some? && r.stock.lowStockThreshold.Some? ==>
            r.stock.lowStockThreshold.value.value <= r.stock.currentStock.value.value)
  {
  }

  // ---------------------------------------------------------------------------
  // Server errors

  /** `ValidationProblemDetails`/`ProblemDetails`; `errors` lists the entries of the
      error dictionary in `Object.entries` order. */
  datatype ProblemDetails = ProblemDetails(
    title: Option<string>,
    detail: Option<string>,
    errors: Option<seq<(string, seq<string>)>>)

  datatype Response = Response(status: int, data: ProblemDetails)

  /** What the mutation rejects with: something that is not an axios error, or an
      axios error with or without a response. */
  datatype MutationError = NotAxiosError | AxiosError(response: Option<Response>)

  const SaveFailedMessage: string := "Не удалось сохранить лекарство. Повторите попытку."
  const CheckFieldsMessage: string := "Проверьте корректность заполнения полей."
  const NotImplementedMessage: string := "Эндпоинт создания лекарства не реализован на сервере."
  const UnavailableMessage: string := "Операция недоступна."

  /** The field errors of a 400 response: each entry with at least one message maps its
      lower-cased key to its first message, later entries overwriting earlier ones. */
  function ApiFieldErrors(entries: seq<(string, seq<string>)>): (r: map<string, string>)
    ensures forall key :: key in r ==> exists i :: Provides(entries, key, i) && r[key] == entries[i].1[0]
  {
    if entries == [] then map[]
    else
      var init := entries[..|entries| - 1];
      var m := ApiFieldErrors(init);
      var (key, messages) := entries[|entries| - 1];
      assert forall i :: 0 <= i < |init| ==> init[i] == entries[i];
      if |messages| > 0 then m[Text.ToLower(key) := messages[0]] else m
  }

  /** Entry `i` has messages and its key lower-cases to `key`. */
  predicate Provides(entries: seq<(string, seq<string>)>, key: string, i: int) {
    0 <= i < |entries| && Text.ToLower(entries[i].0) == key && |entries[i].1| > 0
  }

  /** Entry `i` is the last one with messages whose key lower-cases to `key`. */
  predicate LastWithMessages(entries: seq<(string, seq<string>)>, key: string, i: int) {
    Provides(entries, key, i) && forall j :: i < j < |entries| ==> !Provides(entries, key, j)
  }

  /** A key is present exactly when some entry with messages lower-cases to it, and it
      holds the first message of the last such entry. */
  lemma ApiFieldErrorsContents(entries: seq<(string, seq<string>)>, key: string)
    ensures key in ApiFieldErrors(entries) <==> exists i :: Provides(entries, key, i)
    ensures key in ApiFieldErrors(entries) ==>
      exists i :: LastWithMessages(entries, key, i) && ApiFieldErrors(entries)[key] == entries[i].1[0]
  {
    ApiFieldErrorsIsLastMessage(entries, key);
    LastMessageFound(entries, key);
  }

  /** Reference reading of the 400 branch: scanning back from the last entry, the first
      message of the first entry met that has messages for `key`. */
  function LastMessage(entries: seq<(string, seq<string>)>, key: string): Option<string> {
    if entries == [] then None
    else if Provides(entries, key, |entries| - 1) then Some(entries[|entries| - 1].1[0])
    else LastMessage(entries[..|entries| - 1], key)
  }

  /** The map the loop builds holds, at each key, what the backward scan finds. */
  lemma {:induction false} ApiFieldErrorsIsLastMessage(entries: seq<(string, seq<string>)>, key: string)
    ensures key in ApiFieldErrors(entries) <==> LastMessage(entries, key).Some?
    ensures key in ApiFieldErrors(entries) ==> ApiFieldErrors(entries)[key] == LastMessage(entries, key).value
  {
    if entries != [] {
      ApiFieldErrorsIsLastMessage(entries[..|entries| - 1], key);
      ApiFieldErrorsLast(entries, key);
    }
  }

  /** The backward scan finds a message exactly when some entry provides one, and then it
      finds the last such entry's. */
  lemma {:induction false} LastMessageFound(entries: seq<(string, seq<string>)>, key: string)
    ensures LastMessage(entries, key).Some? <==> exists i :: Provides(entries, key, i)
    ensures LastMessage(entries, key).Some? ==>
      exists i :: LastWithMessages(entries, key, i) && LastMessage(entries, key).value == entries[i].1[0]
  {
    if entries != [] {
      var init := entries[..|entries| - 1];
      var n := |entries| - 1;
      LastMessageFound(init, key);
      assert forall j :: 0 <= j < n ==> (Provides(init, key, j) <==> Provides(entries, key, j)) by {
        assert forall j :: 0 <= j < n ==> init[j] == entries[j];
      }
      if Provides(entries, key, n) {
        assert LastWithMessages(entries, key, n);
      } else if LastMessage(init, key).Some? {
        var i :| LastWithMessages(init, key, i) && LastMessage(init, key).value == init[i].1[0];
        assert entries[i] == init[i];
        assert LastWithMessages(entries, key, i);
      } else {
        assert forall i :: !Provides(entries, key, i);
      }
    }
  }

  /** One step of the loop: the last entry sets its key when it has messages, and every
      other key keeps what the earlier entries gave it. */
  lemma ApiFieldErrorsLast(entries: seq<(string, seq<string>)>, key: string)
    requires entries != []
    ensures var n := |entries| - 1; var r := ApiFieldErrors(entries); var m := ApiFieldErrors(entries[..n]);
      if Provides(entries, key, n) then key in r && r[key] == entries[n].1[0]
      else (key in r <==> key in m) && (key in r ==> r[key] == m[key])
  {
  }

  /** The `forEach` loop of the 400 branch, filling `apiErrors` entry by entry. */
  method CollectApiErrors(entries: seq<(string, seq<string>)>) returns (apiErrors: map<string, string>)
    ensures apiErrors == ApiFieldErrors(entries)
  {
    apiErrors := map[];
    var i := 0;
    while i < |entries|
      invariant 0 <= i <= |entries|
      invariant apiErrors == ApiFieldErrors(entries[..i])
    {
      var (key, messages) := entries[i];
      if |messages| > 0 {
        apiErrors := apiErrors[Text.ToLower(key) := messages[0]];
      }
      assert entries[..i + 1][..i] == entries[..i];
      i := i + 1;
    }
    assert entries[..i] == entries;
  }

  /** `problem.detail ?? problem.title ?? fallback`. */
  function ProblemMessage(problem: ProblemDetails, fallback: string): (r: string)
    ensures problem.detail.Some? ==> r == problem.detail.value
    ensures problem.detail.None? && problem.title.Some? ==> r == problem.title.value
    ensures problem.detail.None? && problem.title.None? ==> r == fallback
  {
    problem.detail.GetOr(problem.title.GetOr(fallback))
  }

  // ---------------------------------------------------------------------------
  // The page

  /** The page's submission state; the form itself and what the user types into it are
      the `form` field. */
  class UpsertPage {
    var form: FormState
    var fieldErrors: map<string, string>
    var pageError: Option<string>
    var successOpen: bool

    constructor ()
      ensures form == InitialForm && fieldErrors == map[] && pageError == None && !successOpen
    {
      form := InitialForm;
      fieldErrors := map[];
      pageError := None;
      successOpen := false;
    }

    /** `validate()`: records the errors of the form and reports whether there are none. */
    method Validate() returns (ok: bool)
      modifies this`fieldErrors
      ensures ok <==> FormValid(form)
      ensures ok <==> fieldErrors == map[]
      ensures forall field: Field :: field.Key() in fieldErrors <==> Fires(form, field)
      ensures forall field :: Fires(form, field) ==> fieldErrors[field.Key()] == Message(form, field)
      ensures forall key :: key in fieldErrors ==> exists field: Field :: field.Key() == key
    {
      var errors := CollectErrors(form);
      fieldErrors := KeyedErrors(errors);
      ok := |fieldErrors| == 0;
      if !ok {
        var key :| key in fieldErrors;
      }
    }

    /** `onSubmit()`: clears the page error, validates, and sends the request built
        from the form only when validation passed. */
    method OnSubmit() returns (sent: Option<CreateRequest>)
      modifies this`fieldErrors, this`pageError
      ensures pageError == None
      ensures sent == if FormValid(form) then Some(BuildPayload(form)) else None
      ensures sent.Some? <==> fieldErrors == map[]
    {
      pageError := None;
      var ok := Validate();
      if !ok {
        return None;
      }
      sent := Some(BuildPayload(form));
    }

    /** The mutation's `onSuccess`. */
    method OnSuccess()
      modifies this`successOpen, this`pageError, this`fieldErrors
      ensures successOpen && pageError == None && fieldErrors == map[]
    {
      successOpen := true;
      pageError := None;
      fieldErrors := map[];
    }

    /** The mutation's `onError`: a 400 replaces the field errors with the server's and
        shows its title; 404 and 409 show the detail, else the title, else a fixed text;
        anything else shows the generic failure. Only a 400 touches the field errors. */
    method OnError(error: MutationError)
      modifies this`fieldErrors, this`pageError
      ensures error.AxiosError? && error.response.Some? && error.response.value.status == 400 ==>
        var data := error.response.value.data;
        fieldErrors == ApiFieldErrors(data.errors.GetOr([]))
        && pageError == Some(data.title.GetOr(CheckFieldsMessage))
      ensures !(error.AxiosError? && error.response.Some? && error.response.value.status == 400) ==>
        fieldErrors == old(fieldErrors)
      ensures error.AxiosError? && error.response.Some? && error.response.value.status == 404 ==>
        pageError == Some(ProblemMessage(error.response.value.data, NotImplementedMessage))
      ensures error.AxiosError? && error.response.Some? && error.response.value.status == 409 ==>
        pageError == Some(ProblemMessage(error.response.value.data, UnavailableMessage))
      ensures (error.NotAxiosError? || error.response.None? || error.response.value.status !in {400, 404, 409}) ==>
        pageError == Some(SaveFailedMessage)
    {
      if error.NotAxiosError? {
        pageError := Some(SaveFailedMessage);
        return;
      }
      match error.response
      case None =>
        pageError := Some(SaveFailedMessage);
      case Some(response) =>
        if response.status == 400 {
          var apiErrors := CollectApiErrors(response.data.errors.GetOr([]));
          fieldErrors := apiErrors;
          pageError := Some(response.data.title.GetOr(CheckFieldsMessage));
        } else if response.status == 404 {
          pageError := Some(ProblemMessage(response.data, NotImplementedMessage));
        } else if response.status == 409 {
          pageError := Some(ProblemMessage(response.data, UnavailableMessage));
        } else {
          pageError := Some(SaveFailedMessage);
        }
    }
  }
}

=== FILE: medicines_home.dfy ===
/** The medicines overview (`MedicinesHomePage`): a search box that narrows the list of
    medications by name, the medication shown in detail, and the quantity counter of
    the "add to schedule" panel. */
module MedicinesHome {
  import opened Wrappers
  import Text
  import opened Sequences

  datatype Medication = Medication(id: string, name: string, dosage: string, stock: string, note: string)

  /** The page's fixed list of medications. */
  const Medications: seq<Medication> := [
    Medication("1", "Парацетамол", "500 мг", "26 таб", "После еды"),
    Medication("2", "Омепразол", "20 мг", "11 капс", "За 30 минут до еды"),
    Medication("3", "Аторвастатин", "10 мг", "18 таб", "Вечерний приём"),
    Medication("4", "Витамин D", "2000 МЕ", "42 капс", "Один раз в день")
  ]

  /** The search text as compared: trimmed and lower-cased. */
  function Normalize(query: string): string {
    Text.ToLower(Text.Trim(query))
  }

  /** Whether a medication's lower-cased name contains the normalised search text. */
  predicate Matches(item: Medication, normalized: string) {
    Text.Contains(Text.ToLower(item.name), normalized)
  }

  /** `items.filter(item => item.name.toLowerCase().includes(normalized))`. */
  function FilterByName(items: seq<Medication>, normalized: string): (r: seq<Medication>)
    ensures IsSubsequence(r, items)
    ensures forall k :: 0 <= k < |r| ==> Matches(r[k], normalized)
    ensures forall item :: item in items && Matches(item, normalized) ==> item in r
    ensures forall item :: multiset(r)[item] == if Matches(item, normalized) then multiset(items)[item] else 0
  {
    if items == [] then []
    else
      var rest := FilterByName(items[1..], normalized);
      assert items == [items[0]] + items[1..];
      if Matches(items[0], normalized) then
        assert ([items[0]] + rest)[1..] == rest;
        [items[0]] + rest
      else
        SubsequenceOfTail(rest, items);
        rest
  }

  /** `filtered`: the whole list for a blank search, otherwise the medications whose
      name contains the search text, ignoring case, in list order. */
  function Filtered(items: seq<Medication>, query: string): (r: seq<Medication>)
    ensures Text.IsBlank(query) ==> r == items
    ensures !Text.IsBlank(query) ==>
      IsSubsequence(r, items)
      && (forall k :: 0 <= k < |r| ==> Matches(r[k], Normalize(query)))
      && (forall item :: item in items && Matches(item, Normalize(query)) ==> item in r)
      && (forall item :: multiset(r)[item] == if Matches(item, Normalize(query)) then multiset(items)[item] else 0)
  {
    Text.TrimEmptyIffBlank(query);
    var normalized := Normalize(query);
    if normalized == "" then items else FilterByName(items, normalized)
  }

  /** Searching the result of a search again with the same text changes nothing. */
  lemma {:induction false} FilterIdempotent(items: seq<Medication>, normalized: string)
    ensures FilterByName(FilterByName(items, normalized), normalized) == FilterByName(items, normalized)
  {
    if items != [] {
      FilterIdempotent(items[1..], normalized);
      var rest := FilterByName(items[1..], normalized);
      if Matches(items[0], normalized) {
        assert ([items[0]] + rest)[1..] == rest;
      }
    }
  }

  /** `medications.find(item => item.id === selectedId) ?? medications[0]`. */
  function Selected(items: seq<Medication>, selectedId: string): (r: Medication)
    requires items != []
    ensures r in items
    ensures (exists k :: 0 <= k < |items| && items[k].id == selectedId) ==>
      r.id == selectedId && exists k :: 0 <= k < |items| && items[k] == r
                                      && forall j :: 0 <= j < k ==> items[j].id != selectedId
    ensures (forall k :: 0 <= k < |items| ==> items[k].id != selectedId) ==> r == items[0]
  {
    if items[0].id == selectedId || |items| == 1 then items[0]
    else
      var r := Selected(items[1..], selectedId);
      if r.id == selectedId then
        assert exists k :: 0 <= k < |items| && items[k] == r && forall j :: 0 <= j < k ==> items[j].id != selectedId by {
          var k' :| 0 <= k' < |items[1..]| && items[1..][k'] == r && forall j :: 0 <= j < k' ==> items[1..][j].id != selectedId;
          assert items[k' + 1] == r;
        }
        r
      else items[0]
  }

  class MedicinesHomePage {
    var query: string
    var selectedId: string
    var quantity: int

    /** The counter never drops below one. */
    predicate Valid()
      reads this
    {
      quantity >= 1
    }

    constructor ()
      ensures query == "" && selectedId == Medications[0].id && quantity == 1
      ensures Valid()
    {
      query := "";
      selectedId := Medications[0].id;
      quantity := 1;
    }

    function Shown(): (r: seq<Medication>)
      reads this
      ensures Text.IsBlank(query) ==> r == Medications
    {
      Filtered(Medications, query)
    }

    function SelectedMedication(): (r: Medication)
      reads this
      ensures r in Medications
    {
      Selected(Medications, selectedId)
    }

    method SetQuery(text: string)
      modifies this`query
      ensures query == text
    {
      query := text;
    }

    method Select(id: string)
      modifies this`selectedId
      ensures selectedId == id
    {
      selectedId := id;
    }

    /** The minus button: one less, but never below one. */
    method Decrement()
      modifies this`quantity
      ensures quantity == if old(quantity) - 1 > 1 then old(quantity) - 1 else 1
      ensures quantity >= 1 && (old(quantity) > 1 ==> quantity == old(quantity) - 1)
    {
      quantity := if quantity - 1 > 1 then quantity - 1 else 1;
    }

    /** The plus button: exactly one more. */
    method Increment()
      requires Valid()
      modifies this`quantity
      ensures quantity == old(quantity) + 1
      ensures Valid()
    {
      quantity := quantity + 1;
    }
  }
}

=== FILE: messages.dfy ===
/** The chat page (`MessagesPage`): a list of doctors, the conversation with the chosen
    doctor, and a draft that is sent as a new message of the patient.

    The clock is an input of `SendMessage`: the local time already formatted as the
    page shows it, and the millisecond timestamp that names the message. */
module Messages {
  import Text
  import opened Sequences

  datatype Doctor = Doctor(id: string, name: string, specialty: string, avatar: string, hasUnread: bool)

  datatype Message = Message(id: string, doctorId: string, author: string, text: string,
                             time: string, fromDoctor: bool, date: string)

  const PatientAuthor: string := "Вы"
  const LocalDate: string := "24 января"

  const Doctors: seq<Doctor> := [
    Doctor("d1", "Ирина Смирнова", "Гастроэнтеролог", "ИС", true),
    Doctor("d2", "Алексей Никифоров", "Кардиолог", "АН", false),
    Doctor("d3", "Мария Левина", "Эндокринолог", "МЛ", true),
    Doctor("d4", "Дмитрий Орлов", "Невролог", "ДО", false)
  ]

  const InitialMessages: seq<Message> := [
    Message("m1", "d1", "Ирина Смирнова", "Здравствуйте. Как вы себя чувствуете после последнего приема?",
            "09:12", true, "24 января"),
    Message("m2", "d1", "Вы", "Доброе утро. Стало лучше, но после еды иногда сохраняется дискомфорт.",
            "09:16", false, "24 января"),
    Message("m3", "d1", "Ирина Смирнова", "Поняла. Продолжайте диету и напишите, если симптом усилится.",
            "09:22", true, "24 января"),
    Message("m4", "d2", "Алексей Никифоров", "Не забудьте измерять давление утром и вечером.",
            "11:05", true, "23 января"),
    Message("m5", "d3", "Мария Левина", "Подготовьте, пожалуйста, результаты анализов к следующей встрече.",
            "13:50", true, "22 января")
  ]

  /** `doctors.find(doctor => doctor.id === id) ?? doctors[0]`. */
  function DoctorOrFirst(doctors: seq<Doctor>, id: string): (r: Doctor)
    requires doctors != []
    ensures r in doctors
    ensures (exists k :: 0 <= k < |doctors| && doctors[k].id == id) ==> r.id == id
    ensures (forall k :: 0 <= k < |doctors| ==> doctors[k].id != id) ==> r == doctors[0]
    ensures (exists k :: 0 <= k < |doctors| && doctors[k].id == id) ==>
      exists k :: FirstWithId(doctors, id, k) && doctors[k] == r
  {
    if doctors[0].id == id || |doctors| == 1 then
      assert doctors[0].id == id ==> FirstWithId(doctors, id, 0);
      doctors[0]
    else
      var r := DoctorOrFirst(doctors[1..], id);
      if r.id == id then
        assert exists k :: FirstWithId(doctors, id, k) && doctors[k] == r by {
          var k' :| FirstWithId(doctors[1..], id, k') && doctors[1..][k'] == r;
          assert FirstWithId(doctors, id, k' + 1);
        }
        r
      else
        assert forall k :: 1 <= k < |doctors| ==> doctors[k] == doctors[1..][k - 1];
        doctors[0]
  }

  /** `doctors[k]` is the first doctor with the given id. */
  predicate FirstWithId(doctors: seq<Doctor>, id: string, k: int) {
    0 <= k < |doctors| && doctors[k].id == id && forall j :: 0 <= j < k ==> doctors[j].id != id
  }

  /** `messages.filter(message => message.doctorId === doctorId)`. */
  function Conversation(messages: seq<Message>, doctorId: string): (r: seq<Message>)
    ensures IsSubsequence(r, messages)
    ensures forall k :: 0 <= k < |r| ==> r[k].doctorId == doctorId && r[k] in messages
    ensures forall m :: m in messages && m.doctorId == doctorId ==> m in r
    ensures forall m {:trigger multiset(r)[m]} :: multiset(r)[m] == if m.doctorId == doctorId then multiset(messages)[m] else 0
  {
    if messages == [] then []
    else
      var rest := Conversation(messages[1..], doctorId);
      assert messages == [messages[0]] + messages[1..];
      if messages[0].doctorId == doctorId then
        assert ([messages[0]] + rest)[1..] == rest;
        [messages[0]] + rest
      else
        SubsequenceOfTail(rest, messages);
        rest
  }

  /** Appending a message extends the conversation of its doctor by exactly that
      message and leaves every other conversation as it was. */
  lemma {:induction false} ConversationAppend(messages: seq<Message>, m: Message, doctorId: string)
    ensures Conversation(messages + [m], doctorId)
         == Conversation(messages, doctorId) + (if m.doctorId == doctorId then [m] else [])
  {
    if messages != [] {
      var head, tail := messages[0], messages[1..];
      var extra := if m.doctorId == doctorId then [m] else [];
      assert (messages + [m])[0] == head;
      assert (messages + [m])[1..] == tail + [m];
      ConversationAppend(tail, m, doctorId);
      if head.doctorId == doctorId {
        assert Conversation(messages + [m], doctorId) == [head] + Conversation(tail + [m], doctorId);
        assert Conversation(messages, doctorId) == [head] + Conversation(tail, doctorId);
        assert [head] + (Conversation(tail, doctorId) + extra) == ([head] + Conversation(tail, doctorId)) + extra;
      } else {
        assert Conversation(messages + [m], doctorId) == Conversation(tail + [m], doctorId);
        assert Conversation(messages, doctorId) == Conversation(tail, doctorId);
      }
    } else {
      assert ([m] + [])[1..] == [];
    }
  }

  /** `Date.now()` rendered into the id of a message written here. */
  function LocalId(nowMs: int): string {
    "local-" + Text.IntToString(nowMs)
  }

  class MessagesPage {
    var activeDoctorId: string
    var draft: string
    var messages: seq<Message>

    constructor ()
      ensures activeDoctorId == Doctors[0].id && draft == "" && messages == InitialMessages
    {
      activeDoctorId := Doctors[0].id;
      draft := "";
      messages := InitialMessages;
    }

    /** `activeDoctor`: the chosen doctor, or the first one when the id is unknown. */
    function ActiveDoctor(): (r: Doctor)
      reads this
      ensures r in Doctors
    {
      DoctorOrFirst(Doctors, activeDoctorId)
    }

    /** `activeMessages`: the conversation with the chosen doctor, in order. */
    function ActiveMessages(): (r: seq<Message>)
      reads this
      ensures forall k :: 0 <= k < |r| ==> r[k].doctorId == activeDoctorId
    {
      Conversation(messages, activeDoctorId)
    }

    method SelectDoctor(id: string)
      modifies this`activeDoctorId
      ensures activeDoctorId == id
    {
      activeDoctorId := id;
    }

    method SetDraft(text: string)
      modifies this`draft
      ensures draft == text
    {
      draft := text;
    }

    /** `onSendMessage`: a blank draft changes nothing; otherwise the trimmed draft is
        appended as the patient's message to the chosen doctor and the draft is cleared. */
    method SendMessage(time: string, nowMs: int)
      modifies this`messages, this`draft
      ensures Text.IsBlank(old(draft)) ==> messages == old(messages) && draft == old(draft)
      ensures !Text.IsBlank(old(draft)) ==>
        messages == old(messages) + [Message(LocalId(nowMs), activeDoctorId, PatientAuthor,
                                             Text.Trim(old(draft)), time, false, LocalDate)]
        && draft == ""
      ensures !Text.IsBlank(old(draft)) ==>
        ActiveMessages() == old(ActiveMessages()) + [messages[|messages| - 1]]
        && messages[|messages| - 1].text != ""
    {
      var text := Text.Trim(draft);
      Text.TrimEmptyIffBlank(draft);
      if text == "" {
        return;
      }
      var message := Message(LocalId(nowMs), activeDoctorId, PatientAuthor, text, time, false, LocalDate);
      ConversationAppend(messages, message, activeDoctorId);
      messages := messages + [message];
      draft := "";
    }
  }

  /** The chosen-doctor id is used as is by the conversation while the header falls back
      to the first doctor: for an id no doctor has, the header names the first doctor and
      the conversation is empty. */
  lemma UnknownDoctorShowsFirstWithNoMessages(messages: seq<Message>, id: string)
    requires forall k :: 0 <= k < |Doctors| ==> Doctors[k].id != id
    requires forall k :: 0 <= k < |messages| ==> messages[k].doctorId in {"d1", "d2", "d3", "d4"}
    ensures DoctorOrFirst(Doctors, id) == Doctors[0]
    ensures Conversation(messages, id) == []
  {
    var r := Conversation(messages, id);
    if r != [] {
      assert r[0] in messages;
    }
  }
}

=== FILE: navigation.dfy ===
/** Where a page sends the browser: a full page load of an absolute URL
    (`window.location.href = url`) or a client-side route change (`navigate(path)`). */
module Navigation {
  import Text

  datatype Destination =
    | External(url: string)
    | Route(path: string)

  /** The address the browser ends up at, whichever way it gets there. */
  function Target(d: Destination): string {
    match d
    case External(url) => url
    case Route(path) => path
  }

  /** The test both login pages use to tell an absolute URL from a route. */
  predicate IsAbsolute(url: string) {
    Text.StartsWith(url, "http")
  }
}

=== FILE: password_hasher.dfy ===
/** The password digest of the back end (`Pbkdf2PasswordHasher`): a digest is the text
    `pbkdf2$<iterations>$<base64 salt>$<base64 key>`, and verification parses it back,
    re-derives the key with the digest's own salt and iteration count, and compares.

    PBKDF2-HMAC-SHA256 and base64 are not modelled: they are parameters of every
    operation (`Kdf`, `Base64`), and the lemmas state what they assume of them
    (`ExactLength`, `IsBase64Codec`). The random salt is an input. */
module PasswordHasher {
  import opened Wrappers
  import Text

  newtype byte = x: int | 0 <= x < 256

  const SaltSize: nat := 16
  const KeySize: nat := 32
  const Iterations: int := 100_000
  const Tag: string := "pbkdf2"
  const Separator: char := '$'

  /** `Rfc2898DeriveBytes.Pbkdf2(password, salt, iterations, SHA256, outputLength)`. */
  type Kdf = (string, seq<byte>, int, nat) -> seq<byte>

  /** `Convert.ToBase64String` and `Convert.FromBase64String`; `None` is the
      `FormatException` the latter raises on text that is not base64. */
  datatype Base64 = Base64(encode: seq<byte> -> string, decode: string -> Option<seq<byte>>)

  /** What PBKDF2 promises: exactly as many bytes as asked for. */
  ghost predicate ExactLength(kdf: Kdf) {
    forall password, salt, iterations, n :: |kdf(password, salt, iterations, n)| == n
  }

  /** What base64 promises: decoding undoes encoding, and `$` is not in its alphabet. */
  ghost predicate IsBase64Codec(b64: Base64) {
    forall bytes :: b64.decode(b64.encode(bytes)) == Some(bytes) && Separator !in b64.encode(bytes)
  }

  /** The exceptions `Verify` lets escape. */
  datatype VerifyError =
    | Base64FormatError      // `Convert.FromBase64String` on a salt or key that is not base64
    | IterationsOutOfRange   // `Pbkdf2` with a non-positive iteration count

  /** The digest text for an iteration count, a salt and a derived key. */
  function Digest(b64: Base64, iterations: int, salt: seq<byte>, key: seq<byte>): (d: string)
    ensures IsBase64Codec(b64) ==>
      Text.Split(d, Separator) == [Tag, Text.IntToString(iterations), b64.encode(salt), b64.encode(key)]
  {
    DigestSplits(b64, iterations, salt, key);
    Text.Join([Tag, Text.IntToString(iterations), b64.encode(salt), b64.encode(key)], Separator)
  }

  lemma DigestSplits(b64: Base64, iterations: int, salt: seq<byte>, key: seq<byte>)
    ensures var fields := [Tag, Text.IntToString(iterations), b64.encode(salt), b64.encode(key)];
      IsBase64Codec(b64) ==> Text.Split(Text.Join(fields, Separator), Separator) == fields
  {
    if IsBase64Codec(b64) {
      var fields := [Tag, Text.IntToString(iterations), b64.encode(salt), b64.encode(key)];
      assert Separator !in Text.IntToString(iterations);
      assert b64.decode(b64.encode(salt)) == Some(salt);
      assert b64.decode(b64.encode(key)) == Some(key);
      Text.SplitJoin(fields, Separator);
    }
  }

  /** `HashPassword`: a 32-byte key derived with 100 000 iterations from a 16-byte salt. */
  function HashPassword(kdf: Kdf, b64: Base64, password: string, salt: seq<byte>): (d: string)
    requires |salt| == SaltSize
    ensures IsBase64Codec(b64) ==>
      Text.Split(d, Separator) == [Tag, "100000", b64.encode(salt), b64.encode(kdf(password, salt, Iterations, KeySize))]
    ensures IsBase64Codec(b64) && ExactLength(kdf) ==>
      exists key: seq<byte> :: |key| == KeySize
        && Text.Split(d, Separator) == [Tag, "100000", b64.encode(salt), b64.encode(key)]
  {
    var key := kdf(password, salt, Iterations, KeySize);
    assert Text.IntToString(Iterations) == "100000";
    Digest(b64, Iterations, salt, key)
  }

  /** `Verify`: `Success(b)` is the boolean returned, `Failure(e)` an exception raised. */
  function Verify(kdf: Kdf, b64: Base64, password: string, stored: string): (r: Result<bool, VerifyError>)
    ensures r == Success(true) <==> KeyMatches(kdf, b64, password, stored)
    ensures r.Failure? ==> var parts := Text.Split(stored, Separator);
      |parts| == 4 && parts[0] == Tag && Text.TryParseInt32(parts[1]).Some?
    ensures r == Failure(IterationsOutOfRange) ==> var parts := Text.Split(stored, Separator);
      Text.TryParseInt32(parts[1]).value <= 0 && b64.decode(parts[2]).Some? && b64.decode(parts[3]).Some?
  {
    var parts := Text.Split(stored, Separator);
    if |parts| != 4 || parts[0] != Tag then Success(false)
    else
      match Text.TryParseInt32(parts[1])
      case None => Success(false)
      case Some(iterations) =>
        match b64.decode(parts[2])
        case None => Failure(Base64FormatError)
        case Some(salt) =>
          match b64.decode(parts[3])
          case None => Failure(Base64FormatError)
          case Some(expected) =>
            if iterations <= 0 then Failure(IterationsOutOfRange)
            else Success(kdf(password, salt, iterations, |expected|) == expected)
  }

  /** The digest has the four fields, its iteration count is a positive 32-bit integer,
      its salt and key are base64, and the key PBKDF2 derives from the password with that
      salt and count, as long as the stored key, is the stored key. */
  predicate KeyMatches(kdf: Kdf, b64: Base64, password: string, stored: string) {
    var parts := Text.Split(stored, Separator);
    |parts| == 4 && parts[0] == Tag
    && Text.TryParseInt32(parts[1]).Some? && Text.TryParseInt32(parts[1]).value > 0
    && b64.decode(parts[2]).Some? && b64.decode(parts[3]).Some?
    && kdf(password, b64.decode(parts[2]).value, Text.TryParseInt32(parts[1]).value, |b64.decode(parts[3]).value|)
       == b64.decode(parts[3]).value
  }

  /** A digest that is not four `$`-separated fields starting with `pbkdf2` verifies false. */
  lemma MalformedShapeIsFalse(kdf: Kdf, b64: Base64, password: string, stored: string)
    requires var parts := Text.Split(stored, Separator); |parts| != 4 || parts[0] != Tag
    ensures Verify(kdf, b64, password, stored) == Success(false)
  {
  }

  /** An iteration field that `int.TryParse` rejects verifies false. */
  lemma NonIntegerIterationsIsFalse(kdf: Kdf, b64: Base64, password: string, stored: string)
    requires var parts := Text.Split(stored, Separator); |parts| == 4 && parts[0] == Tag
    requires Text.TryParseInt32(Text.Split(stored, Separator)[1]) == None
    ensures Verify(kdf, b64, password, stored) == Success(false)
  {
  }

  /** A salt field that is not base64 raises instead of verifying false. */
  lemma UndecodableSaltRaises(kdf: Kdf, b64: Base64, password: string, stored: string)
    requires var parts := Text.Split(stored, Separator); |parts| == 4 && parts[0] == Tag
    requires Text.TryParseInt32(Text.Split(stored, Separator)[1]).Some?
    requires b64.decode(Text.Split(stored, Separator)[2]) == None
    ensures Verify(kdf, b64, password, stored) == Failure(Base64FormatError)
  {
  }

  /** The result for a digest of any iteration count and any key length: the key is
      re-derived with the digest's own salt, iteration count and key length, and the
      password verifies exactly when the re-derived key equals the stored one. */
  lemma {:induction false} VerifyDigest(kdf: Kdf, b64: Base64, password: string,
                                        iterations: int, salt: seq<byte>, key: seq<byte>)
    requires IsBase64Codec(b64)
    requires 0 < iterations <= Text.Int32Max
    ensures Verify(kdf, b64, password, Digest(b64, iterations, salt, key))
         == Success(kdf(password, salt, iterations, |key|) == key)
  {
    Text.ParseRendered(iterations);
    assert b64.decode(b64.encode(salt)) == Some(salt);
    assert b64.decode(b64.encode(key)) == Some(key);
  }

  /** Round trip: a password verifies against its own digest. */
  lemma {:induction false} HashThenVerify(kdf: Kdf, b64: Base64, password: string, salt: seq<byte>)
    requires IsBase64Codec(b64) && ExactLength(kdf)
    requires |salt| == SaltSize
    ensures Verify(kdf, b64, password, HashPassword(kdf, b64, password, salt)) == Success(true)
  {
    var key := kdf(password, salt, Iterations, KeySize);
    VerifyDigest(kdf, b64, password, Iterations, salt, key);
  }

  /** Hashing is salted: digests made with different salts differ, whatever the password. */
  lemma {:induction false} DistinctSaltsDistinctDigests(kdf: Kdf, b64: Base64, password: string,
                                                        salt1: seq<byte>, salt2: seq<byte>)
    requires IsBase64Codec(b64)
    requires |salt1| == SaltSize && |salt2| == SaltSize && salt1 != salt2
    ensures HashPassword(kdf, b64, password, salt1) != HashPassword(kdf, b64, password, salt2)
  {
    var key1 := kdf(password, salt1, Iterations, KeySize);
    var key2 := kdf(password, salt2, Iterations, KeySize);
    assert Text.Split(Digest(b64, Iterations, salt1, key1), Separator)[2] == b64.encode(salt1);
    assert Text.Split(Digest(b64, Iterations, salt2, key2), Separator)[2] == b64.encode(salt2);
    assert b64.decode(b64.encode(salt1)) == Some(salt1);
    assert b64.decode(b64.encode(salt2)) == Some(salt2);
  }

  /** Another password verifies against a digest exactly when PBKDF2 maps it to the
      same key under that digest's salt. */
  lemma {:induction false} OtherPassword(kdf: Kdf, b64: Base64, password: string, other: string, salt: seq<byte>)
    requires IsBase64Codec(b64) && ExactLength(kdf)
    requires |salt| == SaltSize
    ensures Verify(kdf, b64, other, HashPassword(kdf, b64, password, salt))
         == Success(kdf(other, salt, Iterations, KeySize) == kdf(password, salt, Iterations, KeySize))
  {
    var key := kdf(password, salt, Iterations, KeySize);
    VerifyDigest(kdf, b64, other, Iterations, salt, key);
  }

  /** A digest whose key field is empty accepts every password: the re-derived key has
      the stored key's length, zero, and two empty keys are equal. */
  lemma {:induction false} EmptyKeyAcceptsAnyPassword(kdf: Kdf, b64: Base64, password: string,
                                                      iterations: int, salt: seq<byte>)
    requires IsBase64Codec(b64) && ExactLength(kdf)
    requires 0 < iterations <= Text.Int32Max
    ensures Verify(kdf, b64, password, Digest(b64, iterations, salt, [])) == Success(true)
  {
    VerifyDigest(kdf, b64, password, iterations, salt, []);
  }
}

=== FILE: sequences.dfy ===
/** Facts about order-preserving selections from a sequence, shared by the pages that
    filter lists. */
module Sequences {

  /** `a` is `b` with some elements left out, the rest in their original order. */
  predicate IsSubsequence<T(==)>(a: seq<T>, b: seq<T>) {
    if a == [] then true
    else if b == [] then false
    else if a[0] == b[0] then IsSubsequence(a[1..], b[1..])
    else IsSubsequence(a, b[1..])
  }

  /** A subsequence of the tail is a subsequence of the whole. */
  lemma {:induction false} SubsequenceOfTail<T>(a: seq<T>, b: seq<T>)
    requires b != [] && IsSubsequence(a, b[1..])
    ensures IsSubsequence(a, b)
    decreases |a| + |b|, 1
  {
    if a != [] && a[0] == b[0] {
      SubsequenceShorter(a, b[1..]);
    }
  }

  /** Dropping the first element of a subsequence leaves a subsequence. */
  lemma {:induction false} SubsequenceShorter<T>(a: seq<T>, c: seq<T>)
    requires a != [] && IsSubsequence(a, c)
    ensures IsSubsequence(a[1..], c)
    decreases |a| + |c|, 0
  {
    if a[0] == c[0] {
      SubsequenceOfTail(a[1..], c);
    } else {
      SubsequenceShorter(a, c[1..]);
      SubsequenceOfTail(a[1..], c);
    }
  }
}

=== FILE: sign_in.dfy ===
/** The sign-in page (`SignIn`): the form schema, the guard against a second submission
    while one is in flight, the message shown when signing in fails, and the redirect of
    a user who is already signed in. The sign-in call itself is not part of this model:
    `OnSubmit` returns the request it hands to the mutation. */
module SignIn {
  import opened Wrappers
  import Text
  import opened Navigation

  const UsernameMessage: string := "Введите логин."
  const PasswordMessage: string := "Пароль должен быть минимум 6 символов."
  const SignInFailedMessage: string := "Не удалось выполнить вход. Проверьте логин и пароль."
  const MinPasswordLength: nat := 6
  const DashboardRoute: string := "/dashboard"

  datatype FormField = Username | Password

  /** The parsed form: the user name comes out of the schema trimmed. */
  datatype FormData = FormData(username: string, password: string)

  /** What the schema lets through: a non-empty user name with no surrounding white
      space and a password of at least six units. */
  predicate IsParsedForm(data: FormData) {
    data.username != "" && Text.Trim(data.username) == data.username
    && Text.Utf16Length(data.password) >= MinPasswordLength
  }

  /** The request body the sign-in call receives. */
  datatype AuthRequest = AuthRequest(UserName: string, Password: string)

  /** The schema: the trimmed user name must not be empty and the password must be at
      least six units long. Each field is checked on its own and every failing field
      gets its message; the form is accepted only when no field fails. */
  function ValidateForm(username: string, password: string): (r: Result<FormData, map<FormField, string>>)
    ensures r.Success? <==> !Text.IsBlank(username) && Text.Utf16Length(password) >= MinPasswordLength
    ensures r.Success? ==> r.value == FormData(Text.Trim(username), password) && IsParsedForm(r.value)
    ensures r.Failure? ==> r.error != map[]
    ensures r.Failure? ==> (Username in r.error <==> Text.IsBlank(username))
    ensures r.Failure? ==> (Password in r.error <==> Text.Utf16Length(password) < MinPasswordLength)
    ensures r.Failure? ==> forall field :: field in r.error ==> r.error[field] == FieldMessage(field)
  {
    var trimmed := Text.Trim(username);
    Text.TrimEmptyIffBlank(username);
    var usernameFails := trimmed == "";
    var passwordFails := Text.Utf16Length(password) < MinPasswordLength;
    if !usernameFails && !passwordFails then
      TrimmedIsParsed(username, password);
      Success(FormData(trimmed, password))
    else
      var errors := FieldErrors(usernameFails, passwordFails);
      assert (if usernameFails then Username else Password) in errors;
      Failure(errors)
  }

  /** An accepted user name, trimmed, and an accepted password form a parsed form. */
  lemma TrimmedIsParsed(username: string, password: string)
    requires !Text.IsBlank(username) && Text.Utf16Length(password) >= MinPasswordLength
    ensures IsParsedForm(FormData(Text.Trim(username), password))
  {
    Text.TrimEmptyIffBlank(username);
    Text.TrimOfTrimmed(Text.Trim(username));
  }

  /** One message per failing field. */
  function FieldErrors(usernameFails: bool, passwordFails: bool): (errors: map<FormField, string>)
    ensures Username in errors <==> usernameFails
    ensures Password in errors <==> passwordFails
    ensures forall field :: field in errors ==> errors[field] == FieldMessage(field)
  {
    map field: FormField | (field == Username && usernameFails) || (field == Password && passwordFails)
      :: FieldMessage(field)
  }

  function FieldMessage(field: FormField): string {
    match field
    case Username => UsernameMessage
    case Password => PasswordMessage
  }

  /** For passwords inside the Basic Multilingual Plane the rule is "six characters or
      more": with any non-blank name such a password is accepted exactly then. */
  lemma {:induction false} PasswordLengthRule(username: string, password: string)
    requires !Text.IsBlank(username)
    requires forall k :: 0 <= k < |password| ==> password[k] as int < 0x1_0000
    ensures ValidateForm(username, password).Success? <==> |password| >= MinPasswordLength
  {
    Text.BmpLength(password);
  }

  /** Characters outside the Basic Multilingual Plane count twice: three of them make a
      password long enough. */
  lemma {:induction false} ThreeAstralCharactersSuffice(username: string, c: char)
    requires !Text.IsBlank(username)
    requires c as int >= 0x1_0000
    ensures ValidateForm(username, [c, c, c]).Success?
  {
    assert Text.Utf16Length([c]) == 2 by { assert [c][1..] == []; }
    assert Text.Utf16Length([c, c]) == 4 by { assert [c, c][1..] == [c]; }
    assert Text.Utf16Length([c, c, c]) == 6 by { assert [c, c, c][1..] == [c, c]; }
  }

  /** The failure a sign-in attempt reports: an `Error` with its message (the sign-in
      call throws one carrying the server's text), or anything else that was thrown. */
  datatype Failure = ErrorInstance(message: string) | OtherThrown

  /** `onError`'s message: the `Error`'s own message, else the generic text. */
  function FailureMessage(e: Failure): (m: string)
    ensures e.ErrorInstance? ==> m == e.message
    ensures e.OtherThrown? ==> m == SignInFailedMessage
  {
    match e
    case ErrorInstance(message) => message
    case OtherThrown => SignInFailedMessage
  }

  /** The redirect effect: nothing while the user has no clinic address; an absolute
      address is loaded as a page, and any other address leads to the dashboard. */
  function RedirectSignedIn(urlHospital: Option<string>): (r: Option<Destination>)
    ensures r.None? <==> urlHospital.None? || urlHospital.value == ""
    ensures r.Some? ==> (r.value.External? <==> IsAbsolute(urlHospital.value))
    ensures r.Some? && r.value.External? ==> r.value.url == urlHospital.value
    ensures r.Some? && r.value.Route? ==> r.value.path == DashboardRoute
  {
    match urlHospital
    case None => None
    case Some(url) =>
      if url == "" then None
      else
        var target := if IsAbsolute(url) then url else DashboardRoute;
        assert !IsAbsolute(DashboardRoute) by { assert DashboardRoute[0] != 'h'; }
        Some(if IsAbsolute(target) then External(target) else Route(target))
  }

  /** The page state `onSubmit` consults and changes: the shown error, whether the form
      is being submitted, and whether a sign-in request is in flight. */
  class SignInPage {
    var errorMessage: string
    var isSubmitting: bool
    var pending: bool

    constructor ()
      ensures errorMessage == "" && !isSubmitting && !pending
    {
      errorMessage := "";
      isSubmitting := false;
      pending := false;
    }

    /** `onSubmit`: while a submission or request is under way it does nothing; otherwise
        it clears the error and starts the request, mapping the fields to the API's names. */
    method OnSubmit(data: FormData) returns (sent: Option<AuthRequest>)
      requires IsParsedForm(data)
      modifies this`errorMessage, this`pending
      ensures old(isSubmitting || pending) ==>
        sent.None? && errorMessage == old(errorMessage) && pending == old(pending)
      ensures !old(isSubmitting || pending) ==>
        sent == Some(AuthRequest(data.username, data.password)) && errorMessage == "" && pending
    {
      if isSubmitting || pending {
        sent := None;
        return;
      }
      errorMessage := "";
      pending := true;
      sent := Some(AuthRequest(data.username, data.password));
    }

    /** The request failed: it is no longer in flight and its message is shown. */
    method OnError(e: Failure)
      modifies this`errorMessage, this`pending
      ensures errorMessage == FailureMessage(e) && !pending
    {
      errorMessage := FailureMessage(e);
      pending := false;
    }

    /** The request succeeded: it is no longer in flight. */
    method OnSuccess()
      modifies this`pending
      ensures !pending
    {
      pending := false;
    }
  }

  /** A second submission right after the first sends nothing, whatever it carries. */
  method SubmitTwice(page: SignInPage, first: FormData, second: FormData)
    returns (sentFirst: Option<AuthRequest>, sentSecond: Option<AuthRequest>)
    requires IsParsedForm(first) && IsParsedForm(second)
    requires !page.isSubmitting && !page.pending
    modifies page
    ensures sentFirst == Some(AuthRequest(first.username, first.password))
    ensures sentSecond.None?
  {
    sentFirst := page.OnSubmit(first);
    sentSecond := page.OnSubmit(second);
  }
}

=== FILE: sign_up.dfy ===
/** The registration page (`SignUp`): it checks the form before sending it, builds the
    registration request, and afterwards either follows the clinic address the server
    returns or shows the server's error in a snackbar.

    The form fields arrive as `FormData` entries (`None` when the field is absent); the
    clinic selector holds `""` (here `None`) or a clinic id. The request itself is sent
    by a mutation that is not part of this model: `HandleSubmit` returns it. */
module SignUp {
  import opened Wrappers
  import Text
  import opened Navigation

  const EmptyCredentialsMessage: string := "Логин и пароль не должны быть пустыми"
  const PasswordMismatchMessage: string := "Пароли не совпадают"
  const RegistrationFailedMessage: string := "Ошибка при регистрации"
  const DefaultRoute: string := "/app"

  datatype RegisterRequest = RegisterRequest(login: string, password: string,
                                             confirmPassword: string, hospitalId: Option<int>)

  /** `(form.get(name) || "").toString()`: the field's text, empty when missing. */
  function FieldText(entry: Option<string>): string {
    entry.GetOr("")
  }

  /** `chooseClinic && selectedClinic ? Number(selectedClinic) : undefined`: the clinic id
      is sent only when the checkbox is on and a clinic other than `0` (falsy) is chosen. */
  function HospitalId(chooseClinic: bool, selectedClinic: Option<int>): (r: Option<int>)
    ensures r.Some? <==> chooseClinic && selectedClinic.Some? && selectedClinic.value != 0
    ensures r.Some? ==> r == selectedClinic
  {
    if chooseClinic && selectedClinic.Some? && selectedClinic.value != 0 then selectedClinic else None
  }

  /** The checks of `handleSubmit`, in order: the request to send, or the message shown. */
  function CheckRegistration(loginEntry: Option<string>, passwordEntry: Option<string>,
                             confirmEntry: Option<string>, chooseClinic: bool,
                             selectedClinic: Option<int>): (r: Result<RegisterRequest, string>)
    ensures r.Success? <==>
      !Text.IsBlank(FieldText(loginEntry)) && FieldText(passwordEntry) != ""
      && FieldText(passwordEntry) == FieldText(confirmEntry)
    ensures r.Success? ==>
      r.value.login == Text.Trim(FieldText(loginEntry)) && r.value.login != ""
      && r.value.password == FieldText(passwordEntry)
      && r.value.confirmPassword == r.value.password
      && r.value.hospitalId == HospitalId(chooseClinic, selectedClinic)
    ensures r.Failure? ==>
      (r.error == EmptyCredentialsMessage <==> Text.IsBlank(FieldText(loginEntry)) || FieldText(passwordEntry) == "")
    ensures r.Failure? ==> r.error in {EmptyCredentialsMessage, PasswordMismatchMessage}
  {
    var login := Text.Trim(FieldText(loginEntry));
    var password := FieldText(passwordEntry);
    var confirmPassword := FieldText(confirmEntry);
    Text.TrimEmptyIffBlank(FieldText(loginEntry));
    if login == "" || password == "" then Failure(EmptyCredentialsMessage)
    else if password != confirmPassword then Failure(PasswordMismatchMessage)
    else Success(RegisterRequest(login, password, confirmPassword, HospitalId(chooseClinic, selectedClinic)))
  }

  /** The login is sent trimmed: trimming it again changes nothing, and it neither
      starts nor ends with white space. */
  lemma {:induction false} SentLoginIsTrimmed(loginEntry: Option<string>, passwordEntry: Option<string>,
                                              confirmEntry: Option<string>, chooseClinic: bool,
                                              selectedClinic: Option<int>)
    requires CheckRegistration(loginEntry, passwordEntry, confirmEntry, chooseClinic, selectedClinic).Success?
    ensures var login := CheckRegistration(loginEntry, passwordEntry, confirmEntry, chooseClinic, selectedClinic).value.login;
      Text.Trim(login) == login && !Text.IsJsSpace(login[0]) && !Text.IsJsSpace(login[|login| - 1])
  {
    var login := Text.Trim(FieldText(loginEntry));
    Text.TrimOfTrimmed(login);
  }

  /** The password is not trimmed: one surrounded by spaces is sent as typed. */
  lemma PasswordSentAsTyped(login: string, password: string, chooseClinic: bool, selectedClinic: Option<int>)
    requires !Text.IsBlank(login) && password != ""
    ensures var r := CheckRegistration(Some(login), Some(" " + password + " "), Some(" " + password + " "),
                                       chooseClinic, selectedClinic);
      r.Success? && r.value.password == " " + password + " "
  {
  }

  /** `onSuccess`: an address starting with `http` is loaded as a page; anything else is
      a route, the server's address when it gave one and `/app` otherwise. */
  function AfterRegister(urlHospital: Option<string>): (d: Destination)
    ensures d.External? <==> urlHospital.Some? && IsAbsolute(urlHospital.value)
    ensures d.Route? ==> d.path != "" && !IsAbsolute(d.path)
    ensures urlHospital.Some? && urlHospital.value != "" ==> Target(d) == urlHospital.value
    ensures urlHospital.None? || urlHospital.value == "" ==> d == Route(DefaultRoute)
  {
    assert !IsAbsolute(DefaultRoute) by { assert DefaultRoute[0] != 'h'; }
    match urlHospital
    case Some(url) =>
      if url != "" && IsAbsolute(url) then External(url)
      else Route(if url != "" then url else DefaultRoute)
    case None => Route(DefaultRoute)
  }

  /** The page's own state: the clinic choice and the snackbar with its message. */
  class SignUpPage {
    var chooseClinic: bool
    var selectedClinic: Option<int>
    var errorMessage: string
    var openSnackbar: bool

    constructor ()
      ensures !chooseClinic && selectedClinic.None?
      ensures errorMessage == "" && !openSnackbar
    {
      chooseClinic := false;
      selectedClinic := None;
      errorMessage := "";
      openSnackbar := false;
    }

    /** `handleSubmit`: a form that fails a check sets the message and opens the
        snackbar and sends nothing; a form that passes leaves the page as it was and
        yields the request to send. */
    method HandleSubmit(loginEntry: Option<string>, passwordEntry: Option<string>, confirmEntry: Option<string>)
      returns (sent: Option<RegisterRequest>)
      modifies this`errorMessage, this`openSnackbar
      ensures var check := CheckRegistration(loginEntry, passwordEntry, confirmEntry, chooseClinic, selectedClinic);
        match check
        case Success(request) =>
          sent == Some(request) && errorMessage == old(errorMessage) && openSnackbar == old(openSnackbar)
        case Failure(message) =>
          sent.None? && errorMessage == message && openSnackbar
    {
      var check := CheckRegistration(loginEntry, passwordEntry, confirmEntry, chooseClinic, selectedClinic);
      match check {
        case Success(request) =>
          sent := Some(request);
        case Failure(message) =>
          errorMessage := message;
          openSnackbar := true;
          sent := None;
      }
    }

    /** `onError`: the server's `errorMessage` when the response carries one (an empty
        one included, since the fallback uses `??`), else the generic message. */
    method OnError(serverMessage: Option<string>)
      modifies this`errorMessage, this`openSnackbar
      ensures serverMessage.Some? ==> errorMessage == serverMessage.value
      ensures serverMessage.None? ==> errorMessage == RegistrationFailedMessage
      ensures openSnackbar
    {
      errorMessage := serverMessage.GetOr(RegistrationFailedMessage);
      openSnackbar := true;
    }
  }
}

=== FILE: text.dfy ===
/** String helpers the application takes from its runtimes: JavaScript's `trim`,
    `toLowerCase`, `startsWith` and `includes`, C#'s `String.Split` and `int.TryParse`,
    and the decimal rendering of integers that both runtimes use. */
module Text {
  import opened Wrappers

  // ---------------------------------------------------------------------------
  // White space and trimming

  /** White space as JavaScript's `String.prototype.trim` and the regular-expression
      class `\s` see it (the WhiteSpace and LineTerminator characters of ECMAScript). */
  predicate IsJsSpace(c: char) {
    ('\t' <= c <= '\r') || c == ' ' || c == '\U{00A0}' || c == '\U{1680}'
    || ('\U{2000}' <= c <= '\U{200A}') || c == '\U{2028}' || c == '\U{2029}'
    || c == '\U{202F}' || c == '\U{205F}' || c == '\U{3000}' || c == '\U{FEFF}'
  }

  /** Every character of `s` is white space, so that `s.trim()` is empty. */
  predicate IsBlank(s: string) {
    forall k :: 0 <= k < |s| ==> IsJsSpace(s[k])
  }

  /** `s` without its leading white space. */
  function TrimStart(s: string): (r: string)
    ensures |r| <= |s| && r == s[|s| - |r|..]
    ensures forall k :: 0 <= k < |s| - |r| ==> IsJsSpace(s[k])
    ensures r != [] ==> !IsJsSpace(r[0])
  {
    if |s| > 0 && IsJsSpace(s[0]) then
      var r := TrimStart(s[1..]);
      assert s[1..][|s| - 1 - |r|..] == s[|s| - |r|..];
      assert forall k :: 1 <= k < |s| - |r| ==> s[k] == s[1..][k - 1];
      r
    else s
  }

  /** `s` without its trailing white space. */
  function TrimEnd(s: string): (r: string)
    ensures |r| <= |s| && r == s[..|r|]
    ensures forall k :: |r| <= k < |s| ==> IsJsSpace(s[k])
    ensures r != [] ==> !IsJsSpace(r[|r| - 1])
  {
    if |s| > 0 && IsJsSpace(s[|s| - 1]) then
      var r := TrimEnd(s[..|s| - 1]);
      assert s[..|s| - 1][..|r|] == s[..|r|];
      assert forall k :: |r| <= k < |s| - 1 ==> s[k] == s[..|s| - 1][k];
      r
    else s
  }

  /** JavaScript's `s.trim()`. */
  function Trim(s: string): (r: string)
    ensures |r| <= |s|
    ensures r != [] ==> !IsJsSpace(r[0]) && !IsJsSpace(r[|r| - 1])
  {
    TrimEnd(TrimStart(s))
  }

  /** What `trim` keeps is the middle of `s` between a blank prefix and a blank suffix. */
  lemma {:induction false} TrimIsMiddle(s: string)
    ensures var r := Trim(s);
      exists i :: 0 <= i <= |s| - |r| && r == s[i..i + |r|] && IsBlank(s[..i]) && IsBlank(s[i + |r|..])
  {
    var t := TrimStart(s);
    var r := TrimEnd(t);
    var i := |s| - |t|;
    BlankBeforeStart(s);
    BlankAfterEnd(t);
    assert s[i + |r|..] == t[|r|..];
    assert r == s[i..i + |r|];
  }

  /** What `TrimStart` drops is blank. */
  lemma BlankBeforeStart(s: string)
    ensures IsBlank(s[..|s| - |TrimStart(s)|])
  {
    var i := |s| - |TrimStart(s)|;
    forall k | 0 <= k < i
      ensures IsJsSpace(s[..i][k])
    {
      assert s[..i][k] == s[k];
    }
  }

  /** What `TrimEnd` drops is blank. */
  lemma BlankAfterEnd(s: string)
    ensures IsBlank(s[|TrimEnd(s)|..])
  {
    var n := |TrimEnd(s)|;
    forall k | 0 <= k < |s| - n
      ensures IsJsSpace(s[n..][k])
    {
      assert s[n..][k] == s[n + k];
    }
  }

  lemma TrimEmptyIffBlank(s: string)
    ensures Trim(s) == [] <==> IsBlank(s)
  {
    var t := TrimStart(s);
    if Trim(s) == [] {
      assert t == [];
    }
  }

  /** A string whose first and last characters are not white space is its own trim. */
  lemma TrimOfTrimmed(s: string)
    requires s != [] ==> !IsJsSpace(s[0]) && !IsJsSpace(s[|s| - 1])
    ensures Trim(s) == s
  {
  }

  /** `String.prototype.length`: UTF-16 code units, two for a character outside the
      Basic Multilingual Plane. */
  function Utf16Length(s: string): (n: nat)
    ensures |s| <= n <= 2 * |s|
  {
    if |s| == 0 then 0 else (if s[0] as int >= 0x1_0000 then 2 else 1) + Utf16Length(s[1..])
  }

  /** One character is one unit inside the Basic Multilingual Plane and a surrogate pair
      (two units) outside it. */
  lemma Utf16LengthChar(c: char)
    ensures Utf16Length([c]) == if c as int >= 0x1_0000 then 2 else 1
  {
    assert [c][1..] == [];
  }

  /** The length of a concatenation is the sum of the lengths. */
  lemma {:induction false} Utf16LengthAppend(a: string, b: string)
    ensures Utf16Length(a + b) == Utf16Length(a) + Utf16Length(b)
  {
    if a == [] {
      assert a + b == b;
    } else {
      assert (a + b)[1..] == a[1..] + b;
      Utf16LengthAppend(a[1..], b);
    }
  }

  /** Inside the Basic Multilingual Plane a string's length is its number of characters. */
  lemma {:induction false} BmpLength(s: string)
    requires forall k :: 0 <= k < |s| ==> s[k] as int < 0x1_0000
    ensures Utf16Length(s) == |s|
  {
    if s != [] {
      BmpLength(s[1..]);
    }
  }

  // ---------------------------------------------------------------------------
  // Case and substrings

  /** JavaScript's `toLowerCase` on one character, for the capitals A–Z and the Cyrillic
      capitals U+0400–U+042F; every other character is kept. */
  function LowerChar(c: char): char {
    if 'A' <= c <= 'Z' || '\U{0410}' <= c <= '\U{042F}' then (c as int + 32) as char
    else if '\U{0400}' <= c <= '\U{040F}' then (c as int + 80) as char
    else c
  }

  /** `s.toLowerCase()`. */
  function ToLower(s: string): (r: string)
    ensures |r| == |s| && forall k :: 0 <= k < |s| ==> r[k] == LowerChar(s[k])
  {
    seq(|s|, k requires 0 <= k < |s| => LowerChar(s[k]))
  }

  /** Lower-casing twice is lower-casing once. */
  lemma ToLowerIdempotent(s: string)
    ensures ToLower(ToLower(s)) == ToLower(s)
  {
    assert forall c: char :: LowerChar(LowerChar(c)) == LowerChar(c);
  }

  /** `s.startsWith(p)`. */
  predicate StartsWith(s: string, p: string) {
    |p| <= |s| && s[..|p|] == p
  }

  /** `s.includes(p)`: `p` occurs in `s` at some position. */
  predicate Contains(s: string, p: string)
    decreases |s|
  {
    StartsWith(s, p) || (|s| > 0 && Contains(s[1..], p))
  }

  /** Every string contains the empty string. */
  lemma ContainsEmpty(s: string)
    ensures Contains(s, "")
  {
    assert StartsWith(s, "");
  }

  // ---------------------------------------------------------------------------
  // Splitting and joining on one separator character

  /** C#'s `s.Split(sep)`: every field between separators, empty fields included. */
  function Split(s: string, sep: char): (parts: seq<string>)
    ensures |parts| >= 1
    ensures forall k :: 0 <= k < |parts| ==> sep !in parts[k]
    ensures Join(parts, sep) == s
  {
    if s == [] then [""]
    else
      var rest := Split(s[1..], sep);
      assert s == [s[0]] + s[1..];
      if s[0] == sep then
        assert ([""] + rest)[1..] == rest;
        [""] + rest
      else
        var parts := [[s[0]] + rest[0]] + rest[1..];
        if |rest| == 1 then
          parts
        else
          assert parts[1..] == rest[1..];
          assert Join(rest, sep) == rest[0] + [sep] + Join(rest[1..], sep);
          parts
  }

  /** The fields of `parts`, with `sep` between each two (`string.Join`). */
  function Join(parts: seq<string>, sep: char): string
    requires |parts| >= 1
  {
    if |parts| == 1 then parts[0] else parts[0] + [sep] + Join(parts[1..], sep)
  }

  /** `f` is the field of `s` that starts at index `i`: it holds no separator and ends at
      a separator or at the end of `s`. */
  predicate IsFieldAt(s: string, i: nat, f: string, sep: char) {
    i + |f| <= |s| && f == s[i..i + |f|] && sep !in f && (i + |f| < |s| ==> s[i + |f|] == sep)
  }

  /** The first field runs up to the first separator, or to the end when there is none. */
  lemma SplitFirst(s: string, sep: char)
    ensures IsFieldAt(s, 0, Split(s, sep)[0], sep)
  {
    var parts := Split(s, sep);
    if |parts| > 1 {
      assert s == parts[0] + [sep] + Join(parts[1..], sep);
    }
  }

  /** There is more than one field exactly when the separator occurs. */
  lemma SplitHasSeparator(s: string, sep: char)
    ensures |Split(s, sep)| > 1 <==> sep in s
  {
    var parts := Split(s, sep);
    if |parts| > 1 {
      assert s == parts[0] + [sep] + Join(parts[1..], sep);
      assert s[|parts[0]|] == sep;
    }
  }

  /** After the first field and its separator, the rest splits into the other fields. */
  lemma SplitRest(s: string, sep: char)
    requires |Split(s, sep)| > 1
    ensures var parts := Split(s, sep);
      |parts[0]| < |s| && Split(s[|parts[0]| + 1..], sep) == parts[1..]
  {
    var parts := Split(s, sep);
    assert s == parts[0] + [sep] + Join(parts[1..], sep);
    assert s[|parts[0]| + 1..] == Join(parts[1..], sep);
    SplitJoin(parts[1..], sep);
  }

  /** The second field runs from just after the first separator up to the next one, or to
      the end when there is none. */
  lemma SplitSecond(s: string, sep: char)
    requires |Split(s, sep)| > 1
    ensures var parts := Split(s, sep); IsFieldAt(s, |parts[0]| + 1, parts[1], sep)
  {
    var parts := Split(s, sep);
    SplitRest(s, sep);
    var i := |parts[0]| + 1;
    SplitFirst(s[i..], sep);
    var q := parts[1];
    assert q == s[i..][..|q|];
  }

  /** A field without the separator, followed by the separator, splits off as one field. */
  lemma {:induction false} SplitAfterField(a: string, sep: char, rest: string)
    requires sep !in a
    ensures Split(a + [sep] + rest, sep) == [a] + Split(rest, sep)
  {
    var s := a + [sep] + rest;
    if a == [] {
      assert s[1..] == rest;
    } else {
      assert s[1..] == a[1..] + [sep] + rest;
      SplitAfterField(a[1..], sep, rest);
      assert [a[0]] + a[1..] == a;
    }
  }

  /** A string without the separator is one field. */
  lemma {:induction false} SplitNoSeparator(a: string, sep: char)
    requires sep !in a
    ensures Split(a, sep) == [a]
  {
    if a != [] {
      SplitNoSeparator(a[1..], sep);
      assert [a[0]] + a[1..] == a;
    }
  }

  /** Splitting undoes joining when no field holds the separator. */
  lemma {:induction false} SplitJoin(parts: seq<string>, sep: char)
    requires |parts| >= 1
    requires forall k :: 0 <= k < |parts| ==> sep !in parts[k]
    ensures Split(Join(parts, sep), sep) == parts
  {
    if |parts| == 1 {
      SplitNoSeparator(parts[0], sep);
    } else {
      SplitJoin(parts[1..], sep);
      SplitAfterField(parts[0], sep, Join(parts[1..], sep));
      assert [parts[0]] + parts[1..] == parts;
    }
  }

  // ---------------------------------------------------------------------------
  // Decimal integers

  predicate IsDigit(c: char) {
    '0' <= c <= '9'
  }

  predicate AllDigits(s: string) {
    forall k :: 0 <= k < |s| ==> IsDigit(s[k])
  }

  function DigitChar(d: nat): (c: char)
    requires d < 10
    ensures IsDigit(c) && c as int - '0' as int == d
  {
    ('0' as int + d) as char
  }

  /** The decimal digits of `n`, without leading zeros. */
  function NatToDecimal(n: nat): (s: string)
    ensures |s| >= 1 && AllDigits(s)
    ensures |s| > 1 ==> s[0] != '0'
  {
    if n < 10 then [DigitChar(n)] else NatToDecimal(n / 10) + [DigitChar(n % 10)]
  }

  /** The number a string of decimal digits denotes. */
  function DecimalValue(s: string): nat
    requires AllDigits(s)
  {
    if s == [] then 0 else DecimalValue(s[..|s| - 1]) * 10 + (s[|s| - 1] as int - '0' as int)
  }

  /** Reading back the digits of `n` gives `n`. */
  lemma {:induction false} DecimalRoundTrip(n: nat)
    ensures DecimalValue(NatToDecimal(n)) == n
  {
    if n >= 10 {
      var s := NatToDecimal(n);
      assert s[..|s| - 1] == NatToDecimal(n / 10);
      DecimalRoundTrip(n / 10);
    }
  }

  /** How JavaScript's template literals and C#'s interpolation render an integer. */
  function IntToString(n: int): (s: string)
    ensures |s| >= 1 && IsDigit(s[|s| - 1])
    ensures n >= 0 <==> AllDigits(s)
  {
    if n < 0 then
      var s := "-" + NatToDecimal(-n);
      assert !IsDigit(s[0]);
      s
    else NatToDecimal(n)
  }

  const Int32Min: int := -0x8000_0000
  const Int32Max: int := 0x7FFF_FFFF

  /** The white space `int.TryParse` skips before and after the number. */
  predicate IsNetSpace(c: char) {
    ('\t' <= c <= '\r') || c == ' '
  }

  predicate AllNetSpace(s: string) {
    forall k :: 0 <= k < |s| ==> IsNetSpace(s[k])
  }

  predicate AllNul(s: string) {
    forall k :: 0 <= k < |s| ==> s[k] == '\0'
  }

  /** `s` without its leading white space, in the sense of `int.TryParse`. */
  function NetTrimStart(s: string): string {
    if |s| > 0 && IsNetSpace(s[0]) then NetTrimStart(s[1..]) else s
  }

  /** `s` without its trailing white space, in the sense of `int.TryParse`. */
  function NetTrimEnd(s: string): string {
    if |s| > 0 && IsNetSpace(s[|s| - 1]) then NetTrimEnd(s[..|s| - 1]) else s
  }

  /** `s` without the NUL characters `int.TryParse` tolerates at the very end. */
  function NulTrimEnd(s: string): string {
    if |s| > 0 && s[|s| - 1] == '\0' then NulTrimEnd(s[..|s| - 1]) else s
  }

  /** `NetTrimStart` drops a blank prefix and stops at a non-space. */
  lemma {:induction false} NetTrimStartSplit(s: string) returns (lead: string)
    ensures s == lead + NetTrimStart(s) && AllNetSpace(lead)
    ensures NetTrimStart(s) != [] ==> !IsNetSpace(NetTrimStart(s)[0])
  {
    if |s| > 0 && IsNetSpace(s[0]) {
      var rest := NetTrimStartSplit(s[1..]);
      lead := [s[0]] + rest;
      assert s == [s[0]] + s[1..];
    } else {
      lead := [];
    }
  }

  /** `NetTrimEnd` drops a blank suffix and stops at a non-space. */
  lemma {:induction false} NetTrimEndSplit(s: string) returns (trail: string)
    ensures s == NetTrimEnd(s) + trail && AllNetSpace(trail)
    ensures NetTrimEnd(s) != [] ==> !IsNetSpace(NetTrimEnd(s)[|NetTrimEnd(s)| - 1])
  {
    if |s| > 0 && IsNetSpace(s[|s| - 1]) {
      var rest := NetTrimEndSplit(s[..|s| - 1]);
      trail := rest + [s[|s| - 1]];
      assert s == s[..|s| - 1] + [s[|s| - 1]];
    } else {
      trail := [];
    }
  }

  /** `NulTrimEnd` drops a suffix of NULs and stops at another character. */
  lemma {:induction false} NulTrimEndSplit(s: string) returns (nuls: string)
    ensures s == NulTrimEnd(s) + nuls && AllNul(nuls)
    ensures NulTrimEnd(s) != [] ==> NulTrimEnd(s)[|NulTrimEnd(s)| - 1] != '\0'
  {
    if |s| > 0 && s[|s| - 1] == '\0' {
      var rest := NulTrimEndSplit(s[..|s| - 1]);
      nuls := rest + [s[|s| - 1]];
      assert s == s[..|s| - 1] + [s[|s| - 1]];
    } else {
      nuls := [];
    }
  }

  /** The digits of an optionally signed number, after its sign. */
  function Unsigned(t: string): string {
    if |t| > 0 && (t[0] == '-' || t[0] == '+') then t[1..] else t
  }

  /** What may stand before the digits: nothing, a minus or a plus sign. */
  predicate IsSign(p: string) {
    |p| <= 1 && (|p| == 1 ==> p[0] == '-' || p[0] == '+')
  }

  /** The value of `digits` read with the sign `sign` in front. */
  function SignedValue(sign: string, digits: string): int
    requires AllDigits(digits)
  {
    if sign != [] && sign[0] == '-' then -(DecimalValue(digits) as int) else DecimalValue(digits)
  }

  /** The layout `int.TryParse` accepts with its default integer style: blank `lead`,
      optional sign, one or more decimal digits, blank `trail`, then only NULs. */
  predicate Int32Layout(s: string, lead: string, sign: string, digits: string, trail: string, nuls: string) {
    s == lead + sign + digits + trail + nuls
    && AllNetSpace(lead) && IsSign(sign) && digits != [] && AllDigits(digits)
    && AllNetSpace(trail) && AllNul(nuls)
  }

  /** C#'s `int.TryParse(s, out v)`: optional white space, an optional sign, one or more
      decimal digits, optional white space, optional NULs at the very end, and a value
      that fits in 32 bits; `None` stands for `false`. The signs are taken to be the
      ASCII minus and plus, which is what the current culture gives in English-language
      and invariant settings. */
  function TryParseInt32(s: string): (r: Option<int>)
    ensures r.Some? ==> Int32Min <= r.value <= Int32Max
  {
    ParseNumber(NetTrimEnd(NulTrimEnd(NetTrimStart(s))))
  }

  /** The number `int.TryParse` reads once the blanks and NULs around it are gone. */
  function ParseNumber(t: string): (r: Option<int>)
    ensures r.Some? ==> Int32Min <= r.value <= Int32Max
  {
    var body := Unsigned(t);
    if body == [] || !AllDigits(body) then None
    else
      var v: int := if t[0] == '-' then -(DecimalValue(body) as int) else DecimalValue(body);
      if Int32Min <= v <= Int32Max then Some(v) else None
  }

  /** Every text of the accepted layout parses to its signed value when that fits in
      32 bits, and fails otherwise. */
  lemma ParseLayout(s: string, lead: string, sign: string, digits: string, trail: string, nuls: string)
    requires Int32Layout(s, lead, sign, digits, trail, nuls)
    ensures var v := SignedValue(sign, digits);
      TryParseInt32(s) == if Int32Min <= v <= Int32Max then Some(v) else None
  {
    assert NetTrimEnd(NulTrimEnd(NetTrimStart(s))) == sign + digits by {
      SignedNumber(sign, digits);
      Regroup(lead, sign, digits, trail, nuls);
      TrimLayout(s, lead, sign + digits, trail, nuls);
    }
    SignedNumber(sign, digits);
  }

  /** The trimming `int.TryParse` does leaves exactly the signed number. */
  lemma TrimLayout(s: string, lead: string, core: string, trail: string, nuls: string)
    requires s == lead + core + trail + nuls
    requires AllNetSpace(lead) && AllNetSpace(trail) && AllNul(nuls)
    requires core != [] && !IsNetSpace(core[0]) && IsDigit(core[|core| - 1])
    ensures NetTrimEnd(NulTrimEnd(NetTrimStart(s))) == core
  {
    var w := core + trail;
    var u := w + nuls;
    assert NetTrimStart(s) == u by {
      assert s == lead + u && u[0] == core[0];
      NetTrimStartBlank(lead, u);
    }
    assert NulTrimEnd(u) == w by {
      assert w[|w| - 1] == if trail == [] then core[|core| - 1] else trail[|trail| - 1];
      NulTrimEndNuls(w, nuls);
    }
    NetTrimEndBlank(core, trail);
  }

  /** A sign followed by digits reads as its signed value, within 32 bits. */
  lemma SignedNumber(sign: string, digits: string)
    requires IsSign(sign) && digits != [] && AllDigits(digits)
    ensures var t := sign + digits; t != [] && !IsNetSpace(t[0]) && IsDigit(t[|t| - 1])
    ensures var v := SignedValue(sign, digits);
      ParseNumber(sign + digits) == if Int32Min <= v <= Int32Max then Some(v) else None
  {
    var t := sign + digits;
    assert IsDigit(digits[0]) && t[|t| - 1] == digits[|digits| - 1];
    if sign == [] {
      assert t == digits;
    } else {
      assert t[0] == sign[0] && t[1..] == digits;
    }
  }

  /** Whatever parses has the accepted layout, and its value is the layout's signed value. */
  lemma ParseOnlyLayout(s: string)
    requires TryParseInt32(s).Some?
    ensures exists lead, sign, digits, trail, nuls ::
      Int32Layout(s, lead, sign, digits, trail, nuls) && AllDigits(digits)
      && TryParseInt32(s).value == SignedValue(sign, digits)
  {
    var u := NetTrimStart(s);
    var w := NulTrimEnd(u);
    var t := NetTrimEnd(w);
    var lead := NetTrimStartSplit(s);
    var nuls := NulTrimEndSplit(u);
    var trail := NetTrimEndSplit(w);
    var sign, digits := NumberLayout(t);
    Regroup(lead, sign, digits, trail, nuls);
    assert Int32Layout(s, lead, sign, digits, trail, nuls);
  }

  lemma Regroup(lead: string, sign: string, digits: string, trail: string, nuls: string)
    ensures lead + sign + digits + trail + nuls == lead + (sign + digits) + trail + nuls
    ensures lead + sign + digits + trail + nuls == lead + (((sign + digits) + trail) + nuls)
  {
  }

  /** What `ParseNumber` accepts is a sign followed by digits. */
  lemma NumberLayout(t: string) returns (sign: string, digits: string)
    requires ParseNumber(t).Some?
    ensures t == sign + digits && IsSign(sign) && digits != [] && AllDigits(digits)
    ensures ParseNumber(t).value == SignedValue(sign, digits)
  {
    digits := Unsigned(t);
    if |t| > 0 && (t[0] == '-' || t[0] == '+') {
      sign := [t[0]];
      assert t == sign + digits;
    } else {
      sign := [];
      assert t == sign + digits;
    }
    assert IsDigit(digits[0]);
  }

  /** Leading white space before a non-space is dropped exactly. */
  lemma {:induction false} NetTrimStartBlank(lead: string, rest: string)
    requires AllNetSpace(lead)
    requires rest == [] || !IsNetSpace(rest[0])
    ensures NetTrimStart(lead + rest) == rest
  {
    if lead == [] {
      assert lead + rest == rest;
    } else {
      assert (lead + rest)[1..] == lead[1..] + rest;
      NetTrimStartBlank(lead[1..], rest);
    }
  }

  /** Trailing white space after a non-space is dropped exactly. */
  lemma {:induction false} NetTrimEndBlank(core: string, trail: string)
    requires AllNetSpace(trail)
    requires core == [] || !IsNetSpace(core[|core| - 1])
    ensures NetTrimEnd(core + trail) == core
  {
    if trail == [] {
      assert core + trail == core;
    } else {
      assert (core + trail)[..|core + trail| - 1] == core + trail[..|trail| - 1];
      NetTrimEndBlank(core, trail[..|trail| - 1]);
    }
  }

  /** Trailing NULs after a non-NUL are dropped exactly. */
  lemma {:induction false} NulTrimEndNuls(core: string, nuls: string)
    requires AllNul(nuls)
    requires core == [] || core[|core| - 1] != '\0'
    ensures NulTrimEnd(core + nuls) == core
  {
    if nuls == [] {
      assert core + nuls == core;
    } else {
      assert (core + nuls)[..|core + nuls| - 1] == core + nuls[..|nuls| - 1];
      NulTrimEndNuls(core, nuls[..|nuls| - 1]);
    }
  }

  /** `int.TryParse` reads back every 32-bit integer as rendered in decimal. */
  lemma ParseRendered(n: int)
    requires Int32Min <= n <= Int32Max
    ensures TryParseInt32(IntToString(n)) == Some(n)
  {
    var s := IntToString(n);
    var digits := NatToDecimal(if n < 0 then -n else n);
    var sign := s[..|s| - |digits|];
    assert Int32Layout(s, [], sign, digits, [], []) by {
      assert s == [] + sign + digits + [] + [];
    }
    DecimalRoundTrip(if n < 0 then -n else n);
    ParseLayout(s, [], sign, digits, [], []);
  }

}

=== FILE: theme.dfy ===
/** The spacing and font-size helpers of the application theme (`vitaentTheme`): every
    length is multiplied by the CSS variable `--ui-scale`.

    How JavaScript renders a number as text is a parameter (`render`). Only its
    behaviour on whole numbers of magnitude at most 2^53 is assumed, and only by the
    lemmas that need it (`RendersIntegers`). Above 2^53 JavaScript prints the shortest
    digits that read back to the same double, padded with zeros, so `${2 ** 60}` is
    `1152921504606847000` rather than the exact digits. Multiplying by 8 is exact in binary floating point, so the
    product is computed on reals. */
module Theme {
  import Text

  /** One argument of `uiSpacing`: a CSS text or a number of 8-pixel steps. */
  datatype SpacingArg = Css(text: string) | Steps(n: real)

  const ScaleFactor: string := " * var(--ui-scale, 1))"

  /** 2^53: up to this magnitude every whole number is a double and renders as its exact digits. */
  const ExactIntegerLimit: int := 9_007_199_254_740_992

  /** Template-literal rendering of whole numbers up to the limit: their decimal digits. */
  ghost predicate RendersIntegers(render: real -> string) {
    forall n: int :: -ExactIntegerLimit <= n <= ExactIntegerLimit ==> render(n as real) == Text.IntToString(n)
  }

  /** The text for one argument: a string as is, zero as `0px`, any other number as
      eight pixels per step, scaled. */
  function ArgSpacing(arg: SpacingArg, render: real -> string): (s: string)
    ensures arg.Css? ==> s == arg.text
    ensures arg.Steps? && arg.n == 0.0 ==> s == "0px"
    ensures arg.Steps? && arg.n != 0.0 ==> s == "calc(" + render(arg.n * 8.0) + "px" + ScaleFactor
  {
    match arg
    case Css(text) => text
    case Steps(n) => if n == 0.0 then "0px" else "calc(" + render(n * 8.0) + "px" + ScaleFactor
  }

  /** `args.map(...)`. */
  function Pieces(args: seq<SpacingArg>, render: real -> string): (pieces: seq<string>)
    ensures |pieces| == |args|
    ensures forall k :: 0 <= k < |args| ==> pieces[k] == ArgSpacing(args[k], render)
  {
    seq(|args|, k requires 0 <= k < |args| => ArgSpacing(args[k], render))
  }

  /** `uiSpacing(...args)`: `0px` without arguments, else the pieces joined by spaces. */
  function UiSpacing(args: seq<SpacingArg>, render: real -> string): (s: string)
    ensures args == [] ==> s == "0px"
    ensures |args| == 1 ==> s == ArgSpacing(args[0], render)
  {
    if args == [] then "0px" else Text.Join(Pieces(args, render), ' ')
  }

  /** Spacing for several arguments is the spacing of the first part, a space, and the
      spacing of the rest, for any way of cutting the arguments in two. */
  lemma {:induction false} UiSpacingAppend(first: seq<SpacingArg>, rest: seq<SpacingArg>, render: real -> string)
    requires first != [] && rest != []
    ensures UiSpacing(first + rest, render) == UiSpacing(first, render) + " " + UiSpacing(rest, render)
  {
    var all := Pieces(first + rest, render);
    if |first| == 1 {
      assert all[1..] == Pieces(rest, render);
    } else {
      assert (first + rest)[1..] == first[1..] + rest;
      UiSpacingAppend(first[1..], rest, render);
      assert all[1..] == Pieces(first[1..] + rest, render);
      assert Pieces(first, render)[1..] == Pieces(first[1..], render);
    }
  }

  /** A whole number of steps `n` other than zero gives `calc(<8n>px * var(--ui-scale, 1))`. */
  lemma WholeSteps(n: int, render: real -> string)
    requires RendersIntegers(render)
    requires n != 0 && -ExactIntegerLimit <= 8 * n <= ExactIntegerLimit
    ensures UiSpacing([Steps(n as real)], render) == "calc(" + Text.IntToString(8 * n) + "px" + ScaleFactor
  {
    assert (n as real) * 8.0 == (8 * n) as real;
  }

  /** `theme.spacing(2, 0, "auto")`, as an example of the three kinds of argument. */
  lemma MixedArguments(render: real -> string)
    requires render(16.0) == "16"
    ensures UiSpacing([Steps(2.0), Steps(0.0), Css("auto")], render)
         == "calc(16px * var(--ui-scale, 1)) 0px auto"
  {
    var args := [Steps(2.0), Steps(0.0), Css("auto")];
    var pieces := Pieces(args, render);
    assert 2.0 * 8.0 == 16.0;
    assert pieces[0] == "calc(" + "16" + "px" + ScaleFactor;
    assert pieces[1] == "0px" && pieces[2] == "auto";
    assert pieces[1..][1..] == ["auto"];
    assert Text.Join(pieces[1..], ' ') == "0px" + [' '] + "auto";
    assert UiSpacing(args, render) == "calc(" + "16" + "px" + ScaleFactor + [' '] + ("0px" + [' '] + "auto");
    MixedArgumentsText();
  }

  /** The pieces of `theme.spacing(2, 0, "auto")`, spelled out. */
  lemma MixedArgumentsText()
    ensures "calc(" + "16" + "px" + ScaleFactor + [' '] + ("0px" + [' '] + "auto")
         == "calc(16px * var(--ui-scale, 1)) 0px auto"
  {
  }

  /** A font size of a whole number of `rem` renders as that number. */
  lemma WholeRem(n: int, render: real -> string)
    requires RendersIntegers(render)
    requires -ExactIntegerLimit <= n <= ExactIntegerLimit
    ensures WithUiScale(n as real, render) == "calc(" + Text.IntToString(n) + "rem" + ScaleFactor
  {
  }

  /** `withUiScale(sizeRem)`: a font size in `rem`, scaled. */
  function WithUiScale(sizeRem: real, render: real -> string): (s: string)
    ensures Text.StartsWith(s, "calc(" + render(sizeRem) + "rem")
    ensures |s| == |render(sizeRem)| + 30
    ensures s[|s| - |ScaleFactor|..] == ScaleFactor
  {
    var s := "calc(" + render(sizeRem) + "rem" + ScaleFactor;
    assert s[|s| - |ScaleFactor|..] == ScaleFactor;
    s
  }

  /** The `body2` font size, a fraction of a `rem`, with its usual shortest rendering. */
  lemma Body2FontSize(render: real -> string)
    requires render(0.95) == "0.95"
    ensures WithUiScale(0.95, render) == "calc(0.95rem * var(--ui-scale, 1))"
  {
    RemSize(0.95, render, "0.95");
    Body2Text();
  }

  /** The rendered `body2` size, spelled out. */
  lemma Body2Text()
    ensures "calc(" + "0.95" + "rem * var(--ui-scale, 1))" == "calc(0.95rem * var(--ui-scale, 1))"
  {
  }

  /** A size whose rendering is `text` gives `calc(<text>rem * var(--ui-scale, 1))`. */
  lemma RemSize(sizeRem: real, render: real -> string, text: string)
    requires render(sizeRem) == text
    ensures WithUiScale(sizeRem, render) == "calc(" + text + "rem * var(--ui-scale, 1))"
  {
    assert "rem" + ScaleFactor == "rem * var(--ui-scale, 1))";
    assert "calc(" + text + "rem" + ScaleFactor == "calc(" + text + ("rem" + ScaleFactor);
  }
}

=== FILE: wrappers.dfy ===
/** Optional values and error-carrying results shared by every module of the model. */
module Wrappers {

  /** A value that may be absent: JavaScript's `undefined`/`null`, C#'s `null`. */
  datatype Option<+T> = None | Some(value: T) {
    /** The value, or `default` when absent (JavaScript's `??`). */
    function GetOr(default: T): T {
      match this
      case Some(v) => v
      case None => default
    }
  }

  /** The outcome of an operation that may raise an error instead of returning. */
  datatype Result<+T, +E> = Success(value: T) | Failure(error: E)
}
